=== FILE: README.md ===
# CICTrix HRIS — a verified model of its access rules, forms and list logic

CICTrix is a human-resources information system for a city government. It
has a React front end and two thin HTTP back ends over the same Supabase
tables: an Express one (`backend/src`) and a FastAPI one (`backend/app`).
This project models in Dafny the parts of it that decide something, and
proves what they promise:

- **Back ends.**
  - Bearer-token extraction and the token payload and lifetime (`Jwt`).
  - The Express 401-before-403 middleware (`ExpressMiddleware`) and the
    FastAPI dependencies that do the same (`FastApiDeps`).
  - The applicant and evaluation routes of both back ends: their role
    allow-lists, the APPLICANT and own-evaluation row filters, the
    pagination windows, the 400/403/404 answers and the rows written
    (`ExpressApplicants`, `ExpressEvaluations`, `FastApiApplicants`,
    `FastApiEvaluations`).
  - The Express auth routes (`ExpressAuth`).
  - The rows and query semantics both back ends share (`Api`).
- **Front-end access control.**
  - The navigation table and the path rules built on it (`Navigation`).
  - The route guard (`ProtectedRoute`) and the role dispatch (`RoleDashboard`).
  - The authentication context: `isAdmin`, `hasRole` and the session
    state (`AuthContext`).
- **Applicant intake.**
  - The field and file validators (`Validation`).
  - The two-step wizard and its upload loop (`ApplicantWizard`).
  - The attachment list (`AttachmentsUpload`).
  - The position tables and the position-to-office auto-fill
    (`Positions`, `AssessmentForm`).
  - The in-browser mock table store (`MockDatabase`).
- **Interviewing.**
  - The evaluation form's scoring, tiers, validation, payload and the
    order of its writes (`EvaluationForm`).
  - The interviewer's applicant list with its evaluation status
    (`InterviewerApplicants`).
- **Administration dashboards.** Recruitment (`RspDashboard`), training
  (`LndDashboard`), performance cycles (`PmDashboard`) and raters
  (`RaterManagement`).
- **Sign-in and employee pages.**
  - The interviewer and admin staff logins (`InterviewerLogin`,
    `AdminLogin`, over the shared service answers in `SignIn`).
  - The employee login form (`EmployeeLogin`), the employee's document
    page (`EmployeePage`) and the employee session hook (`EmployeePortal`).

`Wrappers` (Option and Result), `Strings` (JavaScript whitespace, `trim`,
`includes`, ASCII lower-casing, code-point order, `parseInt`, `padStart`),
`Seqs` (filter, count, keyed lookup) and `Files` (a browser file) are
shared helpers.

Modelling conventions:

- Every call to Supabase, to the JWT library or to storage is a
  parameter. The model receives its outcome: rows or an error, a decoded
  payload or none, a failure flag.
- Component state is a `class` whose methods are the component's handlers.
- Handlers that change state are methods. Each states its whole new state
  and is proved against the pure functions that give the rules.
- Each source file keeps its own role spelling: `Admin` in the front end,
  `ADMIN` in the back ends, `super-admin` in the admin login. They are not
  unified.

## Model

| member | source | states |
|---|---|---|
| Jwt.ExtractToken | backend/src/utils/jwt.ts:26-31 | a token is returned exactly when the header is present and starts with `Bearer `, and the header is that prefix followed by the token; otherwise the one header error |
| Jwt.ExtractTokenRoundTrip | backend/src/utils/jwt.ts:26-31 | prefixing any token with `Bearer ` and extracting it gives the token back |
| Jwt.ExtractTokenIsStrict | backend/src/utils/jwt.ts:27-29 | a lower-case `bearer `, a missing space and a missing header are all rejected |
| Jwt.ExpiresIn | backend/src/utils/jwt.ts:12-14 | the lifetime is defined exactly when the setting parses as an integer, and is that many hours in seconds |
| Jwt.CreateToken | backend/src/utils/jwt.ts:5-16 | the signed payload carries the given user id, email and role unchanged, with the lifetime derived from the setting |
| Jwt.ExpiresInHours | backend/src/utils/jwt.ts:12-14 | a setting written as `n` hours expires after `n * 3600` seconds |
| Jwt.DefaultExpiresInADay | backend/src/utils/jwt.ts:12-14 | the default setting `24` gives 86400 seconds |
| Jwt.VerifyToken | backend/src/utils/jwt.ts:18-24 | verification succeeds exactly when the library decodes the token, returns the decoded payload, and otherwise fails with `Invalid token` |
| Jwt.SignedTokenVerifies | backend/src/utils/jwt.ts:5-31 | a token the library signed for a payload verifies to that payload and survives being sent as a bearer header |
| ExpressMiddleware.Authenticate | backend/src/middleware/auth.ts:10-12 | authentication succeeds exactly when a Bearer token is extracted and the library decodes it, and yields the decoded payload |
| ExpressMiddleware.AuthGate | backend/src/middleware/auth.ts:9-17 | the request passes with the decoded user exactly when authentication succeeds; every failure is a 401 `Unauthorized` |
| ExpressMiddleware.RoleGate | backend/src/middleware/auth.ts:19-36 | the request passes exactly when authentication succeeds and the role is listed; a bad token gives 401, an unlisted role 403 `Insufficient permissions` |
| ExpressMiddleware.RoleGateRefinesAuthGate | backend/src/middleware/auth.ts:9-36 | whatever `authMiddleware` refuses the role gate refuses the same way; a role-gate pass is an auth pass; a role-gate refusal of an authenticated user is a 403 |
| ExpressMiddleware.NoAdminSuperset | backend/src/middleware/auth.ts:25-28 | an authenticated `ADMIN` is refused with 403 wherever `ADMIN` is not listed |
| ExpressMiddleware.ValidBearerPasses | backend/src/middleware/auth.ts:9-36 | a well-formed header with a token the library accepts passes both gates with the decoded user |
| ExpressMiddleware.Exchange.constructor | backend/src/middleware/auth.ts:9 | a fresh request has no user, status 200, no error body and `next` not yet called |
| ExpressMiddleware.Exchange.AuthMiddleware | backend/src/middleware/auth.ts:9-17 | on a pass the user is attached and `next` is called with nothing written; on a refusal 401 is written, no user is attached and `next` is not called |
| ExpressMiddleware.Exchange.RequireRole | backend/src/middleware/auth.ts:19-36 | on a pass the user is attached and `next` is called; on a refusal the gate's status and error are written and `next` is not called |
| Api.SelectApplicants | backend/src/routes/applicants.ts:25-30 | the selected rows are a subsequence of the table, every selected row matches every `.eq` filter, and every matching row is selected |
| Api.SelectApplicantsMultiset | backend/src/routes/applicants.ts:25-30 | a query keeps each matching row exactly as many times as the table holds it, and no other row |
| Api.SelectApplicantsCons | backend/src/routes/applicants.ts:25-30 | selection proceeds row by row: the first row is kept exactly when it matches, followed by the selection from the rest |
| Api.SelectAbsentId | backend/src/routes/applicants.ts:65-74 | an `.eq('id', id)` query on a table without that id selects nothing, so `.single()` errors and the route answers 404 |
| Api.SelectByEmail | backend/src/routes/applicants.ts:28-34 | `.eq('email', email)` selects, in table order, exactly the rows carrying that email |
| Api.SelectById | backend/src/routes/applicants.ts:63-69 | with primary-key ids, `.eq('id', id)` on a stored row's id selects exactly that row |
| Api.SelectEvaluations | backend/src/routes/evaluations.ts:20-31 | the selected evaluations are a subsequence of the table, each matches every filter, and every matching row is selected |
| Api.SelectEvaluationsMultiset | backend/src/routes/evaluations.ts:20-31 | a query keeps each matching evaluation exactly as many times as the table holds it, and no other row |
| Api.Range | backend/src/routes/applicants.ts:36-38 | `.range(from, to)` returns the existing rows at positions `from`..`to` inclusive, in order, and never more than `to - from + 1` of them |
| ExpressApplicants.SkipParam | backend/src/routes/applicants.ts:22 | a missing or unparsable `skip` gives 0, otherwise the integer `parseInt` reads (a parsed 0 is 0 either way) |
| ExpressApplicants.LimitParam | backend/src/routes/applicants.ts:23 | the limit never exceeds 100; a missing, unparsable or zero `limit` gives 10, and any other parsed value is capped at 100 |
| ExpressApplicants.PagingOfDecimals | backend/src/routes/applicants.ts:22-23 | a decimal `skip` is taken as written; a decimal `limit` becomes 10 when zero and is capped at 100 |
| ExpressApplicants.RowFilters | backend/src/routes/applicants.ts:28-34 | an APPLICANT's query is filtered to the caller's own email; every other role's query gets no filter |
| ExpressApplicants.Listing | backend/src/routes/applicants.ts:25-38 | the listed rows are stored rows, at most `limit` of them; an APPLICANT gets exactly the `skip`..`skip+limit-1` window of the rows carrying their email, in table order; any other role gets exactly that window of the whole table |
| ExpressApplicants.FilterAllApplicants | backend/src/routes/applicants.ts:31-34 | with no filter (INTERVIEWER, RATER and the staff roles) the query selects the whole table |
| ExpressApplicants.ListApplicants | backend/src/routes/applicants.ts:14-49 | the role gate's refusal is passed through; a query error gives 500 with its message; otherwise 200 with the listing for the caller's role and paging |
| ExpressApplicants.ListingBounds | backend/src/routes/applicants.ts:22-38 | whatever the query strings, a listing holds at most 100 rows, and an APPLICANT's listing only their own rows |
| ExpressApplicants.Single | backend/src/routes/applicants.ts:65-69 | `.single()` yields a row exactly when one row matched, and then that row |
| ExpressApplicants.GetApplicant | backend/src/routes/applicants.ts:55-87 | refusals of the gate pass through; a query error or no single match gives 404; an APPLICANT asking for another's row gets 403; otherwise 200 with the stored row of that id |
| ExpressApplicants.StoredApplicantIsFound | backend/src/routes/applicants.ts:63-74 | with primary-key ids, asking for any stored row's id finds that row |
| ExpressApplicants.UpdateApplicant | backend/src/routes/applicants.ts:92-127 | the body is sent unchanged exactly when the write gate passes and the id exists; otherwise the gate's refusal or 404; a sent update answers 200 with the row or 500 with the error |
| ExpressEvaluations.ListFilters | backend/src/routes/evaluations.ts:20-31 | the applicant filter is added exactly when `applicant_id` is truthy, the evaluator filter exactly for RATER and INTERVIEWER, and nothing else |
| ExpressEvaluations.ListFiltersMatch | backend/src/routes/evaluations.ts:20-31 | a row passes the query's filters exactly when it is of the asked applicant (if any) and, for raters and interviewers, written by the caller |
| ExpressEvaluations.Visible | backend/src/routes/evaluations.ts:22-33 | the listed rows are a subsequence of the table, so they keep its newest-first order; each admitted row appears exactly as often as it is stored, and no other row appears |
| ExpressEvaluations.ListEvaluations | backend/src/routes/evaluations.ts:12-45 | the role gate's refusal passes through; a query error gives 500; otherwise 200 with the visible rows |
| ExpressEvaluations.StoredScore | backend/src/routes/evaluations.ts:73-78 | a `null` score is stored as null and a number as that number |
| ExpressEvaluations.StoredComments | backend/src/routes/evaluations.ts:77 | the comment is stored exactly when truthy; an empty or missing comment becomes null |
| ExpressEvaluations.CreateEvaluation | backend/src/routes/evaluations.ts:51-96 | a row is inserted exactly when the gate passes, `applicant_id` is truthy, `score` is present and not outside 0..100; the row carries the caller as evaluator; otherwise the gate's refusal, or 400 with the missing-field or range message; an insert answers 201 or 500 |
| ExpressEvaluations.CreateExcludesAdmin | backend/src/routes/evaluations.ts:12-51 | an ADMIN may list but is refused (403) when creating, and every role that may create may also list |
| ExpressEvaluations.ScoreBoundsInclusive | backend/src/routes/evaluations.ts:66-69 | 0 and 100 pass the range check, as does `null`; -0.5 and 100.5 do not |
| ExpressAuth.Login | backend/src/routes/auth.ts:12-29 | a missing or empty email or password gives 400 with the required-fields message; any other body gives 501 (not implemented); no token is ever returned |
| ExpressAuth.Logout | backend/src/routes/auth.ts:34-36 | logout always answers 200 with the logged-out message |
| ExpressAuth.Me | backend/src/routes/auth.ts:41-52 | without `req.user` the answer is exactly 401 `Not authenticated`; with one it is 200 carrying that user's id, email and role |
| ExpressAuth.MeAsMounted | backend/src/index.ts:26 | mounted without the auth middleware, `/api/auth/me` answers 401 whatever header is sent |
| ExpressAuth.MeAsMountedRefusesValidToken | backend/src/routes/auth.ts:41-45 | a Bearer token the middleware would accept is still refused with 401 by `/me` as mounted |
| ExpressAuth.MeBehindAuth | backend/src/routes/auth.ts:41-52 | behind `authMiddleware`, a refused header gets the middleware's 401 and an accepted one gets `Me` of the decoded user |
| ExpressAuth.MeBehindAuthAnswersValidToken | backend/src/routes/auth.ts:47-51 | behind the middleware, a valid Bearer token gets 200 with exactly its own claims |
| FastApiDeps.VerifyToken | backend/app/core/security.py:35-50 | token data is returned exactly when the token decodes and carries user id, email and role, and then holds those three claims |
| FastApiDeps.GetCurrentUser | backend/app/utils/dependencies.py:8-18 | the caller is the verified token data, and every verification failure becomes the one 401 with the `WWW-Authenticate: Bearer` header |
| FastApiDeps.ReprItems | backend/app/utils/dependencies.py:27 | the items of the tuple's text are empty exactly when the tuple is |
| FastApiDeps.TupleRepr | backend/app/utils/dependencies.py:27 | the tuple's text is parenthesised and ends in `,)` exactly for a one-element tuple, as Python prints it |
| FastApiDeps.ReprItemsEndsWithQuote | backend/app/utils/dependencies.py:27 | the items of a non-empty tuple of strings end with a closing quote |
| FastApiDeps.Forbidden | backend/app/utils/dependencies.py:24-28 | the refusal is a 403 without headers whose detail is the required-role prefix followed by the tuple of allowed roles |
| FastApiDeps.RequireRole | backend/app/utils/dependencies.py:21-31 | an unauthenticated caller gets `get_current_user`'s error; an authenticated one passes exactly when their role is allowed, else gets the 403 |
| FastApiDeps.ForbiddenDetailOfOneRole | backend/app/utils/dependencies.py:27 | a one-role gate's detail reads `Required: ('RATER',)` with Python's trailing comma |
| FastApiDeps.MissingClaimIsUnauthenticated | backend/app/core/security.py:45-46 | a token lacking any claim is refused with the 401, whatever roles are allowed |
| FastApiApplicants.Skip | backend/app/routes/applicants.py:14 | `skip` is accepted exactly when absent (then 0) or a non-negative integer |
| FastApiApplicants.Limit | backend/app/routes/applicants.py:15 | `limit` is accepted exactly when absent (then 10) or an integer from 1 to 100 |
| FastApiApplicants.InvalidParams | backend/app/routes/applicants.py:14-15 | validation names no parameter exactly when both `skip` and `limit` are accepted |
| FastApiApplicants.RoleFilters | backend/app/routes/applicants.py:29-34 | an APPLICANT's query is filtered to their own email; every other role's is not filtered. This is the rule of `ExpressApplicants.RowFilters`, restated over the FastAPI token's `TokenData` |
| FastApiApplicants.RoleRows | backend/app/routes/applicants.py:27-34 | the rows keep the table order; an APPLICANT sees each stored row with their email exactly as often as it is stored, and no other; every other role sees the whole table |
| FastApiApplicants.ListApplicants | backend/app/routes/applicants.py:11-44 | an unauthenticated caller gets 401, bad paging 422 naming the parameters, a query error 500 with its text; otherwise the `skip`..`skip+limit-1` window of the rows the role may see, never more than 100 |
| FastApiApplicants.GetApplicant | backend/app/routes/applicants.py:47-86 | 401 without a valid token, 500 on a query error, 404 when no row has the id, 403 when an APPLICANT asks for another's row; otherwise the first stored row with that id |
| FastApiApplicants.UpdateDict | backend/app/routes/applicants.py:110-111 | the sent update holds exactly the body's keys that `ApplicantUpdate` declares, with their values |
| FastApiApplicants.UpdateApplicant | backend/app/routes/applicants.py:89-128 | the role gate's error passes through; an update is sent exactly when the gate passes and the id exists, and it is the filtered body; a lookup error or an empty update result gives 500, a missing id 404 |
| FastApiApplicants.UpdateDictDropsUnknownKeys | backend/app/models/applicant.py:21-30 | a key the update model does not declare never reaches the database, while `status` does |
| FastApiEvaluations.ListFilters | backend/app/routes/evaluations.py:37-44 | a row passes the query's filters exactly when it is of the asked applicant (if one is given and non-empty) and, for RATER and INTERVIEWER, written by the caller |
| FastApiEvaluations.ListEvaluations | backend/app/routes/evaluations.py:25-53 | the gate's error passes through and a query error gives 500; otherwise the answer keeps the table order and holds each admitted row exactly as often as it is stored, and no other row |
| FastApiEvaluations.InterviewerCannotList | backend/app/routes/evaluations.py:27-44 | an INTERVIEWER is refused with 403 by the gate, so the handler's INTERVIEWER branch is never reached |
| FastApiEvaluations.MissingFields | backend/app/routes/evaluations.py:11-14 | validation reports no missing field exactly when `applicant_id` and `score` are both present |
| FastApiEvaluations.CreateEvaluation | backend/app/routes/evaluations.py:56-84 | a row is inserted exactly when the gate passes and the body is complete; it carries the caller as evaluator and the body's score and comments; the answer is the first returned row, or 500 on an error or an empty result |
| MockDatabase.AppendFreshApplicant | src/lib/mockDatabase.ts:40-49 | appending a record with a fresh generated id keeps the stored ids distinct |
| MockDatabase.FirstWithId | src/lib/mockDatabase.ts:55 | `find` stops at the first record with the id, and every record before it has another id |
| MockDatabase.FirstWithIdUnique | src/lib/mockDatabase.ts:55 | with distinct ids, the record `find` returns is the only one with that id |
| MockDatabase.Store.constructor | src/lib/mockDatabase.ts:20-28 | a store with nothing saved under either key reads as two empty lists |
| MockDatabase.Store.InsertApplicant | src/lib/mockDatabase.ts:40-51 | the stored record is the insert's fields with the generated id, `created_at` and `updated_at` each taken from its own clock reading; it is appended to the applicants and attachments are untouched; no error |
| MockDatabase.Store.GetApplicant | src/lib/mockDatabase.ts:53-57 | a record is returned exactly when one has the id, and then the first such; otherwise the error `Not found` |
| MockDatabase.Store.GetApplicants | src/lib/mockDatabase.ts:59-62 | every stored applicant, in insertion order, without error |
| MockDatabase.Store.InsertAttachment | src/lib/mockDatabase.ts:65-75 | the attachment with its generated id and time is appended; applicants are untouched; no error |
| MockDatabase.Store.GetAttachmentsByApplicant | src/lib/mockDatabase.ts:77-81 | the stored attachments of that applicant, in stored order, each exactly as often as it is stored, and no other; no error |
| MockDatabase.Store.UploadFile | src/lib/mockDatabase.ts:84-95 | the report repeats the bucket, path, file name, size and type with the upload time; nothing is stored |
| MockDatabase.InsertedApplicantIsFound | src/lib/mockDatabase.ts:40-57 | after inserting with a fresh id, `getApplicant` of that id finds the inserted record |
| Validation.EmailPatternExamples | src/utils/validation.ts:30 | the email pattern accepts `a@b.c` and rejects a domain without a dot and an empty local part |
| Validation.FieldError | src/utils/validation.ts:6-42 | the item number and the PWD flag are never checked; the name and address lengths are counted in UTF-16 code units, as `trim().length` counts them |
| Validation.ValidateApplicantForm | src/utils/validation.ts:3-45 | each field's entry is exactly that field's message (required first, then the UTF-16 length of the trimmed text, or the format), and the result is empty exactly when the form meets every condition |
| Validation.EntriesAreFieldErrors | src/utils/validation.ts:3-45 | an errors object that agrees with each of the six checked fields agrees on every field |
| Validation.FormValidIffNoFieldError | src/utils/validation.ts:3-45 | the form is valid exactly when no field has a message |
| Validation.ValidFieldPasses | src/utils/validation.ts:3-45 | no field of a form that meets every condition gets a message |
| Validation.PassingFieldsValid | src/utils/validation.ts:3-45 | a form none of whose fields gets a message meets every condition |
| Validation.LengthErrorNone | src/utils/validation.ts:7-18 | with a positive minimum, the name or address check passes exactly when the trimmed text is long enough, the blank test then being implied |
| Validation.AstralNamePasses | src/utils/validation.ts:8-10 | a name of one character outside the Basic Multilingual Plane is two code units long and passes the two-character check |
| Validation.MissingRequired | src/utils/validation.ts:50-60 | the missing types are, in the required order, exactly the required types whose key is not among the uploaded ones |
| Validation.FileError | src/utils/validation.ts:89-95 | a file passes exactly when it is at most 10 MB and of an allowed type; otherwise the message names the file, and it is the size message exactly when the file is too large |
| Validation.FirstFileErrorSpec | src/utils/validation.ts:88-98 | the scan reports nothing exactly when every file passes, and otherwise the message of the first file that fails |
| Validation.ValidateFiles | src/utils/validation.ts:47-99 | the result is the verdict of the missing-documents check, the empty-list check, and then the per-file scan |
| Validation.FilesVerdictUncategorized | src/utils/validation.ts:74-98 | without categorized files, the files pass exactly when there is at least one and every one is within size and of an allowed type |
| Validation.NothingCategorizedMissesAll | src/utils/validation.ts:49-60 | an empty categorized list, being truthy, reports all six required documents missing |
| Validation.MissingDocumentsFirst | src/utils/validation.ts:62-73 | with categorized files, missing documents are reported before any file problem; with none missing the verdict is the file scan's |
| Validation.SizeLimitInclusive | src/utils/validation.ts:78-91 | a file of exactly 10 MB passes and one byte more is too large |
| Navigation.MenuFor | src/utils/navigation.ts:127-137 | no role gives an empty menu; Admin gets every item; any other role gets, in table order, exactly the items that list it |
| Navigation.AdminListedEverywhere | src/utils/navigation.ts:18-118 | every item of the table lists Admin |
| Navigation.PathsAndLabelsDistinct | src/utils/navigation.ts:18-118 | no two items of the table share a path |
| Navigation.AdminShortcutAgreesWithFilter | src/utils/navigation.ts:130-136 | Admin's shortcut gives the same menu as filtering the table by Admin |
| Navigation.ApplicantSeesNothing | src/utils/navigation.ts:18-136 | no item lists APPLICANT, so its menu is empty |
| Navigation.FindByPath | src/utils/navigation.ts:154 | `find` returns nothing exactly when no item has the path, and otherwise the first item with it |
| Navigation.FindByPathAt | src/utils/navigation.ts:154 | with distinct paths, `find` returns the one item that has the path |
| Navigation.CanAccessInSpec | src/utils/navigation.ts:150-158 | a null role is refused, Admin may open any path (listed or not), and another role may open a path exactly when an item with that path lists the role |
| Navigation.CanAccessInMatchesMenu | src/utils/navigation.ts:127-158 | for a non-Admin role, a path may be opened exactly when it appears in that role's menu |
| Navigation.CanAccessPathSpec | src/utils/navigation.ts:150-158 | `canAccessPath` on the application's table: refused without a role, always allowed for Admin, and otherwise allowed exactly through a listing item |
| Navigation.DefaultPathAccessible | src/utils/navigation.ts:167-185 | every staff role's default path is one that role may open |
| Navigation.AccessibleThroughItem | src/utils/navigation.ts:154-157 | a role listed by the item of a path may open that path |
| Navigation.ApplicantLandingNotInTable | src/utils/navigation.ts:180-181 | the applicant's default path is not one `canAccessPath` lets the applicant open |
| Navigation.SectionItems | src/utils/navigation.ts:196-211 | a section holds, in menu order, exactly the items whose label belongs to it |
| Navigation.GroupedSection | src/utils/navigation.ts:193-212 | each field of the grouped navigation is the section filter of the menu |
| Navigation.SectionsPartition | src/utils/navigation.ts:196-211 | when every label has a section, the sections are order-preserving, pairwise disjoint, and together hold every item |
| Navigation.EveryItemHasASection | src/utils/navigation.ts:18-118 | every label of the table belongs to one of the six sections |
| Navigation.MenuItemsHaveSections | src/utils/navigation.ts:18-137 | every item of every role's menu has a label that belongs to a section |
| Navigation.GroupsPartitionMenu | src/utils/navigation.ts:193-212 | for every role, the grouped navigation splits that role's menu into six disjoint, order-preserving sections that leave no item out |
| ProtectedRoute.Guard | src/components/ProtectedRoute.tsx:33-96 | while loading a spinner; an unauthenticated user under `requireAuth` is sent to `redirectTo`; the children render exactly when authenticated (or not required) and the role list is absent, empty or holds the profile's role; a missing profile under a role list goes to `/unauthorized`; Access Denied exactly when the profile's role is not listed |
| ProtectedRoute.AdminGetsNoSuperset | src/components/ProtectedRoute.tsx:60-91 | an Admin is denied a route whose non-empty role list leaves Admin out |
| ProtectedRoute.DefaultsOfTheGuard | src/components/ProtectedRoute.tsx:36-60 | with the defaults, a signed-in user passes a route without a role list or with an empty one, and a signed-out user is sent to `/login` |
| RoleDashboard.RoleLanding | src/components/RoleDashboard.tsx:13-37 | the spinner shows exactly while loading; once loaded with a role the page redirects to that role's default path, and without one it renders nothing |
| RoleDashboard.LandingIsAccessible | src/components/RoleDashboard.tsx:17-23 | a staff member is always redirected to a path their role may open |
| RoleDashboard.ConditionalDashboardByRole | src/components/RoleDashboard.tsx:43-153 | the dashboard shown depends only on the role: Admin, RSP, PM and LND each get their own, every other role the generic one |
| AuthContext.RoleOf | src/contexts/AuthContext.tsx:168-177 | the context's role is present exactly when a profile is loaded, and is that profile's role |
| AuthContext.IsAdminIsHasRoleAdmin | src/contexts/AuthContext.tsx:154-165 | `isAdmin()` holds exactly when `hasRole('Admin')` does, which is exactly when the role is Admin |
| AuthContext.HasRoleSpec | src/contexts/AuthContext.tsx:162-165 | `hasRole()` with no roles is false, and otherwise holds exactly when the profile's role is among those given |
| AuthContext.HasRoleMonotone | src/contexts/AuthContext.tsx:162-165 | giving `hasRole` more roles, before or after, never turns it false |
| AuthContext.AuthProvider.constructor | src/contexts/AuthContext.tsx:37-39 | the provider starts with no user, no profile, and loading |
| AuthContext.AuthProvider.InitializeAuth | src/contexts/AuthContext.tsx:70-84 | a session's user is taken with the profile fetched for their id; no session or a failed lookup leaves the state; loading ends either way |
| AuthContext.AuthProvider.OnAuthStateChange | src/contexts/AuthContext.tsx:89-104 | a new session sets the user and fetches their profile; a closed session clears user, profile and role; loading ends |
| AuthContext.AuthProvider.SignIn | src/contexts/AuthContext.tsx:115-135 | an error is rethrown and keeps the profile; a signed-in user gets their profile fetched; the user itself is left to the listener; loading ends |
| AuthContext.AuthProvider.SignOut | src/contexts/AuthContext.tsx:140-149 | a successful sign-out clears user and profile; a failure is rethrown and changes nothing |
| ApplicantWizard.Get | src/modules/applicant/ApplicantWizard.tsx:31-32 | reading a field gives a value of that field's type |
| ApplicantWizard.SetChangesOneField | src/modules/applicant/ApplicantWizard.tsx:31-32 | writing a field changes that field to the value and leaves every other field |
| ApplicantWizard.ClearRemovesOneError | src/modules/applicant/ApplicantWizard.tsx:33-36 | clearing a field's error removes that error and keeps every other |
| ApplicantWizard.Uploads | src/modules/applicant/ApplicantWizard.tsx:61-100 | an upload run stores at most one file per file and writes at most one record per stored file, and a successful run handles every file |
| ApplicantWizard.UploadsStopAtFirstRefusal | src/modules/applicant/ApplicantWizard.tsx:61-99 | a failed run stops at the first file not accepted: every earlier file is stored and recorded, that file is stored only when storage took it, and no later file is touched |
| ApplicantWizard.UploadsSpec | src/modules/applicant/ApplicantWizard.tsx:61-100 | the run succeeds exactly when no file's storage upload and no file's record insert is rejected; the stored paths are `id/stamp-name` in file order and each record describes its file and path |
| ApplicantWizard.Wizard.constructor | src/modules/applicant/ApplicantWizard.tsx:22-29 | the wizard opens on step 1 with the initial form and no undeclared keys, no files, no errors and no dialogs |
| ApplicantWizard.Wizard.HandleFormChange | src/modules/applicant/ApplicantWizard.tsx:31-37 | the field is written and its error, if shown, is cleared; nothing else changes |
| ApplicantWizard.Wizard.HandleUndeclaredChange | src/modules/applicant/ApplicantWizard.tsx:31-37 | a key the form data does not declare is added beside the declared fields, which keep their values; no error is cleared, since the errors never hold such a key; nothing else changes |
| ApplicantWizard.Wizard.HandleFilesChange | src/modules/applicant/ApplicantWizard.tsx:39-42 | the files are replaced and the file error cleared; nothing else changes |
| ApplicantWizard.Wizard.HandleNext | src/modules/applicant/ApplicantWizard.tsx:44-55 | the step becomes 2 exactly when the form is valid; the shown errors are then exactly each field's message |
| ApplicantWizard.Wizard.ShowVerdict | src/modules/applicant/ApplicantWizard.tsx:48-54 | a non-empty verdict is shown and the step kept; an empty one leaves the errors empty and moves to step 2; nothing else changes |
| Validation.EmptyIsNoErrors | src/modules/applicant/ApplicantWizard.tsx:48-53 | an errors object with no entry is the empty object `{}` that `handleNext` then sets |
| ApplicantWizard.Wizard.HandleBack | src/modules/applicant/ApplicantWizard.tsx:57-59 | the wizard returns to step 1 and nothing else changes |
| ApplicantWizard.Wizard.UploadFiles | src/modules/applicant/ApplicantWizard.tsx:61-100 | the loop over the files does exactly the upload run specified by `Uploads` |
| ApplicantWizard.Wizard.HandleSubmit | src/modules/applicant/ApplicantWizard.tsx:102-161 | a file problem is shown and stops the submit; otherwise the file message is kept and the form is inserted; an insert error or missing id shows its message (or the default); uploads run exactly after a created row; a failed run shows the upload message; a successful one shows the dialog and resets the wizard, dropping any undeclared keys; submitting ends either way |
| ApplicantWizard.Uploaded | src/modules/applicant/ApplicantWizard.tsx:104 | the files handed to validation are the wizard's files, one for one in order |
| AttachmentsUpload.ItemNumberOf | src/modules/applicant/AttachmentsUploadForm.tsx:29-30 | the item number is at least two characters long and made only of digits |
| AttachmentsUpload.ItemNumberReadsBack | src/modules/applicant/AttachmentsUploadForm.tsx:29-30 | the item number reads back as the count plus one, zero-padded to two digits below 10 and written in full from 10 on |
| AttachmentsUpload.FirstItemNumber | src/modules/applicant/AttachmentsUploadForm.tsx:29-30 | a missing count gives item number `01` |
| AttachmentsUpload.AttachmentsForm.constructor | src/modules/applicant/AttachmentsUploadForm.tsx:18-19 | a fresh step holds the given files, no highlight, and item number `01` |
| AttachmentsUpload.AttachmentsForm.FetchCount | src/modules/applicant/AttachmentsUploadForm.tsx:22-39 | after the count fetch the item number follows the count, or is `01` when the fetch threw; nothing else changes |
| AttachmentsUpload.AttachmentsForm.HandleDrag | src/modules/applicant/AttachmentsUploadForm.tsx:41-49 | `dragenter` and `dragover` turn the highlight on, `dragleave` turns it off, any other event leaves it |
| AttachmentsUpload.AttachmentsForm.HandleFiles | src/modules/applicant/AttachmentsUploadForm.tsx:68-75 | the picked files, each with its id, are appended after the existing ones |
| AttachmentsUpload.AttachmentsForm.HandleDrop | src/modules/applicant/AttachmentsUploadForm.tsx:51-59 | a drop turns the highlight off and appends the dropped files |
| AttachmentsUpload.AttachmentsForm.HandleChange | src/modules/applicant/AttachmentsUploadForm.tsx:61-66 | the picked files are appended after the existing ones |
| AttachmentsUpload.AttachmentsForm.RemoveFile | src/modules/applicant/AttachmentsUploadForm.tsx:77-79 | the list becomes the old list without the entries of that id |
| AttachmentsUpload.NewEntries | src/modules/applicant/AttachmentsUploadForm.tsx:69-72 | one entry per picked file, in order, each holding its file and its id |
| AttachmentsUpload.Without | src/modules/applicant/AttachmentsUploadForm.tsx:78 | the kept entries are, in order, the entries whose id differs, each exactly as often as before, and no other |
| AttachmentsUpload.WithoutAbsentAndTwice | src/modules/applicant/AttachmentsUploadForm.tsx:77-79 | removing an id no entry has changes nothing, and removing twice is removing once |
| AttachmentsUpload.RemoveUndoesAdd | src/modules/applicant/AttachmentsUploadForm.tsx:68-79 | removing a file just added under a fresh id gives the list back |
| Positions.Options | src/constants/positions.ts:23-26 | one select option per entry, in order, with the entry as both value and label |
| Positions.MapCoversPositions | src/constants/positions.ts:9-63 | the position-to-department map covers exactly the listed positions |
| Positions.MapIntoDepartments | src/constants/positions.ts:31-63 | every position maps to a listed department |
| Positions.ListsDistinct | src/constants/positions.ts:9-43 | neither the position list nor the department list repeats an entry |
| Positions.SalaryGradesInOrder | src/constants/positions.ts:68-74 | the grades are exactly `SG-1` to `SG-10`, in order |
| AssessmentForm.MapMatchesOptions | src/modules/applicant/ApplicantAssessmentForm.tsx:11-43 | the form's map covers exactly the position choices, and each maps to one of the office choices |
| AssessmentForm.OptionsShowTheirValue | src/modules/applicant/ApplicantAssessmentForm.tsx:11-32 | every position and office choice shows its own value as its label |
| AssessmentForm.HandlePositionChange | src/modules/applicant/ApplicantAssessmentForm.tsx:50-58 | the position is written, and for a mapped position the office is set to its department; the errors of exactly the written fields are cleared and the wizard's other state is kept |
| AssessmentForm.NameKey | src/modules/applicant/ApplicantAssessmentForm.tsx:62-86 | the keys the three name inputs write, `first_name`, `middle_name` and `last_name`, are none of the wizard's declared keys |
| AssessmentForm.InputData | src/modules/applicant/ApplicantAssessmentForm.tsx:50-142 | no input of the form changes `name` or `item_number`; each other input sets its own field, and the position select may set the office |
| AssessmentForm.HandleInput | src/modules/applicant/ApplicantAssessmentForm.tsx:62-142 | an input sent through `handleFormChange` leaves the declared fields as `InputData` says; a name input adds its undeclared key and clears no error; the wizard's other state is kept |
| AssessmentForm.AsWrittenSession | src/modules/applicant/ApplicantAssessmentForm.tsx:62-86 | as written, after any sequence of inputs `name` is still empty, so `Next` reports the name as required and the wizard stays on step 1 |
| AssessmentForm.IntendedSession | src/modules/applicant/ApplicantWizard.tsx:10-55 | once every declared field is written, the wizard holds exactly that data, and `Next` moves to step 2 exactly when it is valid, showing each field's own message |
| EvaluationForm.FullName | src/modules/interviewer/EvaluationForm.tsx:27-34 | the name is first, middle and last joined by single spaces, the middle name left out when missing or empty; the interviewer's applicant list (InterviewerApplicantsList.tsx:27-34) names rows by the same rule |
| EvaluationForm.Index | src/modules/interviewer/EvaluationForm.tsx:131-140 | each criterion sits at its own position in the checked order |
| EvaluationForm.Scores | src/modules/interviewer/EvaluationForm.tsx:132-139 | the scores array holds, in order, the score of each of the six criteria |
| EvaluationForm.SumBounds | src/modules/interviewer/EvaluationForm.tsx:140 | a sum of values between `lo` and `hi` lies between the count times `lo` and the count times `hi` |
| EvaluationForm.TotalScore | src/modules/interviewer/EvaluationForm.tsx:131-141 | the total is the sum of the six criterion scores |
| EvaluationForm.TotalScoreRange | src/modules/interviewer/EvaluationForm.tsx:131-141 | when every score is from 1 to 5 the total is from 6 to 30 |
| EvaluationForm.PercentageHundredths | src/modules/interviewer/EvaluationForm.tsx:143-146 | the percentage, in hundredths, is within half a hundredth of total/30 × 100 |
| EvaluationForm.QualificationByTotal | src/modules/interviewer/EvaluationForm.tsx:148-153 | Qualified exactly from a total of 23, Conditionally Qualified exactly from 18 to 22, Not Qualified below 18 |
| EvaluationForm.QualificationMonotone | src/modules/interviewer/EvaluationForm.tsx:148-153 | a higher total never gives a lower tier |
| EvaluationForm.Uniform | src/modules/interviewer/EvaluationForm.tsx:74-90 | every criterion of the built evaluation has the given score |
| EvaluationForm.QualificationExamples | src/modules/interviewer/EvaluationForm.tsx:143-153 | all fives qualify; all threes give 60.00 percent and are conditionally qualified; all twos are not qualified |
| EvaluationForm.FirstOutOfRange | src/modules/interviewer/EvaluationForm.tsx:201-206 | the scan finds nothing exactly when every score is from 1 to 5, and otherwise the first criterion out of range |
| EvaluationForm.ValidateForm | src/modules/interviewer/EvaluationForm.tsx:199-209 | no message exactly when the name and notes are non-blank and every score is from 1 to 5; the name message exactly when the name is blank; a score message names the first criterion out of range; the notes message comes last |
| EvaluationForm.AllCriteriaInRange | src/modules/interviewer/EvaluationForm.tsx:201-206 | a check passed by each listed criterion is passed by every criterion |
| EvaluationForm.Get | src/modules/interviewer/EvaluationForm.tsx:195-197 | reading a field gives a value of that field's kind |
| EvaluationForm.SetChangesOneField | src/modules/interviewer/EvaluationForm.tsx:195-197 | writing a field changes that field to the value and no other |
| EvaluationForm.PayloadOfUnique | src/modules/interviewer/EvaluationForm.tsx:227-259 | the described payload is unique: the description fixes every column |
| EvaluationForm.SentForAll | src/modules/interviewer/EvaluationForm.tsx:228-259 | each criterion's score is sent when positive (else null) and its remarks when non-blank |
| EvaluationForm.InsertData | src/modules/interviewer/EvaluationForm.tsx:227-259 | the sent row carries the applicant id, the name, notes and recommendation, each score or null, and each non-blank remark |
| EvaluationForm.EvaluationPage.constructor | src/modules/interviewer/EvaluationForm.tsx:63-90 | the form opens for the route's id with the initial evaluation, not submitting, no error and no success message |
| EvaluationForm.EvaluationPage.HandleInputChange | src/modules/interviewer/EvaluationForm.tsx:195-197 | the field is written and nothing else changes |
| EvaluationForm.EvaluationPage.HandleSubmit | src/modules/interviewer/EvaluationForm.tsx:211-305 | a validation message is shown and nothing is sent; otherwise the described row is inserted; the applicant is marked reviewed exactly when the insert succeeded; an insert or update error is shown; success shows the success message; submitting ends |
| RspDashboard.FilteredApplicants | src/modules/admin/RSPDashboard.tsx:207-230 | every listed row is a stored row that passes the search, status and office filters |
| RspDashboard.StageIsFilter | src/modules/admin/RSPDashboard.tsx:210-227 | a filter step that runs only when its filter is set keeps exactly the rows that pass it or are let through because it is unset |
| RspDashboard.ThreeStages | src/modules/admin/RSPDashboard.tsx:207-230 | three such steps in a row keep exactly the rows that pass every enabled test, in order |
| RspDashboard.FilteredIsConjunction | src/modules/admin/RSPDashboard.tsx:207-230 | the listed rows are exactly the stored rows, in order, that pass all three filters at once |
| RspDashboard.NoFilterListsAll | src/modules/admin/RSPDashboard.tsx:52-54 | with the initial filters (empty search, `all`, `all`) every row is listed |
| RspDashboard.Offices | src/modules/admin/RSPDashboard.tsx:233 | the offices of the rows, one per row, in row order |
| RspDashboard.Dedup | src/modules/admin/RSPDashboard.tsx:233 | `new Set` keeps every office and repeats none |
| RspDashboard.InsertSorted | src/modules/admin/RSPDashboard.tsx:233 | inserting into a sorted list keeps it sorted, adds the one value, and keeps it strictly increasing when the value is new |
| RspDashboard.InsertSortedPermutes | src/modules/admin/RSPDashboard.tsx:233 | inserting adds exactly one copy of the value and keeps every other entry as often as it was |
| RspDashboard.Sort | src/modules/admin/RSPDashboard.tsx:233 | the sort is a permutation of its input (the same multiset of values) and yields them in order, strictly increasing when none repeats |
| RspDashboard.UniqueOffices | src/modules/admin/RSPDashboard.tsx:232-234 | the office filter lists exactly the offices that occur among the rows, each once, in increasing order |
| RspDashboard.IncreasingIsDistinct | src/modules/admin/RSPDashboard.tsx:232-234 | a strictly increasing list repeats no value |
| RspDashboard.UpdateKeepsItemNumber | src/modules/admin/RSPDashboard.tsx:164-177 | saving an edited job stores every edited column except the item number, which keeps its stored value |
| RspDashboard.Dashboard.constructor | src/modules/admin/RSPDashboard.tsx:50-65 | the dashboard starts with no jobs, no dialog, nothing edited, the first page and an empty draft |
| RspDashboard.Dashboard.PreviousJob | src/modules/admin/RSPDashboard.tsx:370 | the page goes back one, never below 0, staying within the jobs; nothing else changes |
| RspDashboard.Dashboard.NextJob | src/modules/admin/RSPDashboard.tsx:408 | the page goes forward one, never past the last job; nothing else changes |
| RspDashboard.Dashboard.GoToJob | src/modules/admin/RSPDashboard.tsx:420 | a dot selects its own page and nothing else changes |
| RspDashboard.Dashboard.HandleCreateJob | src/modules/admin/RSPDashboard.tsx:134-162 | an incomplete draft raises the fill-in alert and sends nothing; a complete draft is inserted; a failed insert raises the create alert and keeps the draft; a success closes the dialog and resets the draft |
| RspDashboard.Dashboard.HandleUpdateJob | src/modules/admin/RSPDashboard.tsx:164-187 | with nothing edited nothing is sent; otherwise the edited job's five columns are sent for its id; a failure raises the update alert and keeps editing, a success ends editing |
| LndDashboard.CalculateStats | src/modules/admin/LNDDashboard.tsx:74-79 | the upcoming count is the number of trainings dated today or later and not cancelled, the completed count the number completed; neither exceeds the number of trainings |
| LndDashboard.UpcomingShrinksOverTime | src/modules/admin/LNDDashboard.tsx:75-76 | a later day never counts more upcoming trainings than an earlier one |
| LndDashboard.CountsFit | src/modules/admin/LNDDashboard.tsx:76-77 | upcoming and cancelled trainings together, and completed and cancelled together, never exceed the number of trainings |
| LndDashboard.FilteredTrainings | src/modules/admin/LNDDashboard.tsx:139-145 | the listed trainings are, in order, those whose lower-cased title or speaker contains the lower-cased search term, each exactly as often as stored, and no other |
| LndDashboard.EmptySearchKeepsAll | src/modules/admin/LNDDashboard.tsx:139-145 | an empty search lists every training |
| LndDashboard.SearchIgnoresCase | src/modules/admin/LNDDashboard.tsx:140 | searching for a term or for its lower-cased form lists the same trainings |
| LndDashboard.ApplyDraft | src/modules/admin/LNDDashboard.tsx:88-92 | an update writes the draft's title, date, speaker, venue and status and keeps the row's id and creation time |
| LndDashboard.DraftOf | src/modules/admin/LNDDashboard.tsx:127-137 | the draft loaded for editing, saved unchanged, gives the training back |
| LndDashboard.TrainingsPage.constructor | src/modules/admin/LNDDashboard.tsx:30-47 | the page starts with no trainings, no dialog, nothing edited and an empty scheduled draft |
| LndDashboard.TrainingsPage.HandleAddTraining | src/modules/admin/LNDDashboard.tsx:81-109 | an incomplete draft raises the fill-in alert and writes nothing; a complete draft updates the edited training by id or else is inserted; a failure raises the save alert and keeps the dialog; a success closes the dialog, ends editing and resets the draft |
| LndDashboard.TrainingsPage.HandleEditTraining | src/modules/admin/LNDDashboard.tsx:127-137 | editing a training selects it, loads its fields as the draft and opens the dialog |
| PmDashboard.FirstActive | src/modules/admin/PMDashboard.tsx:71 | `find` returns nothing exactly when no cycle is active, and otherwise the first active cycle |
| PmDashboard.ActiveCycle | src/modules/admin/PMDashboard.tsx:71-74 | the shown cycle is never empty: `None` when no cycle is active, otherwise the first active cycle's title, or `None` when that title is empty |
| PmDashboard.CalculateStats | src/modules/admin/PMDashboard.tsx:70-76 | the stats show the active cycle's title and the fixed 12 pending reviews |
| PmDashboard.LaterCyclesIgnored | src/modules/admin/PMDashboard.tsx:71 | once an active cycle is listed, cycles after it never change the shown title |
| PmDashboard.ApplyDraft | src/modules/admin/PMDashboard.tsx:84-90 | an update writes the draft's title, dates and status and keeps the row's id and creation time |
| PmDashboard.DraftOf | src/modules/admin/PMDashboard.tsx:124-133 | the draft loaded for editing, saved unchanged, gives the cycle back |
| PmDashboard.CyclesPage.constructor | src/modules/admin/PMDashboard.tsx:26-43 | the page starts with no cycles, no dialog, nothing edited and an empty planned draft |
| PmDashboard.CyclesPage.HandleAddCycle | src/modules/admin/PMDashboard.tsx:78-106 | an incomplete draft raises the fill-in alert and writes nothing; a complete one updates the edited cycle by id or else is inserted; a failure raises the save alert and keeps the dialog; a success closes it, ends editing and resets the draft |
| PmDashboard.CyclesPage.HandleEditCycle | src/modules/admin/PMDashboard.tsx:124-133 | editing a cycle selects it, loads its fields as the draft and opens the dialog |
| RaterManagement.UpdateOf | src/modules/admin/RaterManagementPage.tsx:83-90 | the update sent for an edited rater carries its name, department and status |
| RaterManagement.ApplyUpdate | src/modules/admin/RaterManagementPage.tsx:83-90 | an update writes name, department and status and keeps id, email and creation time |
| RaterManagement.UpdateKeepsEmail | src/modules/admin/RaterManagementPage.tsx:79-100 | saving an edit never changes the stored email, and when the email was not touched the stored row becomes the edited rater |
| RaterManagement.ToggleWrite | src/modules/admin/RaterManagementPage.tsx:119-132 | the toggle sends the opposite of the rater's shown status, for that rater's id |
| RaterManagement.ApplyStatus | src/modules/admin/RaterManagementPage.tsx:121-125 | a status write changes the status and nothing else |
| RaterManagement.ToggleTwiceRestores | src/modules/admin/RaterManagementPage.tsx:119-132 | a toggle flips the status, and toggling twice gives the row back |
| RaterManagement.RatersPage.constructor | src/modules/admin/RaterManagementPage.tsx:22-31 | the page starts with no raters, no dialog, nothing edited and an empty active form |
| RaterManagement.RatersPage.HandleCreateRater | src/modules/admin/RaterManagementPage.tsx:51-77 | an incomplete form raises the fill-in alert and sends nothing; a complete one is inserted; a duplicate-key error (23505) raises the already-exists alert, any other error the create alert, both keeping form and dialog; a success closes the dialog and resets the form |
| RaterManagement.RatersPage.ToggleRaterStatus | src/modules/admin/RaterManagementPage.tsx:119-131 | sends the opposite of the rater's status for that rater's id; a failed update raises the status alert; the page's own state is kept |
| RaterManagement.RatersPage.HandleUpdateRater | src/modules/admin/RaterManagementPage.tsx:79-100 | with nothing edited nothing is sent; otherwise the edited rater's name, department and status are sent for its id; a failure raises the update alert and keeps editing; a success ends editing |
| RaterManagement.RatersPage.ChangeName | src/modules/admin/RaterManagementPage.tsx:230-235 | the name box edits the rater being edited, or else the create form |
| RaterManagement.RatersPage.ChangeEmail | src/modules/admin/RaterManagementPage.tsx:239-250 | the email box edits the create form and is ignored while a rater is edited |
| RaterManagement.RatersPage.ChangeDepartment | src/modules/admin/RaterManagementPage.tsx:252-258 | the department select edits the rater being edited, or else the create form |
| RaterManagement.RatersPage.ChangeActive | src/modules/admin/RaterManagementPage.tsx:266-276 | the status checkbox, shown while a rater is edited, sets that rater's status and nothing else |
| InterviewerApplicants.StatusOf | src/modules/interviewer/InterviewerApplicantsList.tsx:94-98 | an evaluation is Completed exactly when its three scores and its recommendation are all truthy, and In Progress otherwise |
| InterviewerApplicants.LastEvaluation | src/modules/interviewer/InterviewerApplicantsList.tsx:94-98 | finds nothing exactly when the applicant has no evaluation, and otherwise their last one in row order |
| InterviewerApplicants.EvaluationStatus | src/modules/interviewer/InterviewerApplicantsList.tsx:94-104 | an applicant is Not Yet Rated exactly when they have no evaluation |
| InterviewerApplicants.StatusMapIsLast | src/modules/interviewer/InterviewerApplicantsList.tsx:94-99 | the map has a key exactly for each evaluated applicant, holding the status of their last evaluation |
| InterviewerApplicants.BuildStatusMap | src/modules/interviewer/InterviewerApplicantsList.tsx:94-99 | the loop leaves a key for exactly the evaluated applicants, each holding the status of their last evaluation |
| InterviewerApplicants.WithStatus | src/modules/interviewer/InterviewerApplicantsList.tsx:101-104 | the merge keeps every applicant row, in order, one for one |
| InterviewerApplicants.MergeGivesLastStatus | src/modules/interviewer/InterviewerApplicantsList.tsx:94-104 | merged with the built map, every applicant shows the status of their last evaluation, or Not Yet Rated |
| InterviewerApplicants.ActionOf | src/modules/interviewer/InterviewerApplicantsList.tsx:187-198 | a row shows the disabled Evaluated button exactly when its status is Completed, and otherwise links to `/interviewer/evaluate/<id>` |
| InterviewerApplicants.ErrorText | src/modules/interviewer/InterviewerApplicantsList.tsx:109 | the shown error is never empty: the failure's message, or the default text when it has none |
| InterviewerApplicants.ApplicantsListPage.constructor | src/modules/interviewer/InterviewerApplicantsList.tsx:49-52 | the list starts empty, loading, with no posting and no error |
| InterviewerApplicants.ApplicantsListPage.FetchApplicantsAndJob | src/modules/interviewer/InterviewerApplicantsList.tsx:59-113 | a posting error other than no-row stops the load with its message; otherwise the posting (or none) is kept; an applicants or evaluations error shows its message and keeps the list; otherwise the list is every applicant row in order with the status of their last evaluation; loading ends |
| SignIn.ResolvedEmail | src/modules/interviewer/InterviewerLogin.tsx:69 | the signed-in email is the service's email when it gives one, and otherwise the typed email; the admin login (LoginPage.tsx:65) resolves it by the same rule |
| InterviewerLogin.MockHit | src/modules/interviewer/InterviewerLogin.tsx:12-42 | a development account opens exactly when the typed email is one of its own keys and the password is that account's, and then gives its name |
| InterviewerLogin.DisplayName | src/modules/interviewer/InterviewerLogin.tsx:69-71 | the name handed on is never empty: the stored name when truthy, otherwise `Interviewer` |
| InterviewerLogin.MockAccounts | src/modules/interviewer/InterviewerLogin.tsx:12-16 | each of the three development accounts opens with its own password under its own name, and no other password opens any |
| InterviewerLogin.LoginForm.constructor | src/modules/interviewer/InterviewerLogin.tsx:19-22 | the form starts empty, not loading, without an error |
| InterviewerLogin.LoginForm.HandleLogin | src/modules/interviewer/InterviewerLogin.tsx:25-79 | empty fields give the enter-credentials message without a call; a development account signs in without the service; otherwise a rejected sign-in gives invalid credentials, a missing role row signs out and gives no-access (or the generic failure when that sign-out throws), a thrown call the generic failure, and a role row signs in with the resolved email and name and navigates to the dashboard; loading ends once started |
| AdminLogin.MockHit | src/modules/admin/LoginPage.tsx:12-40 | a development account opens exactly when the typed email is one of its own keys and the password is that account's, and then gives its role |
| AdminLogin.MockAccountRoles | src/modules/admin/LoginPage.tsx:12-17 | the four development accounts sign in as super-admin, rsp, lnd and pm |
| AdminLogin.LoginPage.constructor | src/modules/admin/LoginPage.tsx:20-22 | the page starts empty and not loading |
| AdminLogin.LoginPage.HandleLogin | src/modules/admin/LoginPage.tsx:25-73 | an alert is raised exactly when nobody signs in; empty fields alert without a call; a development account signs in without the service; a rejected sign-in alerts invalid credentials, a missing or empty role no-role, a thrown call the generic failure; a stored role signs in with the resolved email and that role and navigates to `/admin` |
| EmployeeLogin.ValidateLogin | src/modules/employee/EmployeeLoginPage.tsx:27-48 | the submit passes exactly when the username is not blank and the password has at least 6 UTF-16 code units; the username message exactly for a blank username; then the required-password message for an empty one, and the length message for 1 to 5 code units |
| EmployeeLogin.DemoCredentialsValid | src/modules/employee/EmployeeLoginPage.tsx:50-58 | the demo account passes the form's own checks |
| EmployeeLogin.LoginForm.constructor | src/modules/employee/EmployeeLoginPage.tsx:22-24 | the form starts empty without an error |
| EmployeeLogin.LoginForm.HandleSubmit | src/modules/employee/EmployeeLoginPage.tsx:27-48 | the untrimmed username and the password are handed on exactly when every check passes, clearing the error; otherwise the first failing check's message is shown |
| EmployeeLogin.LoginForm.HandleDemoLogin | src/modules/employee/EmployeeLoginPage.tsx:50-58 | the demo button fills in `employee01` / `hr2024`, clears the error and hands those credentials on |
| EmployeePage.DocumentStatusOf | src/modules/employee/EmployeePage.tsx:93-98 | an uploaded document is pending review, any other keeps its listed status |
| EmployeePage.PendingCount | src/modules/employee/EmployeePage.tsx:100-102 | the pending count is the number of listed documents still missing, never more than the list |
| EmployeePage.AddOnce | src/modules/employee/EmployeePage.tsx:81-83 | the id is added at the end unless already listed; the list keeps its earlier entries and gains exactly that id |
| EmployeePage.UploadNeverRaisesPending | src/modules/employee/EmployeePage.tsx:71-102 | an upload never raises the number of missing documents |
| EmployeePage.InitialPendingCount | src/modules/employee/EmployeePage.tsx:64-102 | before any upload, three of the four listed documents are missing |
| EmployeePage.NoneMissingWhenAllUploaded | src/modules/employee/EmployeePage.tsx:93-102 | once every listed document is uploaded none is missing |
| EmployeePage.ActiveTab | src/modules/employee/EmployeePage.tsx:104-115 | the first of the requirements, submission and profile fragments found in the path decides the tab, and the dashboard is the default |
| EmployeePage.NavigationLandsOnTab | src/modules/employee/EmployeePage.tsx:223-244 | each sidebar button's path selects that button's own tab |
| EmployeePage.DocumentsPage.constructor | src/modules/employee/EmployeePage.tsx:56-61 | the page starts with nothing uploaded, not submitting, the PDS selected, no error and no toast |
| EmployeePage.DocumentsPage.SelectRequirement | src/modules/employee/EmployeePage.tsx:601 | the select changes the chosen requirement and nothing else |
| EmployeePage.DocumentsPage.HandleFileUpload | src/modules/employee/EmployeePage.tsx:71-86 | no file changes nothing; a file of another type shows the type error; a PDF or JPG clears the error, marks the chosen requirement uploaded once, and shows the toast |
| EmployeePage.DocumentsPage.HandleSubmitForReview | src/modules/employee/EmployeePage.tsx:88-91 | the first press starts submitting and later presses do nothing |
| EmployeePortal.SessionOf | src/examples/EmployeePortalIntegration.example.tsx:50-54 | the session keeps the employee's id, email and name |
| EmployeePortal.FindById | src/examples/EmployeePortalIntegration.example.tsx:83-85 | the search finds nothing exactly when no employee has the id, and otherwise an employee with that id |
| EmployeePortal.IdFindsSignedIn | src/examples/EmployeePortalIntegration.example.tsx:43-93 | with distinct ids, the employee found by a stored session's id is the one who signed in |
| EmployeePortal.MockIdsDistinct | src/examples/EmployeePortalIntegration.example.tsx:13-33 | the demo table's employee ids are distinct |
| EmployeePortal.InheritedNameSignsIn | src/examples/EmployeePortalIntegration.example.tsx:46-48 | the sign-in check as written accepts `constructor` with the demo password though no employee has that key |
| EmployeePortal.AcceptsOnlyEmployees | src/examples/EmployeePortalIntegration.example.tsx:46-48 | the corrected check accepts the demo account, and nothing the table does not hold; whatever it accepts the check as written accepts too |
| EmployeePortal.Portal.constructor | src/examples/EmployeePortalIntegration.example.tsx:39-41 | the hook starts without session or employee over the given stored entry |
| EmployeePortal.Portal.HandleEmployeeLogin | src/examples/EmployeePortalIntegration.example.tsx:43-66 | with the corrected own-key check (second Findings row), sign-in succeeds exactly for a table key with the demo password, then sets the session, the employee and the stored entry; a failure changes nothing |
| EmployeePortal.Portal.HandleEmployeeLogout | src/examples/EmployeePortalIntegration.example.tsx:68-72 | sign-out clears the session, the employee and the stored entry |
| EmployeePortal.Portal.InitializeSession | src/examples/EmployeePortalIntegration.example.tsx:75-93 | no entry, or an empty one, changes nothing; an entry that does not parse is removed; a stored session is restored, with its employee when the table has that id |
| EmployeePortal.RestoreAfterSignIn | src/examples/EmployeePortalIntegration.example.tsx:43-93 | signing in and then restoring from storage brings back the same employee |
| Strings.Trim | src/utils/validation.ts:7-9 | `trim()` removes exactly a blank prefix and a blank suffix, leaves no whitespace at either end, and is empty exactly for a blank string |
| Strings.Utf16Length | src/utils/validation.ts:9 | `length` counts at least one and at most two code units per character, and equals the character count exactly when no character lies outside the Basic Multilingual Plane |
| Strings.Includes | src/modules/employee/EmployeePage.tsx:104-115 | `includes` holds exactly when the text occurs at some position |
| Strings.ToLower | src/modules/admin/LNDDashboard.tsx:140-143 | lower-casing keeps the length and lower-cases each character in place |
| Strings.ToLowerIdempotent | src/modules/admin/LNDDashboard.tsx:140-143 | lower-casing twice is lower-casing once |
| Strings.LexLessTransitive | src/modules/admin/RSPDashboard.tsx:233 | the string order used by `sort` and by date comparison is transitive |
| Strings.LexLessTotal | src/modules/admin/RSPDashboard.tsx:233 | of two different strings one is before the other |
| Strings.PadStart | src/modules/applicant/AttachmentsUploadForm.tsx:30 | `padStart` keeps the text at the end and fills up to the width with the pad character |
| Strings.ParseIntDecimalString | backend/src/routes/applicants.ts:22-23 | `parseInt` reads a decimal numeral back as its number |
| Seqs.Filter | src/modules/admin/RSPDashboard.tsx:212-226 | `filter` keeps, in order, only elements that pass the test and every element that passes; FilterMultiset adds the multiplicity |
| Seqs.FilterMultiset | src/modules/admin/RSPDashboard.tsx:212-226 | `filter` keeps each passing element exactly as often as it occurs and no failing one |
| Seqs.FilterFilter | src/modules/admin/RSPDashboard.tsx:207-229 | filtering twice is filtering once by both tests |
| Seqs.Count | src/modules/admin/LNDDashboard.tsx:76-77 | `filter(...).length` counts the passing elements and never exceeds the length |
| Seqs.Lookup | src/examples/EmployeePortalIntegration.example.tsx:46 | an own-key lookup finds nothing exactly when no entry has the key, and otherwise a value stored under it |

## Left out

- Supabase, storage and JWT signing and decoding are not modelled. Each call is a parameter carrying its outcome. The Supabase client wiring and server start-up are not part of this model, and neither is config loading.
- FastApiDeps.GetCurrentUser: `backend/app/utils/dependencies.py:2` imports `HTTPAuthCredentials`, which FastAPI does not define, so the module as written fails to import. The model gives the dependency the behaviour its body describes.
- FastApiDeps.GetCurrentUser: a missing or non-Bearer header is refused with 403 by `HTTPBearer` before this dependency runs. That step is not modelled; the dependency receives the token.
- FastApiApplicants.ListApplicants: the 401 or 403 of the authentication dependency is taken to come before FastAPI's 422 for invalid query parameters.
- FastAPI request bodies: a field of the wrong JSON type (a non-boolean `is_pwd` in `ApplicantUpdate`, a non-numeric `score` in `EvaluationCreate`) makes pydantic answer 422. That is not modelled; `Fields` carries text and `EvaluationCreate` only models a missing field.
- Express request bodies are taken to be JSON objects whose text fields are strings or absent, and whose evaluation `score` is absent, `null` or a number (`ExpressEvaluations.ScoreInput`). Arrays, repeated query parameters and other JSON types in those fields are not modelled.
- Jwt.ExpiresIn: a setting that does not parse as an integer gives no lifetime. The NaN lifetime that `jsonwebtoken` would then be handed is not modelled.
- ExpressApplicants.ListApplicants: a negative `skip` or `limit` is passed to `.range` as written. What the database then does with the window is not modelled beyond `Api.Range`.
- Every list query takes the table as given, in the order its `.order(...)` clause yields. Sorting by the database is not modelled.
- `JSON.parse` failures on stored browser data are modelled only as "text that does not parse" (`EmployeePortal.StoredValue.Unparsable`). Stored JSON that parses but is not a session is not modelled.
- ApplicantWizard.Wizard.HandleFormChange and EvaluationForm.EvaluationPage.HandleInputChange require a value of the field's own type (`Fits`). The source's TypeScript types promise that; writes of ill-typed values are not modelled.
- `ApplicantFormData` (`src/types/applicant.types.ts`) declares first, middle and last names, while the validator and the wizard use a single `name`. The model follows the validator and the wizard. Since the form's name inputs write the three name keys, `name` is never filled in and step 2 cannot be reached; the third Findings row records this. The `errors.first_name`, `errors.middle_name` and `errors.last_name` the form shows are never set.
- AssessmentForm.HandlePositionChange: a lookup of `POSITION_TO_DEPARTMENT` reads own keys only. A position named after an `Object.prototype` member is not one of the select's options.
- `Date.now()`, `new Date()`, `crypto.randomUUID()` and `Math.random()` are parameters: the timestamps, ids and today's date.
- EvaluationForm.PercentageHundredths: `toFixed(2)` is modelled as an integer number of hundredths. The floating-point division and the string formatting are not modelled.
- Both `formatFileSize` helpers, `formatDate` and every `toLocaleDateString` display are not modelled; they only format text for display.
- The evaluation form's second tab (`handlePcptChange` and the `pcptScores` it edits) is not modelled because it is never submitted. Neither are `fetchApplicantData`, `getFileUrl` and `handleViewFile`, which only load and show data.
- The delete handlers behind a `confirm` dialog (`handleDeleteJob`, `handleDeleteTraining`, `handleDeleteCycle`, `handleDeleteRater`) are not modelled. Each is one table call followed by a refresh.
- The list refreshes that follow a write (`fetchJobs`, `fetchTrainings`, `fetchCycles`, `fetchRaters`, `fetchApplicants`) and the `fetchStats` count queries are not modelled. They are reads whose result is only shown.
- RspDashboard: the job dialog's per-field `onChange` handlers are not modelled as separate members. No handler of the source ever sets `editingJob` to a posting; it is only cleared or edited in place. The update path is modelled from its own body all the same.
- PmDashboard.CalculateStats: `pendingReviews` is the constant 12, as written.
- PmDashboard: the cast of the status select's value to the cycle status type is not modelled; the select offers only the declared statuses.
- Strings.LexLess compares by code point, while JavaScript compares UTF-16 code units. The two agree on the ASCII dates and office names the dashboards compare.
- Strings.ToLower lower-cases ASCII letters only. JavaScript's `toLowerCase` also maps other scripts.
- EvaluationForm.EvaluationPage.HandleSubmit: the navigation to `/interviewer/applicants` that a timer starts 1.5 seconds after a successful submit is not modelled.
- EmployeePage: the success toast's timer is not modelled, and neither is the sidebar toggle.
- EmployeePortal.Portal.HandleEmployeeLogin: models the corrected own-key check from the second Findings row. The source as written also signs in `constructor` with `hr2024` and then stores a session whose fields are all undefined; that state change is not modelled, only the acceptance (`EmployeePortal.AcceptsAsWritten`).
- FastApiDeps.TupleRepr: the `repr` of each role name is the name between single quotes. This holds for the role names the routes pass, none of which contains a quote or a backslash; Python's escaping of those characters is not modelled.
- EmployeeLogin.LoginForm.HandleDemoLogin: the 100 ms delay before the demo sign-in is not modelled.
- InterviewerLogin and AdminLogin: the development account tables are read by own keys only. This is faithful because an inherited `Object.prototype` value has no `password` property, so it never matches.
- Rendering, styling, effects and re-render timing are not modelled. Neither are the asynchronous interleaving of handlers or the route table of the application shell.

## Findings

| source | as written | input that shows it | evidently intended | confidence | as-written member | corrected member |
|---|---|---|---|---|---|---|
| backend/src/index.ts:26 | the auth router is mounted without `authMiddleware`, so `req.user` is never set and `GET /api/auth/me` always answers 401 | `GET /api/auth/me` with `Authorization: Bearer <valid token>` | `/me` runs behind the authentication middleware and answers the caller's user id, email and role | not executed | ExpressAuth.MeAsMountedRefusesValidToken | ExpressAuth.MeBehindAuthAnswersValidToken |
| src/examples/EmployeePortalIntegration.example.tsx:46-48 | `MOCK_EMPLOYEE_DATA[username]` is also truthy for names inherited from `Object.prototype`, so those sign in | username `constructor`, password `hr2024` returns true | only an own key of the employee table signs in | not executed | EmployeePortal.InheritedNameSignsIn | EmployeePortal.AcceptsOnlyEmployees |
| src/modules/applicant/ApplicantAssessmentForm.tsx:62-86 | the name inputs write `first_name`, `middle_name` and `last_name`, keys the wizard's `INITIAL_FORM_DATA` (`name`) and `validateApplicantForm` do not use; no input writes `name`, so `handleNext` always reports "Name is required" and step 2 and the submit are never reached | every input filled in with valid values (first name `Ana`, last name `Cruz`, email `a@b.c`, and so on), then Next | the name the applicant types is the `name` the validator checks, so a complete, valid form moves to step 2 | not executed | AssessmentForm.AsWrittenSession | AssessmentForm.IntendedSession |

=== FILE: admin_login.dfy ===
/** The staff sign-in page of the admin portal (src/modules/admin/LoginPage.tsx):
    the development accounts tried first, then the hosted sign-in and the
    role lookup. The service replies are parameters; a call to `onLogin`
    is returned as the email and role passed, with the path navigated to.
    The looked-up role is passed on as stored (the source casts it). */
module AdminLogin {
  import opened Wrappers
  import opened Seqs
  import opened SignIn

  datatype MockUser = MockUser(password: string, role: string)

  /** `MOCK_USERS`, its own keys in insertion order. */
  const MockUsers: seq<(string, MockUser)> := [
    ("admin@cictrix.com", MockUser("Admin@123", "super-admin")),
    ("rsp@cictrix.com", MockUser("RSP@123", "rsp")),
    ("lnd@cictrix.com", MockUser("LND@123", "lnd")),
    ("pm@cictrix.com", MockUser("PM@123", "pm"))]

  const AdminPath := "/admin"

  datatype LoginAlert = EnterCredentials | InvalidCredentials | NoRoleAssigned | LoginFailed

  function AlertText(a: LoginAlert): string {
    match a
    case EnterCredentials => "Please enter your email and password."
    case InvalidCredentials => "Invalid email or password."
    case NoRoleAssigned => "No role assigned. Contact the admin."
    case LoginFailed => "Login failed. Please try again."
  }

  /** The role of the development account the email and password open. */
  function MockHit(email: string, password: string): (r: Option<string>)
    ensures r.Some? <==> Lookup(MockUsers, email).Some? && Lookup(MockUsers, email).value.password == password
    ensures r.Some? ==> r.value == Lookup(MockUsers, email).value.role
  {
    var m := Lookup(MockUsers, email);
    if m.Some? && m.value.password == password then Some(m.value.role) else None
  }

  /** The four development accounts and the role each signs in as. */
  lemma MockAccountRoles()
    ensures MockHit("admin@cictrix.com", "Admin@123") == Some("super-admin")
    ensures MockHit("rsp@cictrix.com", "RSP@123") == Some("rsp")
    ensures MockHit("lnd@cictrix.com", "LND@123") == Some("lnd")
    ensures MockHit("pm@cictrix.com", "PM@123") == Some("pm")
  {
  }

  /** A call of `onLogin(email, role)`. */
  datatype SignedIn = SignedIn(email: string, role: string)

  /** The page's state. */
  class LoginPage {
    var email: string
    var password: string
    var loading: bool

    constructor ()
      ensures email == "" && password == "" && !loading
    {
      email := "";
      password := "";
      loading := false;
    }

    /** `handleLogin`. `auth` and `role` are the replies the service would
        give; `backendCalled` says whether sign-in was asked of it. */
    method HandleLogin(auth: AuthReply, role: RoleReply)
      returns (login: Option<SignedIn>, navigateTo: Option<string>, alert: Option<LoginAlert>, backendCalled: bool)
      modifies this
      ensures email == old(email) && password == old(password)
      ensures navigateTo.Some? <==> login.Some?
      ensures navigateTo.Some? ==> navigateTo.value == AdminPath
      ensures login.Some? <==> alert.None?
      ensures email == "" || password == "" ==>
        alert == Some(EnterCredentials) && !backendCalled && loading == old(loading)
      ensures email != "" && password != "" ==> !loading
      ensures email != "" && password != "" && MockHit(email, password).Some? ==>
        login == Some(SignedIn(email, MockHit(email, password).value)) && !backendCalled
      ensures email != "" && password != "" && MockHit(email, password).None? ==> backendCalled
      ensures backendCalled && auth == AuthRejected ==> alert == Some(InvalidCredentials)
      ensures backendCalled && auth == AuthThrew ==> alert == Some(LoginFailed)
      ensures backendCalled && auth.AuthSignedIn? && (role == RoleMissing || (role.RoleRow? && Falsy(role.column))) ==>
        alert == Some(NoRoleAssigned)
      ensures backendCalled && auth.AuthSignedIn? && role == RoleThrew ==> alert == Some(LoginFailed)
      ensures backendCalled && auth.AuthSignedIn? && role.RoleRow? && !Falsy(role.column) ==>
        login == Some(SignedIn(ResolvedEmail(auth.user, email), role.column.value))
    {
      login, navigateTo, alert, backendCalled := None, None, None, false;
      if email == "" || password == "" {
        alert := Some(EnterCredentials);
        return;
      }
      loading := true;
      var mock := MockHit(email, password);
      if mock.Some? {
        login, navigateTo := Some(SignedIn(email, mock.value)), Some(AdminPath);
        loading := false;
        return;
      }
      backendCalled := true;
      match auth {
        case AuthRejected =>
          alert := Some(InvalidCredentials);
        case AuthThrew =>
          alert := Some(LoginFailed);
        case AuthSignedIn(user) =>
          match role {
            case RoleMissing =>
              alert := Some(NoRoleAssigned);
            case RoleThrew =>
              alert := Some(LoginFailed);
            case RoleRow(column) =>
              if Falsy(column) {
                alert := Some(NoRoleAssigned);
              } else {
                login, navigateTo := Some(SignedIn(ResolvedEmail(user, email), column.value)), Some(AdminPath);
              }
          }
      }
      loading := false;
    }
  }
}

=== FILE: api.dfy ===
/** What the two back ends (Express under backend/src, FastAPI under
    backend/app) share: the rows of the `applicants` and `evaluations`
    tables, the equality filters their queries add, the `.range(from, to)`
    window, and the shape of an HTTP reply. */
module Api {
  import opened Wrappers
  import opened Seqs

  /** An HTTP reply: a status code and a JSON body. */
  datatype Reply<T> = Reply(status: int, body: Body<T>)

  datatype Body<T> =
    | Data(value: T)               // the payload itself
    | Error(message: string)       // Express `{ error: message }`
    | Detail(message: string)      // FastAPI `{ detail: message }`
    | Message(text: string)        // Express `{ message: text }`

  /** A string query or body field is truthy in JavaScript (and Python)
      when present and non-empty. */
  predicate Truthy(s: Option<string>) {
    s.Some? && s.value != ""
  }

  /** A row of the `applicants` table (backend/src/types/index.ts). */
  datatype ApplicantRow = ApplicantRow(
    id: string, name: string, address: string, contactNumber: string, email: string,
    position: string, itemNumber: string, office: string, isPwd: bool, status: string,
    createdAt: string, updatedAt: string)

  /** A stored evaluation score: a number or SQL null. */
  datatype Score = NullScore | Points(value: real)

  /** A row of the `evaluations` table. */
  datatype EvaluationRow = EvaluationRow(
    id: string, applicantId: string, evaluatorId: string, score: Score, comments: Option<string>)

  /** The row an evaluation create inserts. */
  datatype NewEvaluation = NewEvaluation(applicantId: string, evaluatorId: string, score: Score, comments: Option<string>)

  /** The `.eq(column, value)` filters the routes add to a query on
      `applicants`. */
  datatype ApplicantFilter = EmailIs(email: string) | IdIs(id: string)

  predicate ApplicantMatches(row: ApplicantRow, f: ApplicantFilter) {
    match f
    case EmailIs(e) => row.email == e
    case IdIs(i) => row.id == i
  }

  predicate ApplicantMatchesAll(row: ApplicantRow, filters: seq<ApplicantFilter>) {
    forall k :: 0 <= k < |filters| ==> ApplicantMatches(row, filters[k])
  }

  /** The rows a query with `filters` selects, in the order the table
      yields them. */
  function SelectApplicants(table: seq<ApplicantRow>, filters: seq<ApplicantFilter>): (r: seq<ApplicantRow>)
    ensures IsSubseq(r, table)
    ensures forall i :: 0 <= i < |r| ==> ApplicantMatchesAll(r[i], filters) && r[i] in table
    ensures forall i :: 0 <= i < |table| && ApplicantMatchesAll(table[i], filters) ==> table[i] in r
  {
    Filter(table, (row: ApplicantRow) => ApplicantMatchesAll(row, filters))
  }

  /** A query keeps each matching row as often as the table holds it and
      no other row. */
  lemma SelectApplicantsMultiset(table: seq<ApplicantRow>, filters: seq<ApplicantFilter>)
    ensures forall row :: multiset(SelectApplicants(table, filters))[row] ==
                          if ApplicantMatchesAll(row, filters) then multiset(table)[row] else 0
  {
    FilterMultiset(table, (row: ApplicantRow) => ApplicantMatchesAll(row, filters));
  }

  /** The test a row passes when it carries `email`. */
  function HasEmail(email: string): ApplicantRow -> bool {
    (row: ApplicantRow) => row.email == email
  }

  /** An email filter selects, in table order, exactly the rows carrying
      that email. */
  lemma SelectByEmail(table: seq<ApplicantRow>, email: string)
    ensures SelectApplicants(table, [EmailIs(email)]) == Filter(table, HasEmail(email))
  {
    var f := [EmailIs(email)];
    forall i | 0 <= i < |table|
      ensures ApplicantMatchesAll(table[i], f) == HasEmail(email)(table[i])
    {
      assert ApplicantMatchesAll(table[i], f) <==> ApplicantMatches(table[i], f[0]);
    }
    FilterCongruent(table, (row: ApplicantRow) => ApplicantMatchesAll(row, f), HasEmail(email));
  }

  /** No two rows of the table share an id (the primary key). */
  predicate IdsDistinct(table: seq<ApplicantRow>) {
    forall i, j :: 0 <= i < j < |table| ==> table[i].id != table[j].id
  }

  /** One step of the selection: the first row, if it matches, then the
      selection from the rest. */
  lemma SelectApplicantsCons(table: seq<ApplicantRow>, filters: seq<ApplicantFilter>)
    requires |table| > 0
    ensures SelectApplicants(table, filters) ==
      (if ApplicantMatchesAll(table[0], filters) then [table[0]] else []) + SelectApplicants(table[1..], filters)
  {
  }

  /** Selecting an id no row has finds nothing. */
  lemma {:induction false} SelectAbsentId(table: seq<ApplicantRow>, id: string)
    requires forall i :: 0 <= i < |table| ==> table[i].id != id
    ensures SelectApplicants(table, [IdIs(id)]) == []
  {
    if |table| > 0 {
      var f := [IdIs(id)];
      SelectApplicantsCons(table, f);
      assert !ApplicantMatches(table[0], f[0]);
      SelectAbsentId(table[1..], id);
    }
  }

  /** With distinct ids, selecting a stored row's id finds that row alone,
      so `.single()` succeeds on it. */
  lemma {:induction false} SelectById(table: seq<ApplicantRow>, k: int)
    requires IdsDistinct(table) && 0 <= k < |table|
    ensures SelectApplicants(table, [IdIs(table[k].id)]) == [table[k]]
  {
    var f := [IdIs(table[k].id)];
    SelectApplicantsCons(table, f);
    var rest := SelectApplicants(table[1..], f);
    if k == 0 {
      assert forall i :: 0 <= i < |table[1..]| ==> table[1..][i].id != table[0].id by {
        forall i | 0 <= i < |table[1..]|
          ensures table[1..][i].id != table[0].id
        {
          assert table[1..][i] == table[i + 1];
        }
      }
      SelectAbsentId(table[1..], table[0].id);
      assert ApplicantMatchesAll(table[0], f);
    } else {
      assert IdsDistinct(table[1..]) by {
        forall i, j | 0 <= i < j < |table[1..]|
          ensures table[1..][i].id != table[1..][j].id
        {
          assert table[1..][i] == table[i + 1] && table[1..][j] == table[j + 1];
        }
      }
      assert table[1..][k - 1] == table[k];
      SelectById(table[1..], k - 1);
      assert !ApplicantMatches(table[0], f[0]);
    }
  }

  /** A JSON object, as field name to the field's JSON text. */
  type Fields = map<string, string>

  /** The `.eq(column, value)` filters added to a query on `evaluations`. */
  datatype EvaluationFilter = ApplicantIs(applicantId: string) | EvaluatorIs(evaluatorId: string)

  predicate EvaluationMatches(row: EvaluationRow, f: EvaluationFilter) {
    match f
    case ApplicantIs(a) => row.applicantId == a
    case EvaluatorIs(e) => row.evaluatorId == e
  }

  predicate EvaluationMatchesAll(row: EvaluationRow, filters: seq<EvaluationFilter>) {
    forall k :: 0 <= k < |filters| ==> EvaluationMatches(row, filters[k])
  }

  function SelectEvaluations(table: seq<EvaluationRow>, filters: seq<EvaluationFilter>): (r: seq<EvaluationRow>)
    ensures IsSubseq(r, table)
    ensures forall i :: 0 <= i < |r| ==> EvaluationMatchesAll(r[i], filters) && r[i] in table
    ensures forall i :: 0 <= i < |table| && EvaluationMatchesAll(table[i], filters) ==> table[i] in r
  {
    Filter(table, (row: EvaluationRow) => EvaluationMatchesAll(row, filters))
  }

  /** A query keeps each matching row as often as the table holds it and
      no other row. */
  lemma SelectEvaluationsMultiset(table: seq<EvaluationRow>, filters: seq<EvaluationFilter>)
    ensures forall row :: multiset(SelectEvaluations(table, filters))[row] ==
                          if EvaluationMatchesAll(row, filters) then multiset(table)[row] else 0
  {
    FilterMultiset(table, (row: EvaluationRow) => EvaluationMatchesAll(row, filters));
  }

  function Max(a: int, b: int): int { if a < b then b else a }

  function Min(a: int, b: int): int { if a < b then a else b }

  /** `.range(from, to)`: the rows at positions `from` to `to` inclusive
      that exist, in order. */
  function Range<T>(rows: seq<T>, from: int, to: int): (r: seq<T>)
    ensures |r| == Max(0, Min(to + 1, |rows|) - Max(from, 0))
    ensures |r| <= Max(0, to - from + 1)
    ensures forall i :: 0 <= i < |r| ==> from <= Max(from, 0) + i <= to && r[i] == rows[Max(from, 0) + i]
  {
    var lo := Max(from, 0);
    var hi := Min(to + 1, |rows|);
    if lo < hi then rows[lo..hi] else []
  }
}

=== FILE: applicant_wizard.dfy ===
/** The two-step applicant wizard (src/modules/applicant/ApplicantWizard.tsx):
    step 1 is the form, step 2 the attachments; `Next` validates the form,
    `Submit` validates the files, inserts the applicant, then uploads each
    file and records it, stopping at the first failure. The database and
    the storage bucket are parameters: `created` is the reply to the
    applicant insert, `storageRejects` and `tableRejects` say which upload
    and which attachment insert fail, `stamps` the `Date.now()` value read
    for each file. */
module ApplicantWizard {
  import opened Wrappers
  import opened Strings
  import opened Files
  import opened Validation

  /** The keys of the wizard's form data, as `INITIAL_FORM_DATA` spells
      them. */
  const DeclaredKeys: set<string> :=
    {"name", "address", "contact_number", "email", "position", "item_number", "office", "is_pwd"}

  /** `INITIAL_FORM_DATA`: every text field empty, not a PWD. */
  const InitialFormData := ApplicantFormData("", "", "", "", "", "", "", false)

  /** A value typed into a field: text, or the PWD checkbox. */
  datatype FieldValue = Text(text: string) | Flag(flag: bool)

  /** Whether a value has the type of the field it is written to. */
  predicate Fits(f: Field, v: FieldValue) {
    v.Flag? <==> f == IsPwd
  }

  /** `formData[field]`. */
  function Get(data: ApplicantFormData, f: Field): (v: FieldValue)
    ensures Fits(f, v)
  {
    match f
    case Name => Text(data.name)
    case Address => Text(data.address)
    case ContactNumber => Text(data.contactNumber)
    case Email => Text(data.email)
    case Position => Text(data.position)
    case ItemNumber => Text(data.itemNumber)
    case Office => Text(data.office)
    case IsPwd => Flag(data.isPwd)
  }

  /** `{ ...prev, [field]: value }`. */
  function Set(data: ApplicantFormData, f: Field, v: FieldValue): ApplicantFormData
    requires Fits(f, v)
  {
    match f
    case Name => data.(name := v.text)
    case Address => data.(address := v.text)
    case ContactNumber => data.(contactNumber := v.text)
    case Email => data.(email := v.text)
    case Position => data.(position := v.text)
    case ItemNumber => data.(itemNumber := v.text)
    case Office => data.(office := v.text)
    case IsPwd => data.(isPwd := v.flag)
  }

  /** Writing a field changes that field to the value and no other. */
  lemma SetChangesOneField(data: ApplicantFormData, f: Field, v: FieldValue, g: Field)
    requires Fits(f, v)
    ensures Get(Set(data, f, v), g) == if g == f then v else Get(data, g)
  {
  }

  /** `{ ...prev, [field]: undefined }` on the errors. */
  function Clear(errors: FormErrors, f: Field): FormErrors {
    match f
    case Name => errors.(name := None)
    case Address => errors.(address := None)
    case ContactNumber => errors.(contactNumber := None)
    case Email => errors.(email := None)
    case Position => errors.(position := None)
    case Office => errors.(office := None)
    case ItemNumber => errors
    case IsPwd => errors
  }

  /** Clearing a field's error removes that error and keeps the others. */
  lemma ClearRemovesOneError(errors: FormErrors, f: Field, g: Field)
    ensures Entry(Clear(errors, f), g) == if g == f then None else Entry(errors, g)
  {
  }

  /** The `applicant_attachments` row written for an uploaded file. */
  datatype AttachmentRecord = AttachmentRecord(
    applicantId: string, fileName: string, filePath: string, fileType: string, fileSize: nat)

  /** `${applicantId}/${Date.now()}-${name}`. */
  function StoragePath(applicantId: string, stamp: nat, name: string): string {
    applicantId + "/" + DecimalString(stamp) + "-" + name
  }

  function RecordOf(applicantId: string, path: string, f: File): AttachmentRecord {
    AttachmentRecord(applicantId, f.name, path, f.mime, f.size)
  }

  /** What an upload run did: whether it got through, the storage paths it
      wrote and the attachment rows it inserted, in order. */
  datatype UploadRun = UploadRun(ok: bool, stored: seq<string>, records: seq<AttachmentRecord>)

  /** The run over `files` with one time stamp per file: each file is
      stored, then recorded; the first refusal ends the run. A file whose
      record is refused stays stored. */
  function Uploads(files: seq<UploadedFile>, stamps: seq<nat>, applicantId: string,
                   storageRejects: string -> bool, tableRejects: AttachmentRecord -> bool): (r: UploadRun)
    requires |stamps| == |files|
    ensures |r.records| <= |r.stored| <= |files|
    ensures r.ok ==> |r.records| == |r.stored| == |files|
    decreases |files|
  {
    if |files| == 0 then UploadRun(true, [], [])
    else
      var path := StoragePath(applicantId, stamps[0], files[0].file.name);
      var record := RecordOf(applicantId, path, files[0].file);
      if storageRejects(path) then UploadRun(false, [], [])
      else if tableRejects(record) then UploadRun(false, [path], [])
      else
        var rest := Uploads(files[1..], stamps[1..], applicantId, storageRejects, tableRejects);
        UploadRun(rest.ok, [path] + rest.stored, [record] + rest.records)
  }

  /** The file uploaded under `stamp` is stored and its row inserted. */
  predicate Accepted(applicantId: string, stamp: nat, f: File,
                     storageRejects: string -> bool, tableRejects: AttachmentRecord -> bool) {
    !storageRejects(StoragePath(applicantId, stamp, f.name))
    && !tableRejects(RecordOf(applicantId, StoragePath(applicantId, stamp, f.name), f))
  }

  /** The run succeeds exactly when every file is accepted; every inserted
      row describes its file and points at the path stored for it. */
  lemma {:induction false} UploadsSpec(files: seq<UploadedFile>, stamps: seq<nat>, applicantId: string,
                                       storageRejects: string -> bool, tableRejects: AttachmentRecord -> bool)
    requires |stamps| == |files|
    ensures var r := Uploads(files, stamps, applicantId, storageRejects, tableRejects);
      r.ok <==> forall k :: 0 <= k < |files| ==> Accepted(applicantId, stamps[k], files[k].file, storageRejects, tableRejects)
    ensures var r := Uploads(files, stamps, applicantId, storageRejects, tableRejects);
      forall k :: 0 <= k < |r.stored| ==> r.stored[k] == StoragePath(applicantId, stamps[k], files[k].file.name)
    ensures var r := Uploads(files, stamps, applicantId, storageRejects, tableRejects);
      forall k :: 0 <= k < |r.records| ==> r.records[k] == RecordOf(applicantId, r.stored[k], files[k].file)
    decreases |files|
  {
    if |files| > 0 {
      UploadsSpec(files[1..], stamps[1..], applicantId, storageRejects, tableRejects);
      var path := StoragePath(applicantId, stamps[0], files[0].file.name);
      if !storageRejects(path) && !tableRejects(RecordOf(applicantId, path, files[0].file)) {
        assert forall k :: 1 <= k < |files| ==> files[k] == files[1..][k - 1] && stamps[k] == stamps[1..][k - 1];
      }
    }
  }

  /** A run that fails stops at the first file not accepted: the files
      before it are stored and recorded, and that file is stored only when
      storage took it (its row is then the one refused). */
  lemma {:induction false} UploadsStopAtFirstRefusal(files: seq<UploadedFile>, stamps: seq<nat>, applicantId: string,
                                                     storageRejects: string -> bool, tableRejects: AttachmentRecord -> bool)
    requires |stamps| == |files|
    ensures var r := Uploads(files, stamps, applicantId, storageRejects, tableRejects);
      !r.ok ==>
        var k := |r.records|;
        k < |files| && !Accepted(applicantId, stamps[k], files[k].file, storageRejects, tableRejects)
        && (forall j :: 0 <= j < k ==> Accepted(applicantId, stamps[j], files[j].file, storageRejects, tableRejects))
        && |r.stored| == if storageRejects(StoragePath(applicantId, stamps[k], files[k].file.name)) then k else k + 1
    decreases |files|
  {
    if |files| > 0 {
      var path := StoragePath(applicantId, stamps[0], files[0].file.name);
      if !storageRejects(path) && !tableRejects(RecordOf(applicantId, path, files[0].file)) {
        UploadsStopAtFirstRefusal(files[1..], stamps[1..], applicantId, storageRejects, tableRejects);
        var rest := Uploads(files[1..], stamps[1..], applicantId, storageRejects, tableRejects);
        if !rest.ok {
          var k := |rest.records|;
          assert files[k + 1] == files[1..][k] && stamps[k + 1] == stamps[1..][k];
          forall j | 1 <= j < k + 1
            ensures Accepted(applicantId, stamps[j], files[j].file, storageRejects, tableRejects)
          {
            assert files[j] == files[1..][j - 1] && stamps[j] == stamps[1..][j - 1];
          }
        }
      }
    }
  }

  const CreateFailed: string := "Failed to create applicant record"
  const UploadFailed: string := "Failed to upload some files. Please try again."

  /** The reply to the applicant insert: its error's message (when there is
      an error) and the new row's id (when there is a row). */
  datatype InsertReply = InsertReply(error: Option<string>, createdId: Option<string>)

  /** The wizard's state. */
  class Wizard {
    var step: int
    var formData: ApplicantFormData
    var files: seq<UploadedFile>
    var errors: FormErrors
    var fileError: string
    var isSubmitting: bool
    var showSuccessDialog: bool
    var submitError: string
    /** Keys written through `handleFormChange` that the wizard's form data
        does not declare: the spread adds them beside the declared fields,
        and nothing reads them. */
    var extraKeys: map<string, string>

    /** The wizard as first shown. */
    constructor ()
      ensures step == 1 && formData == InitialFormData && files == [] && errors == NoErrors
      ensures fileError == "" && !isSubmitting && !showSuccessDialog && submitError == ""
      ensures extraKeys == map[]
    {
      step := 1;
      formData := InitialFormData;
      files := [];
      errors := NoErrors;
      fileError := "";
      isSubmitting := false;
      showSuccessDialog := false;
      submitError := "";
      extraKeys := map[];
    }

    /** The step is always 1 or 2. */
    predicate Valid()
      reads this
    {
      step == 1 || step == 2
    }

    /** `handleFormChange(field, value)`: write the field, and clear its
        error if it has one. */
    method HandleFormChange(f: Field, v: FieldValue)
      requires Fits(f, v)
      modifies this
      ensures formData == Set(old(formData), f, v)
      ensures errors == if Entry(old(errors), f).Some? then Clear(old(errors), f) else old(errors)
      ensures step == old(step) && files == old(files) && fileError == old(fileError)
      ensures isSubmitting == old(isSubmitting) && showSuccessDialog == old(showSuccessDialog)
      ensures submitError == old(submitError) && extraKeys == old(extraKeys)
    {
      formData := Set(formData, f, v);
      if Entry(errors, f).Some? {
        errors := Clear(errors, f);
      }
    }

    /** `handleFormChange(key, value)` for a key the form data does not
        declare: the spread adds the key and keeps every declared field; the
        errors object never holds such a key, so nothing is cleared. */
    method HandleUndeclaredChange(key: string, text: string)
      requires key !in DeclaredKeys
      modifies this
      ensures extraKeys == old(extraKeys)[key := text]
      ensures formData == old(formData) && errors == old(errors)
      ensures step == old(step) && files == old(files) && fileError == old(fileError)
      ensures isSubmitting == old(isSubmitting) && showSuccessDialog == old(showSuccessDialog)
      ensures submitError == old(submitError)
    {
      extraKeys := extraKeys[key := text];
    }

    /** `handleFilesChange(newFiles)`. */
    method HandleFilesChange(newFiles: seq<UploadedFile>)
      modifies this
      ensures files == newFiles && fileError == ""
      ensures step == old(step) && formData == old(formData) && errors == old(errors)
      ensures isSubmitting == old(isSubmitting) && showSuccessDialog == old(showSuccessDialog)
      ensures submitError == old(submitError) && extraKeys == old(extraKeys)
    {
      files := newFiles;
      fileError := "";
    }

    /** `handleNext()`: move to step 2 exactly when the form is valid; the
        errors shown are the form's errors either way. */
    method HandleNext()
      requires Valid()
      modifies this
      ensures Valid()
      ensures step == if FormValid(formData) then 2 else old(step)
      ensures forall f :: Entry(errors, f) == FieldError(formData, f)
      ensures formData == old(formData) && files == old(files) && fileError == old(fileError)
      ensures isSubmitting == old(isSubmitting) && showSuccessDialog == old(showSuccessDialog)
      ensures submitError == old(submitError) && extraKeys == old(extraKeys)
    {
      var validationErrors := ValidateApplicantForm(formData);
      ShowVerdict(validationErrors);
    }

    /** The rest of `handleNext()`: a non-empty verdict is shown and the
        step kept; an empty one clears the errors and moves to step 2. */
    method ShowVerdict(validationErrors: FormErrors)
      requires Valid()
      modifies this
      ensures Valid()
      ensures step == if Empty(validationErrors) then 2 else old(step)
      ensures errors == validationErrors
      ensures formData == old(formData) && files == old(files) && fileError == old(fileError)
      ensures isSubmitting == old(isSubmitting) && showSuccessDialog == old(showSuccessDialog)
      ensures submitError == old(submitError) && extraKeys == old(extraKeys)
    {
      if !Empty(validationErrors) {
        errors := validationErrors;
        return;
      }
      EmptyIsNoErrors(validationErrors);
      errors := NoErrors;
      step := 2;
    }

    /** `handleBack()`. */
    method HandleBack()
      modifies this
      ensures Valid() && step == 1
      ensures formData == old(formData) && files == old(files) && errors == old(errors)
      ensures fileError == old(fileError) && isSubmitting == old(isSubmitting)
      ensures showSuccessDialog == old(showSuccessDialog) && submitError == old(submitError)
      ensures extraKeys == old(extraKeys)
    {
      step := 1;
    }

    /** `uploadFilesToSupabase(applicantId)`: the loop over `files`. */
    method UploadFiles(applicantId: string, stamps: seq<nat>,
                       storageRejects: string -> bool, tableRejects: AttachmentRecord -> bool)
      returns (run: UploadRun)
      requires |stamps| == |files|
      ensures run == Uploads(files, stamps, applicantId, storageRejects, tableRejects)
    {
      var stored: seq<string> := [];
      var records: seq<AttachmentRecord> := [];
      var i := 0;
      while i < |files|
        invariant 0 <= i <= |files|
        invariant Uploads(files, stamps, applicantId, storageRejects, tableRejects)
          == var rest := Uploads(files[i..], stamps[i..], applicantId, storageRejects, tableRejects);
             UploadRun(rest.ok, stored + rest.stored, records + rest.records)
      {
        var uploadedFile := files[i];
        var fileName := StoragePath(applicantId, stamps[i], uploadedFile.file.name);
        assert files[i..][1..] == files[i + 1..] && stamps[i..][1..] == stamps[i + 1..];
        if storageRejects(fileName) {
          assert Uploads(files[i..], stamps[i..], applicantId, storageRejects, tableRejects) == UploadRun(false, [], []);
          assert stored + [] == stored && records + [] == records;
          return UploadRun(false, stored, records);
        }
        var record := RecordOf(applicantId, fileName, uploadedFile.file);
        if tableRejects(record) {
          assert Uploads(files[i..], stamps[i..], applicantId, storageRejects, tableRejects) == UploadRun(false, [fileName], []);
          assert records + [] == records;
          return UploadRun(false, stored + [fileName], records);
        }
        ghost var rest := Uploads(files[i + 1..], stamps[i + 1..], applicantId, storageRejects, tableRejects);
        assert Uploads(files[i..], stamps[i..], applicantId, storageRejects, tableRejects)
          == UploadRun(rest.ok, [fileName] + rest.stored, [record] + rest.records);
        assert stored + ([fileName] + rest.stored) == (stored + [fileName]) + rest.stored;
        assert records + ([record] + rest.records) == (records + [record]) + rest.records;
        stored := stored + [fileName];
        records := records + [record];
        i := i + 1;
      }
      assert files[i..] == [];
      return UploadRun(true, stored, records);
    }

    /** `handleSubmit()`. `sent` is the applicant row the wizard inserts and
        `run` the upload run, when it gets that far. */
    method HandleSubmit(created: InsertReply, stamps: seq<nat>,
                        storageRejects: string -> bool, tableRejects: AttachmentRecord -> bool)
      returns (sent: Option<ApplicantFormData>, run: Option<UploadRun>)
      requires Valid() && |stamps| == |files|
      modifies this
      ensures Valid() && errors == old(errors)
      ensures var problem := FilesVerdict(Uploaded(old(files)), None);
        problem.Some? ==> (fileError == FileText(problem.value) && sent.None? && run.None?
          && step == old(step) && formData == old(formData) && files == old(files)
          && isSubmitting == old(isSubmitting) && showSuccessDialog == old(showSuccessDialog)
          && submitError == old(submitError))
      ensures FilesVerdict(Uploaded(old(files)), None).None? ==>
        sent == Some(old(formData)) && !isSubmitting && fileError == old(fileError)
      ensures sent.Some? && (created.error.Some? || created.createdId.None?) ==>
        run.None? && submitError == (if Truthy(created.error) then created.error.value else CreateFailed)
      ensures run.Some? <==> sent.Some? && created.error.None? && created.createdId.Some?
      ensures run.Some? ==>
        run.value == Uploads(old(files), stamps, created.createdId.value, storageRejects, tableRejects)
      ensures run.Some? && !run.value.ok ==> submitError == UploadFailed
      ensures run.Some? && run.value.ok ==> showSuccessDialog
      ensures run.Some? && run.value.ok ==>
        formData == InitialFormData && extraKeys == map[] && files == [] && step == 1 && submitError == ""
      ensures !(run.Some? && run.value.ok) ==>
        formData == old(formData) && extraKeys == old(extraKeys) && files == old(files) && step == old(step)
        && showSuccessDialog == old(showSuccessDialog)
    {
      var fileValidationError := ValidateFiles(Uploaded(files), None);
      if fileValidationError.Some? {
        fileError := FileText(fileValidationError.value);
        return None, None;
      }
      isSubmitting := true;
      submitError := "";
      sent := Some(formData);
      run := None;
      if created.error.Some? || created.createdId.None? {
        submitError := if Truthy(created.error) then created.error.value else CreateFailed;
      } else {
        var uploaded := UploadFiles(created.createdId.value, stamps, storageRejects, tableRejects);
        run := Some(uploaded);
        if !uploaded.ok {
          submitError := UploadFailed;
        } else {
          showSuccessDialog := true;
          formData := InitialFormData;
          extraKeys := map[];
          files := [];
          step := 1;
        }
      }
      isSubmitting := false;
    }
  }

  /** `files.map((f) => f.file)`. */
  function Uploaded(files: seq<UploadedFile>): (r: seq<File>)
    ensures |r| == |files| && forall k :: 0 <= k < |r| ==> r[k] == files[k].file
  {
    seq(|files|, k requires 0 <= k < |files| => files[k].file)
  }

  /** A message JavaScript counts as true: present and non-empty. */
  predicate Truthy(s: Option<string>) {
    s.Some? && s.value != ""
  }
}

=== FILE: assessment_form.dfy ===
/** The form step of the wizard
    (src/modules/applicant/ApplicantAssessmentForm.tsx): its own position
    and office lists, the department each position is filed under, and the
    position handler, which fills the office in from the position. The
    handler writes through the wizard's `HandleFormChange`, as the
    component writes through its `onChange` prop. */
module AssessmentForm {
  import opened Validation
  import opened Wrappers
  import Positions
  import opened ApplicantWizard
  import opened Strings

  const PositionOptions: seq<Positions.SelectOption> := [
    Positions.SelectOption("Software Developer", "Software Developer"),
    Positions.SelectOption("Project Manager", "Project Manager"),
    Positions.SelectOption("Business Analyst", "Business Analyst"),
    Positions.SelectOption("QA Engineer", "QA Engineer"),
    Positions.SelectOption("DevOps Engineer", "DevOps Engineer"),
    Positions.SelectOption("UI/UX Designer", "UI/UX Designer"),
    Positions.SelectOption("Data Analyst", "Data Analyst"),
    Positions.SelectOption("System Administrator", "System Administrator")]

  const OfficeOptions: seq<Positions.SelectOption> := [
    Positions.SelectOption("Human Resources", "Human Resources"),
    Positions.SelectOption("Finance", "Finance"),
    Positions.SelectOption("Information Technology", "Information Technology"),
    Positions.SelectOption("Operations", "Operations"),
    Positions.SelectOption("Sales & Marketing", "Sales & Marketing"),
    Positions.SelectOption("Customer Support", "Customer Support"),
    Positions.SelectOption("Legal", "Legal"),
    Positions.SelectOption("Product Management", "Product Management")]

  const PositionToDepartment: map<string, string> := map[
    "Software Developer" := "Information Technology",
    "Project Manager" := "Operations",
    "Business Analyst" := "Operations",
    "QA Engineer" := "Information Technology",
    "DevOps Engineer" := "Information Technology",
    "UI/UX Designer" := "Product Management",
    "Data Analyst" := "Product Management",
    "System Administrator" := "Information Technology"]

  /** The mapped positions are exactly the position choices, and every
      department filled in is an office choice. */
  lemma MapMatchesOptions()
    ensures forall p :: p in PositionToDepartment <==> exists k :: 0 <= k < |PositionOptions| && PositionOptions[k].value == p
    ensures forall p :: p in PositionToDepartment ==>
      exists k :: 0 <= k < |OfficeOptions| && OfficeOptions[k].value == PositionToDepartment[p]
  {
    forall p | p in PositionToDepartment
      ensures exists k :: 0 <= k < |PositionOptions| && PositionOptions[k].value == p
      ensures exists k :: 0 <= k < |OfficeOptions| && OfficeOptions[k].value == PositionToDepartment[p]
    {
      if p == "Software Developer" {
        assert PositionOptions[0].value == p && OfficeOptions[2].value == PositionToDepartment[p];
      } else if p == "Project Manager" {
        assert PositionOptions[1].value == p && OfficeOptions[3].value == PositionToDepartment[p];
      } else if p == "Business Analyst" {
        assert PositionOptions[2].value == p && OfficeOptions[3].value == PositionToDepartment[p];
      } else if p == "QA Engineer" {
        assert PositionOptions[3].value == p && OfficeOptions[2].value == PositionToDepartment[p];
      } else if p == "DevOps Engineer" {
        assert PositionOptions[4].value == p && OfficeOptions[2].value == PositionToDepartment[p];
      } else if p == "UI/UX Designer" {
        assert PositionOptions[5].value == p && OfficeOptions[7].value == PositionToDepartment[p];
      } else if p == "Data Analyst" {
        assert PositionOptions[6].value == p && OfficeOptions[7].value == PositionToDepartment[p];
      } else {
        assert PositionOptions[7].value == p && OfficeOptions[2].value == PositionToDepartment[p];
      }
    }
  }

  /** Each choice shows its own value. */
  lemma OptionsShowTheirValue()
    ensures forall o :: o in PositionOptions ==> o.caption == o.value
    ensures forall o :: o in OfficeOptions ==> o.caption == o.value
  {
  }

  /** `handlePositionChange(positionValue)`: the position is written
      first; a position with a department then writes the office too. */
  method HandlePositionChange(w: Wizard, positionValue: string)
    modifies w
    ensures positionValue in PositionToDepartment ==>
      w.formData == old(w.formData).(position := positionValue, office := PositionToDepartment[positionValue])
    ensures positionValue !in PositionToDepartment ==>
      w.formData == old(w.formData).(position := positionValue)
    ensures positionValue in PositionToDepartment ==> w.errors == Clear(Clear(old(w.errors), Position), Office)
    ensures positionValue !in PositionToDepartment ==> w.errors == Clear(old(w.errors), Position)
    ensures w.step == old(w.step) && w.files == old(w.files) && w.isSubmitting == old(w.isSubmitting)
    ensures w.fileError == old(w.fileError) && w.showSuccessDialog == old(w.showSuccessDialog)
    ensures w.submitError == old(w.submitError) && w.extraKeys == old(w.extraKeys)
  {
    w.HandleFormChange(Position, Text(positionValue));
    if positionValue in PositionToDepartment && PositionToDepartment[positionValue] != "" {
      w.HandleFormChange(Office, Text(PositionToDepartment[positionValue]));
    }
  }

  /** The inputs of the form, in the order it shows them, each with what
      the applicant entered. */
  datatype FormInput =
    | FirstNameInput(text: string) | MiddleNameInput(text: string) | LastNameInput(text: string)
    | EmailInput(text: string) | ContactInput(text: string) | PositionSelect(text: string)
    | AddressInput(text: string) | DepartmentSelect(text: string) | PwdCheckbox(checked: bool)

  /** The key a name input hands to `onChange`. None of them is a key of
      the wizard's form data, and none is `name`. */
  function NameKey(input: FormInput): (key: string)
    requires input.FirstNameInput? || input.MiddleNameInput? || input.LastNameInput?
    ensures key !in DeclaredKeys
  {
    match input
    case FirstNameInput(_) => "first_name"
    case MiddleNameInput(_) => "middle_name"
    case LastNameInput(_) => "last_name"
  }

  /** The declared fields after an input: a name input leaves them all as
      they were; the position select may fill the office in too. */
  function InputData(data: ApplicantFormData, input: FormInput): (r: ApplicantFormData)
    ensures r.name == data.name && r.itemNumber == data.itemNumber
  {
    match input
    case FirstNameInput(_) => data
    case MiddleNameInput(_) => data
    case LastNameInput(_) => data
    case EmailInput(t) => data.(email := t)
    case ContactInput(t) => data.(contactNumber := t)
    case PositionSelect(t) =>
      if t in PositionToDepartment then data.(position := t, office := PositionToDepartment[t])
      else data.(position := t)
    case AddressInput(t) => data.(address := t)
    case DepartmentSelect(t) => data.(office := t)
    case PwdCheckbox(b) => data.(isPwd := b)
  }

  /** An input's `onChange`, sent to the wizard's `handleFormChange` as
      the form is written: the name inputs write `first_name`,
      `middle_name` and `last_name`, which the wizard's form data does not
      declare; every other input writes its own declared field. */
  method HandleInput(w: Wizard, input: FormInput)
    modifies w
    ensures w.formData == InputData(old(w.formData), input)
    ensures input.FirstNameInput? || input.MiddleNameInput? || input.LastNameInput? ==>
      w.extraKeys == old(w.extraKeys)[NameKey(input) := input.text] && w.errors == old(w.errors)
    ensures !(input.FirstNameInput? || input.MiddleNameInput? || input.LastNameInput?) ==>
      w.extraKeys == old(w.extraKeys)
    ensures w.step == old(w.step) && w.files == old(w.files) && w.isSubmitting == old(w.isSubmitting)
    ensures w.fileError == old(w.fileError) && w.showSuccessDialog == old(w.showSuccessDialog)
    ensures w.submitError == old(w.submitError)
  {
    match input
    case FirstNameInput(t) => w.HandleUndeclaredChange(NameKey(input), t);
    case MiddleNameInput(t) => w.HandleUndeclaredChange(NameKey(input), t);
    case LastNameInput(t) => w.HandleUndeclaredChange(NameKey(input), t);
    case EmailInput(t) => w.HandleFormChange(Email, Text(t));
    case ContactInput(t) => w.HandleFormChange(ContactNumber, Text(t));
    case PositionSelect(t) => HandlePositionChange(w, t);
    case AddressInput(t) => w.HandleFormChange(Address, Text(t));
    case DepartmentSelect(t) => w.HandleFormChange(Office, Text(t));
    case PwdCheckbox(b) => w.HandleFormChange(IsPwd, Flag(b));
  }

  /** As the form is written, whatever the applicant enters, `name` stays
      empty: `Next` then reports the name as required and stays on step 1,
      so step 2 and the submit are never reached. */
  method AsWrittenSession(inputs: seq<FormInput>) returns (w: Wizard)
    ensures w.formData.name == "" && w.step == 1
    ensures Entry(w.errors, Name) == Some(NameRequired)
    ensures !FormValid(w.formData)
  {
    w := new Wizard();
    for i := 0 to |inputs|
      invariant fresh(w)
      invariant w.formData.name == "" && w.step == 1
    {
      HandleInput(w, inputs[i]);
    }
    w.HandleNext();
    assert Blank(w.formData.name);
  }

  /** The form the wizard and the validator expect, with one input per
      declared field: once every field is entered, `Next` moves to step 2
      exactly when the form is valid, and shows each field's own message. */
  method IntendedSession(data: ApplicantFormData) returns (w: Wizard)
    ensures w.formData == data
    ensures w.step == if FormValid(data) then 2 else 1
    ensures forall f :: Entry(w.errors, f) == FieldError(data, f)
  {
    w := new Wizard();
    w.HandleFormChange(Name, Text(data.name));
    w.HandleFormChange(Address, Text(data.address));
    w.HandleFormChange(ContactNumber, Text(data.contactNumber));
    w.HandleFormChange(Email, Text(data.email));
    w.HandleFormChange(Position, Text(data.position));
    w.HandleFormChange(ItemNumber, Text(data.itemNumber));
    w.HandleFormChange(Office, Text(data.office));
    w.HandleFormChange(IsPwd, Flag(data.isPwd));
    assert w.formData == data;
    w.HandleNext();
  }
}

=== FILE: attachments_upload.dfy ===
/** The attachments step of the wizard
    (src/modules/applicant/AttachmentsUploadForm.tsx): the item number
    shown to the applicant, the drag highlight, and the file list, which
    grows by appending what is dropped or picked and shrinks by removing an
    id. The list is the one the wizard holds; writing `files` here stands
    for `onFilesChange`. `Date.now()` and `Math.random()` enter as the ids
    given for the new files. */
module AttachmentsUpload {
  import opened Wrappers
  import opened Strings
  import opened Seqs
  import opened Files

  /** `String(count + 1).padStart(2, '0')`, with a missing count read
      as 0. */
  function ItemNumberOf(count: Option<nat>): (r: string)
    ensures |r| >= 2 && forall i :: 0 <= i < |r| ==> IsDigit(r[i])
  {
    var c := if count.Some? then count.value else 0;
    PadStart(DecimalString(c + 1), 2, '0')
  }

  /** The item number reads back as the count plus one, and a missing
      count numbers the first item `01`. */
  lemma ItemNumberReadsBack(count: nat)
    ensures ParseInt(ItemNumberOf(Some(count))) == Some(count + 1)
    ensures ItemNumberOf(Some(count)) == if count + 1 < 10 then ['0', DigitChar(count + 1)] else DecimalString(count + 1)
  {
    var d := DecimalString(count + 1);
    var r := ItemNumberOf(Some(count));
    DecimalDigitsValue(count + 1);
    if count + 1 < 10 {
      assert d == [DigitChar(count + 1)];
      assert r == ['0'] + d;
      assert r[..1] == ['0'];
      assert DigitsValue(r[..1], 10) == 0 by {
        assert r[..1][..0] == [];
      }
      assert DigitsValue(r, 10) == DigitsValue(d, 10) by {
        assert r[..|r| - 1] == r[..1];
        assert d[..|d| - 1] == [];
      }
    }
    ParseIntDigits(r);
  }

  lemma FirstItemNumber()
    ensures ItemNumberOf(None) == "01"
  {
    assert DecimalString(1) == "1";
  }

  /** The component's own state and the list it edits. */
  class AttachmentsForm {
    var files: seq<UploadedFile>
    var dragActive: bool
    var nextItemNumber: string

    /** A fresh step: no highlight, item number `01` until the count is
        known. */
    constructor (files: seq<UploadedFile>)
      ensures this.files == files && !dragActive && nextItemNumber == "01"
    {
      this.files := files;
      dragActive := false;
      nextItemNumber := "01";
    }

    /** The count fetch on mount: `count` is the reply's count, `threw`
        whether the call threw. */
    method FetchCount(count: Option<nat>, threw: bool)
      modifies this
      ensures nextItemNumber == if threw then "01" else ItemNumberOf(count)
      ensures files == old(files) && dragActive == old(dragActive)
    {
      if threw {
        nextItemNumber := "01";
      } else {
        var c := if count.Some? then count.value else 0;
        nextItemNumber := PadStart(DecimalString(c + 1), 2, '0');
      }
    }

    /** `handleDrag(e)` for an event of type `eventType`. */
    method HandleDrag(eventType: string)
      modifies this
      ensures eventType == "dragenter" || eventType == "dragover" ==> dragActive
      ensures eventType == "dragleave" ==> !dragActive
      ensures eventType !in ["dragenter", "dragover", "dragleave"] ==> dragActive == old(dragActive)
      ensures files == old(files) && nextItemNumber == old(nextItemNumber)
    {
      if eventType == "dragenter" || eventType == "dragover" {
        dragActive := true;
      } else if eventType == "dragleave" {
        dragActive := false;
      }
    }

    /** `handleFiles(fileList)`: the new files, each with its id, go after
        the ones already listed. */
    method HandleFiles(fileList: seq<File>, ids: seq<string>)
      requires |ids| == |fileList|
      modifies this
      ensures files == old(files) + NewEntries(fileList, ids)
      ensures dragActive == old(dragActive) && nextItemNumber == old(nextItemNumber)
    {
      var newFiles := NewEntries(fileList, ids);
      files := files + newFiles;
    }

    /** `handleDrop(e)`: the highlight goes off, and a non-empty drop is
        added. */
    method HandleDrop(fileList: seq<File>, ids: seq<string>)
      requires |ids| == |fileList|
      modifies this
      ensures !dragActive
      ensures files == old(files) + NewEntries(fileList, ids)
      ensures nextItemNumber == old(nextItemNumber)
    {
      dragActive := false;
      if |fileList| > 0 {
        HandleFiles(fileList, ids);
      }
    }

    /** `handleChange(e)`: a non-empty pick is added. */
    method HandleChange(fileList: seq<File>, ids: seq<string>)
      requires |ids| == |fileList|
      modifies this
      ensures files == old(files) + NewEntries(fileList, ids)
      ensures dragActive == old(dragActive) && nextItemNumber == old(nextItemNumber)
    {
      if |fileList| > 0 {
        HandleFiles(fileList, ids);
      }
    }

    /** `removeFile(id)`. */
    method RemoveFile(id: string)
      modifies this
      ensures files == Without(old(files), id)
      ensures dragActive == old(dragActive) && nextItemNumber == old(nextItemNumber)
    {
      files := Filter(files, (f: UploadedFile) => f.id != id);
    }
  }

  /** The entries made for picked files: each file with its id. */
  function NewEntries(fileList: seq<File>, ids: seq<string>): (r: seq<UploadedFile>)
    requires |ids| == |fileList|
    ensures |r| == |fileList|
    ensures forall k :: 0 <= k < |r| ==> r[k].file == fileList[k] && r[k].id == ids[k]
  {
    seq(|fileList|, k requires 0 <= k < |fileList| => UploadedFile(fileList[k], ids[k]))
  }

  /** `files.filter((f) => f.id !== id)`. */
  function Without(files: seq<UploadedFile>, id: string): (r: seq<UploadedFile>)
    ensures forall k :: 0 <= k < |r| ==> r[k].id != id && r[k] in files
    ensures forall k :: 0 <= k < |files| && files[k].id != id ==> files[k] in r
    ensures IsSubseq(r, files)
    ensures forall f :: multiset(r)[f] == if f.id != id then multiset(files)[f] else 0
  {
    FilterMultiset(files, (f: UploadedFile) => f.id != id);
    Filter(files, (f: UploadedFile) => f.id != id)
  }

  /** Removing an id no entry has changes nothing; removing twice is
      removing once. */
  lemma WithoutAbsentAndTwice(files: seq<UploadedFile>, id: string)
    ensures (forall k :: 0 <= k < |files| ==> files[k].id != id) ==> Without(files, id) == files
    ensures Without(Without(files, id), id) == Without(files, id)
  {
    if forall k :: 0 <= k < |files| ==> files[k].id != id {
      FilterAll(files, (f: UploadedFile) => f.id != id);
    }
    var w := Without(files, id);
    FilterAll(w, (f: UploadedFile) => f.id != id);
  }

  /** Removing what was just added with a fresh id gives the list back. */
  lemma RemoveUndoesAdd(files: seq<UploadedFile>, f: File, id: string)
    requires forall k :: 0 <= k < |files| ==> files[k].id != id
    ensures Without(files + NewEntries([f], [id]), id) == files
  {
    FilterSplit(files, NewEntries([f], [id]), (u: UploadedFile) => u.id != id);
    FilterAll(files, (u: UploadedFile) => u.id != id);
    assert Filter(NewEntries([f], [id]), (u: UploadedFile) => u.id != id) == [];
  }
}

=== FILE: auth_context.dfy ===
/** The frontend authentication context (src/contexts/AuthContext.tsx): the
    closed set of frontend roles, the role queries derived from the loaded
    profile, and the provider's `user`/`profile`/`loading` state as the
    session listener, `signIn` and `signOut` change it. */
module AuthContext {
  import opened Wrappers

  /** The frontend spelling of the roles. */
  datatype UserRole = Admin | RSP | PM | LND | RATER | INTERVIEWER | APPLICANT

  /** A row of the `profiles` table. */
  datatype UserProfile = UserProfile(id: string, userId: string, email: string, role: UserRole, name: Option<string>)

  /** The authentication user; only its id is used here. */
  datatype AuthUser = AuthUser(id: string, email: string)

  /** The context's `role`: the profile's role, or null without a profile. */
  function RoleOf(profile: Option<UserProfile>): (r: Option<UserRole>)
    ensures r.Some? <==> profile.Some?
    ensures r.Some? ==> r.value == profile.value.role
  {
    if profile.Some? then Some(profile.value.role) else None
  }

  /** `isAdmin()`. */
  predicate IsAdmin(profile: Option<UserProfile>) {
    profile.Some? && profile.value.role == Admin
  }

  /** `hasRole(...roles)`: false without a profile role, otherwise membership. */
  predicate HasRole(profile: Option<UserProfile>, roles: seq<UserRole>) {
    if profile.None? then false else profile.value.role in roles
  }

  /** `isAdmin()` is `hasRole('Admin')`, and holds only when the derived role
      is Admin. */
  lemma IsAdminIsHasRoleAdmin(profile: Option<UserProfile>)
    ensures IsAdmin(profile) <==> HasRole(profile, [Admin])
    ensures IsAdmin(profile) <==> RoleOf(profile) == Some(Admin)
  {
  }

  /** `hasRole()` with no argument is false; otherwise it holds exactly when
      the derived role is one of the arguments. */
  lemma HasRoleSpec(profile: Option<UserProfile>, roles: seq<UserRole>)
    ensures HasRole(profile, []) == false
    ensures HasRole(profile, roles) <==> RoleOf(profile).Some? && RoleOf(profile).value in roles
  {
  }

  /** Adding roles to the argument list never turns `hasRole` false. */
  lemma HasRoleMonotone(profile: Option<UserProfile>, roles: seq<UserRole>, more: seq<UserRole>)
    requires HasRole(profile, roles)
    ensures HasRole(profile, roles + more) && HasRole(profile, more + roles)
  {
  }

  /** `AuthProvider`'s state. `fetch` stands for `fetchUserProfile`: the
      `profiles` row of a user id, or null when the query fails. */
  class AuthProvider {
    var user: Option<AuthUser>
    var profile: Option<UserProfile>
    var loading: bool

    constructor ()
      ensures user == None && profile == None && loading
    {
      user := None;
      profile := None;
      loading := true;
    }

    function Role(): Option<UserRole>
      reads this
    {
      RoleOf(profile)
    }

    /** `initializeAuth`: `session` is the result of `getSession`, `Err` when
        it throws. */
    method InitializeAuth(session: Result<Option<AuthUser>, string>, fetch: string -> Option<UserProfile>)
      modifies this
      ensures session.Ok? && session.value.Some? ==>
        user == session.value && profile == fetch(session.value.value.id)
      ensures !(session.Ok? && session.value.Some?) ==>
        user == old(user) && profile == old(profile)
      ensures !loading
    {
      if session.Ok? && session.value.Some? {
        var u := session.value.value;
        user := Some(u);
        profile := fetch(u.id);
      }
      loading := false;
    }

    /** The `onAuthStateChange` listener. */
    method OnAuthStateChange(session: Option<AuthUser>, fetch: string -> Option<UserProfile>)
      modifies this
      ensures session.Some? ==> user == session && profile == fetch(session.value.id)
      ensures session.None? ==> user == None && profile == None && Role() == None
      ensures !loading
    {
      if session.Some? {
        user := session;
        profile := fetch(session.value.id);
      } else {
        user := None;
        profile := None;
      }
      loading := false;
    }

    /** `signIn`: `outcome` is `signInWithPassword`'s result, `Ok(None)` when
        it returns no user. Only the profile is set here; `user` is left to
        the listener. The error is rethrown. */
    method SignIn(outcome: Result<Option<AuthUser>, string>, fetch: string -> Option<UserProfile>)
      returns (thrown: Option<string>)
      modifies this
      ensures outcome.Err? ==> thrown == Some(outcome.error) && profile == old(profile)
      ensures outcome.Ok? && outcome.value.Some? ==> thrown == None && profile == fetch(outcome.value.value.id)
      ensures outcome.Ok? && outcome.value.None? ==> thrown == None && profile == old(profile)
      ensures user == old(user) && !loading
    {
      loading := true;
      if outcome.Err? {
        thrown := Some(outcome.error);
      } else {
        thrown := None;
        if outcome.value.Some? {
          profile := fetch(outcome.value.value.id);
        }
      }
      loading := false;
    }

    /** `signOut`: `failure` is the error `auth.signOut` throws, if any; it is
        rethrown and the state is kept. */
    method SignOut(failure: Option<string>) returns (thrown: Option<string>)
      modifies this
      ensures failure.None? ==> thrown == None && user == None && profile == None
      ensures failure.Some? ==> thrown == failure && user == old(user) && profile == old(profile)
      ensures loading == old(loading)
    {
      if failure.None? {
        user := None;
        profile := None;
        thrown := None;
      } else {
        thrown := failure;
      }
    }
  }
}

=== FILE: employee_login.dfy ===
/** The employee sign-in form (src/modules/employee/EmployeeLoginPage.tsx):
    the checks run before the credentials are handed to `onLogin`, and the
    demo button. A hand-off to `onLogin` is returned as the credentials
    passed; the demo button's 100 ms delay is not modelled. */
module EmployeeLogin {
  import opened Wrappers
  import opened Strings

  datatype LoginError = UsernameRequired | PasswordRequired | PasswordTooShort

  function ErrorText(e: LoginError): string {
    match e
    case UsernameRequired => "Employee ID or username is required"
    case PasswordRequired => "Password is required"
    case PasswordTooShort => "Password must be at least 6 characters"
  }

  const MinPasswordLength := 6

  /** The checks of `handleSubmit`, in order; the first that fails is
      reported. */
  function ValidateLogin(username: string, password: string): (r: Option<LoginError>)
    ensures r.None? <==> !Blank(username) && Utf16Length(password) >= MinPasswordLength
    ensures r == Some(UsernameRequired) <==> Blank(username)
    ensures r == Some(PasswordRequired) <==> !Blank(username) && password == ""
    ensures r == Some(PasswordTooShort) <==> !Blank(username) && 0 < Utf16Length(password) < MinPasswordLength
  {
    if Trim(username) == "" then Some(UsernameRequired)
    else if password == "" then Some(PasswordRequired)
    else if Utf16Length(password) < MinPasswordLength then Some(PasswordTooShort)
    else None
  }

  /** What is handed to `onLogin`. */
  datatype Credentials = Credentials(username: string, password: string)

  const DemoUsername := "employee01"
  const DemoPassword := "hr2024"

  /** The demo credentials pass the form's own checks. */
  lemma DemoCredentialsValid()
    ensures ValidateLogin(DemoUsername, DemoPassword).None?
  {
    assert !IsWhitespace(DemoUsername[0]);
  }

  /** The form's state. */
  class LoginForm {
    var username: string
    var password: string
    var error: string

    constructor ()
      ensures username == "" && password == "" && error == ""
    {
      username := "";
      password := "";
      error := "";
    }

    /** `handleSubmit`: the untrimmed username and the password go to
        `onLogin` exactly when every check passes. */
    method HandleSubmit() returns (login: Option<Credentials>)
      modifies this
      ensures login.Some? <==> ValidateLogin(username, password).None?
      ensures login.Some? ==> login.value == Credentials(username, password) && error == ""
      ensures login.None? ==> error == ErrorText(ValidateLogin(username, password).value)
      ensures username == old(username) && password == old(password)
    {
      error := "";
      if Trim(username) == "" {
        error := ErrorText(UsernameRequired);
        return None;
      }
      if password == "" {
        error := ErrorText(PasswordRequired);
        return None;
      }
      if Utf16Length(password) < MinPasswordLength {
        error := ErrorText(PasswordTooShort);
        return None;
      }
      login := Some(Credentials(username, password));
    }

    /** `handleDemoLogin`: fills in the demo account and signs in with it. */
    method HandleDemoLogin() returns (login: Credentials)
      modifies this
      ensures username == DemoUsername && password == DemoPassword && error == ""
      ensures login == Credentials(DemoUsername, DemoPassword)
    {
      username := DemoUsername;
      password := DemoPassword;
      error := "";
      login := Credentials(DemoUsername, DemoPassword);
    }
  }
}

=== FILE: employee_page.dfy ===
/** The employee's own page (src/modules/employee/EmployeePage.tsx): the
    required documents and their shown status, the upload that marks one
    as submitted, the submit button, and the tab chosen from the path.
    The picked file is reduced to its MIME type; the toast's timer is not
    modelled. */
module EmployeePage {
  import opened Strings
  import opened Seqs
  import opened Wrappers

  datatype DocumentStatus = Pending | Verified | Missing

  datatype RequiredDocument = RequiredDocument(id: string, name: string, status: DocumentStatus)

  const RequiredDocuments: seq<RequiredDocument> := [
    RequiredDocument("pds", "Personal Data Sheet (PDS)", Verified),
    RequiredDocument("medical", "Medical Certificate", Missing),
    RequiredDocument("nbi", "NBI Clearance", Missing),
    RequiredDocument("birth", "Birth Certificate", Missing)]

  const AllowedTypes: seq<string> := ["application/pdf", "image/jpeg", "image/jpg"]

  const UploadErrorText := "Only PDF or JPG files are allowed."

  /** `getDocumentStatus(doc)`: an uploaded document is pending review,
      any other keeps its listed status. */
  function DocumentStatusOf(doc: RequiredDocument, uploaded: seq<string>): (s: DocumentStatus)
    ensures doc.id in uploaded ==> s == Pending
    ensures doc.id !in uploaded ==> s == doc.status
    ensures s == Missing ==> doc.status == Missing
  {
    if doc.id in uploaded then Pending else doc.status
  }

  function MissingTest(uploaded: seq<string>): RequiredDocument -> bool {
    (doc: RequiredDocument) => DocumentStatusOf(doc, uploaded) == Missing
  }

  /** `pendingCount`: the documents still missing. */
  function PendingCount(docs: seq<RequiredDocument>, uploaded: seq<string>): (n: nat)
    ensures n <= |docs|
    ensures n == |Filter(docs, MissingTest(uploaded))|
  {
    Count(docs, MissingTest(uploaded))
  }

  /** `[...prev, id]` unless `id` is already listed. */
  function AddOnce(xs: seq<string>, x: string): (r: seq<string>)
    ensures x in r && |r| >= |xs| && r[..|xs|] == xs
    ensures forall y :: y in r <==> y in xs || y == x
    ensures |r| == if x in xs then |xs| else |xs| + 1
  {
    if x in xs then xs else xs + [x]
  }

  /** More uploads never leave more documents missing. */
  lemma UploadNeverRaisesPending(docs: seq<RequiredDocument>, uploaded: seq<string>, id: string)
    ensures PendingCount(docs, AddOnce(uploaded, id)) <= PendingCount(docs, uploaded)
  {
    CountMono(docs, MissingTest(AddOnce(uploaded, id)), MissingTest(uploaded));
  }

  /** With nothing uploaded, three of the listed documents are missing. */
  lemma InitialPendingCount()
    ensures PendingCount(RequiredDocuments, []) == 3
  {
    var p := MissingTest([]);
    var docs := RequiredDocuments;
    assert !p(docs[0]) && p(docs[1]) && p(docs[2]) && p(docs[3]);
    assert docs[3..][1..] == [];
    assert docs[2..][1..] == docs[3..];
    assert docs[1..][1..] == docs[2..];
  }

  /** Once every document is uploaded none is missing. */
  lemma NoneMissingWhenAllUploaded(docs: seq<RequiredDocument>, uploaded: seq<string>)
    requires forall k :: 0 <= k < |docs| ==> docs[k].id in uploaded
    ensures PendingCount(docs, uploaded) == 0
  {
    FilterNone(docs, MissingTest(uploaded));
  }

  datatype NavigationTab = Dashboard | Profile | DocumentRequirements | SubmissionBin

  /** `getActiveTab(pathname)`: the first path fragment found decides. */
  function ActiveTab(pathname: string): (t: NavigationTab)
    ensures t == DocumentRequirements <==> Includes(pathname, "/employee/documents/requirements")
    ensures t == SubmissionBin <==>
      !Includes(pathname, "/employee/documents/requirements") && Includes(pathname, "/employee/documents/submission")
    ensures t == Profile <==>
      !Includes(pathname, "/employee/documents/requirements") && !Includes(pathname, "/employee/documents/submission") &&
      Includes(pathname, "/employee/profile")
  {
    if Includes(pathname, "/employee/documents/requirements") then DocumentRequirements
    else if Includes(pathname, "/employee/documents/submission") then SubmissionBin
    else if Includes(pathname, "/employee/profile") then Profile
    else Dashboard
  }

  /** The path each sidebar button navigates to. */
  function TabPath(t: NavigationTab): string {
    match t
    case Dashboard => "/employee/dashboard"
    case Profile => "/employee/profile"
    case DocumentRequirements => "/employee/documents/requirements"
    case SubmissionBin => "/employee/documents/submission"
  }

  /** Each sidebar button lands on its own tab. */
  lemma NavigationLandsOnTab(t: NavigationTab)
    ensures ActiveTab(TabPath(t)) == t
  {
    match t {
      case Dashboard =>
        NotIncludesMissingChar("/employee/dashboard", "/employee/profile", 'f');
      case Profile =>
        assert Includes("/employee/profile", "/employee/profile");
      case DocumentRequirements =>
        assert Includes("/employee/documents/requirements", "/employee/documents/requirements");
      case SubmissionBin =>
        assert Includes("/employee/documents/submission", "/employee/documents/submission");
    }
  }

  /** The picked file, reduced to its MIME type. */
  datatype PickedFile = PickedFile(fileType: string)

  /** The component's state. */
  class DocumentsPage {
    var uploadedFiles: seq<string>
    var isSubmitting: bool
    var selectedRequirement: string
    var uploadError: string
    var showSuccessToast: bool

    constructor ()
      ensures uploadedFiles == [] && !isSubmitting && selectedRequirement == "pds"
      ensures uploadError == "" && !showSuccessToast
    {
      uploadedFiles := [];
      isSubmitting := false;
      selectedRequirement := "pds";
      uploadError := "";
      showSuccessToast := false;
    }

    /** The requirement select. */
    method SelectRequirement(id: string)
      modifies this
      ensures selectedRequirement == id
      ensures uploadedFiles == old(uploadedFiles) && isSubmitting == old(isSubmitting)
      ensures uploadError == old(uploadError) && showSuccessToast == old(showSuccessToast)
    {
      selectedRequirement := id;
    }

    /** `handleFileUpload(file)`. */
    method HandleFileUpload(file: Option<PickedFile>)
      modifies this
      ensures file.None? ==>
        uploadedFiles == old(uploadedFiles) && uploadError == old(uploadError) &&
        showSuccessToast == old(showSuccessToast)
      ensures file.Some? && file.value.fileType !in AllowedTypes ==>
        uploadError == UploadErrorText && uploadedFiles == old(uploadedFiles) &&
        showSuccessToast == old(showSuccessToast)
      ensures file.Some? && file.value.fileType in AllowedTypes ==>
        uploadError == "" && uploadedFiles == AddOnce(old(uploadedFiles), selectedRequirement) && showSuccessToast
      ensures isSubmitting == old(isSubmitting) && selectedRequirement == old(selectedRequirement)
    {
      if file.None? {
        return;
      }
      if file.value.fileType !in AllowedTypes {
        uploadError := UploadErrorText;
        return;
      }
      uploadError := "";
      if selectedRequirement !in uploadedFiles {
        uploadedFiles := uploadedFiles + [selectedRequirement];
      }
      showSuccessToast := true;
    }

    /** `handleSubmitForReview`: the first press submits, later presses do
        nothing. */
    method HandleSubmitForReview()
      modifies this
      ensures isSubmitting
      ensures uploadedFiles == old(uploadedFiles) && selectedRequirement == old(selectedRequirement)
      ensures uploadError == old(uploadError) && showSuccessToast == old(showSuccessToast)
    {
      if isSubmitting {
        return;
      }
      isSubmitting := true;
    }
  }
}

=== FILE: employee_portal.dfy ===
/** The employee session hook `useEmployeePortal`
    (src/examples/EmployeePortalIntegration.example.tsx): sign-in against
    the demo employee table, sign-out, and the session restored from
    browser storage. The stored text is either the JSON the hook wrote
    (`StoredSession`) or text that does not parse (`Unparsable`). */
module EmployeePortal {
  import opened Wrappers
  import opened Seqs
  import EmployeeLogin

  datatype PersonalInfo = PersonalInfo(
    dateOfBirth: string, age: nat, gender: string, civilStatus: string, nationality: string)

  datatype ContactInfo = ContactInfo(mobileNumber: string, homeAddress: string)

  datatype EmergencyContact = EmergencyContact(name: string, relationship: string, number: string)

  datatype GovernmentIds = GovernmentIds(sss: string, philhealth: string, pagibig: string, tin: string)

  /** An `Employee` record, its field groups kept together. */
  datatype Employee = Employee(
    employeeId: string, fullName: string, email: string,
    personal: PersonalInfo, contact: ContactInfo, emergency: EmergencyContact, government: GovernmentIds)

  /** What the hook keeps and stores for a signed-in employee. */
  datatype EmployeeSession = EmployeeSession(employeeId: string, email: string, fullName: string)

  function SessionOf(e: Employee): (s: EmployeeSession)
    ensures s.employeeId == e.employeeId && s.email == e.email && s.fullName == e.fullName
  {
    EmployeeSession(e.employeeId, e.email, e.fullName)
  }

  const MariaSantos := Employee(
    "EMP-2024-001", "Maria Santos", "maria.santos@ilongcity.gov.ph",
    PersonalInfo("1990-05-15", 34, "Female", "Married", "Filipino"),
    ContactInfo("+63-908-123-4567", "123 Rizal Street, Iloilo City, Iloilo 5000"),
    EmergencyContact("Juan Santos", "Spouse", "+63-908-765-4321"),
    GovernmentIds("01-2345678-0", "PH-01-2345678-9", "121234567890", "123-456-789-000"))

  /** `MOCK_EMPLOYEE_DATA`: its own keys, in insertion order. */
  const MockEmployeeData: seq<(string, Employee)> := [("employee01", MariaSantos)]

  const DemoPassword := "hr2024"

  /** `Object.values(MOCK_EMPLOYEE_DATA).find(emp => emp.employeeId === id)`. */
  function FindById(entries: seq<(string, Employee)>, id: string): (r: Option<Employee>)
    ensures r.None? <==> forall k :: 0 <= k < |entries| ==> entries[k].1.employeeId != id
    ensures r.Some? ==> r.value.employeeId == id && exists k :: 0 <= k < |entries| && entries[k].1 == r.value
  {
    if |entries| == 0 then None
    else if entries[0].1.employeeId == id then Some(entries[0].1)
    else
      var r := FindById(entries[1..], id);
      assert forall k :: 1 <= k < |entries| ==> entries[k] == entries[1..][k - 1];
      r
  }

  /** No two entries share an employee id. */
  predicate DistinctIds(entries: seq<(string, Employee)>) {
    forall i, j :: 0 <= i < j < |entries| ==> entries[i].1.employeeId != entries[j].1.employeeId
  }

  /** With distinct ids, the employee found by the stored id is the one
      who signed in. */
  lemma {:induction false} IdFindsSignedIn(entries: seq<(string, Employee)>, username: string, e: Employee)
    requires DistinctIds(entries)
    requires Lookup(entries, username) == Some(e)
    ensures FindById(entries, e.employeeId) == Some(e)
  {
    if entries[0].0 != username {
      var rest := entries[1..];
      assert Lookup(rest, username) == Some(e);
      assert DistinctIds(rest) by {
        forall i, j | 0 <= i < j < |rest|
          ensures rest[i].1.employeeId != rest[j].1.employeeId
        {
          assert rest[i] == entries[i + 1] && rest[j] == entries[j + 1];
        }
      }
      IdFindsSignedIn(rest, username, e);
      var k :| 0 <= k < |rest| && rest[k] == (username, e);
      assert entries[k + 1] == rest[k];
    }
  }

  lemma MockIdsDistinct()
    ensures DistinctIds(MockEmployeeData)
  {
  }

  /** The names every object answers to through `Object.prototype`; each
      is a function or an object, so truthy. */
  const InheritedKeys: set<string> := {
    "constructor", "__proto__", "toString", "toLocaleString", "valueOf", "hasOwnProperty",
    "isPrototypeOf", "propertyIsEnumerable", "__defineGetter__", "__defineSetter__",
    "__lookupGetter__", "__lookupSetter__"}

  /** `MOCK_EMPLOYEE_DATA[username]` as written is truthy for an own key
      and for every inherited name, so the sign-in check accepts both. */
  predicate AcceptsAsWritten(username: string, password: string) {
    (Lookup(MockEmployeeData, username).Some? || username in InheritedKeys) && password == DemoPassword
  }

  /** The check as written signs in a user name that names no employee. */
  lemma InheritedNameSignsIn()
    ensures AcceptsAsWritten("constructor", DemoPassword)
    ensures Lookup(MockEmployeeData, "constructor").None?
  {
  }

  /** Only an own key of the table, with the demo password, is accepted. */
  predicate Accepts(username: string, password: string) {
    Lookup(MockEmployeeData, username).Some? && password == DemoPassword
  }

  /** The corrected check accepts the demo account and nothing the table
      does not hold. */
  lemma AcceptsOnlyEmployees(username: string, password: string)
    ensures Accepts(EmployeeLogin.DemoUsername, EmployeeLogin.DemoPassword)
    ensures Accepts(username, password) ==> username == "employee01" && password == "hr2024"
    ensures Accepts(username, password) ==> AcceptsAsWritten(username, password)
  {
  }

  /** The value under `cictrix_employee_session`. */
  datatype StoredValue = StoredSession(session: EmployeeSession) | Unparsable(text: string)

  /** The hook's state and the storage entry it owns. */
  class Portal {
    var session: Option<EmployeeSession>
    var currentEmployee: Option<Employee>
    var stored: Option<StoredValue>

    constructor (stored: Option<StoredValue>)
      ensures session.None? && currentEmployee.None? && this.stored == stored
    {
      session := None;
      currentEmployee := None;
      this.stored := stored;
    }

    /** `handleEmployeeLogin`, with the table read by own keys only. */
    method HandleEmployeeLogin(username: string, password: string) returns (ok: bool)
      modifies this
      ensures ok <==> Accepts(username, password)
      ensures ok ==>
        var e := Lookup(MockEmployeeData, username).value;
        session == Some(SessionOf(e)) && currentEmployee == Some(e) && stored == Some(StoredSession(SessionOf(e)))
      ensures !ok ==> session == old(session) && currentEmployee == old(currentEmployee) && stored == old(stored)
    {
      var employee := Lookup(MockEmployeeData, username);
      if employee.Some? && password == DemoPassword {
        var newSession := EmployeeSession(employee.value.employeeId, employee.value.email, employee.value.fullName);
        session := Some(newSession);
        currentEmployee := employee;
        stored := Some(StoredSession(newSession));
        return true;
      }
      return false;
    }

    /** `handleEmployeeLogout`. */
    method HandleEmployeeLogout()
      modifies this
      ensures session.None? && currentEmployee.None? && stored.None?
    {
      session := None;
      currentEmployee := None;
      stored := None;
    }

    /** `initializeSession`: a stored session is taken back, with its
        employee when the table has one of that id; text that does not
        parse is removed. An empty entry counts as none. */
    method InitializeSession()
      modifies this
      ensures old(stored).None? || old(stored) == Some(Unparsable("")) ==>
        session == old(session) && currentEmployee == old(currentEmployee) && stored == old(stored)
      ensures old(stored).Some? && old(stored).value.Unparsable? && old(stored).value.text != "" ==>
        stored.None? && session == old(session) && currentEmployee == old(currentEmployee)
      ensures old(stored).Some? && old(stored).value.StoredSession? ==>
        var s := old(stored).value.session;
        var e := FindById(MockEmployeeData, s.employeeId);
        session == Some(s) && stored == old(stored) &&
        currentEmployee == (if e.Some? then e else old(currentEmployee))
    {
      if stored.None? || stored == Some(Unparsable("")) {
        return;
      }
      if stored.value.Unparsable? {
        stored := None;
        return;
      }
      var parsed := stored.value.session;
      session := Some(parsed);
      var employee := FindById(MockEmployeeData, parsed.employeeId);
      if employee.Some? {
        currentEmployee := employee;
      }
    }
  }

  /** Signing in and then restoring from storage brings back the same
      session and the same employee. */
  lemma RestoreAfterSignIn(username: string)
    requires Accepts(username, DemoPassword)
    ensures var e := Lookup(MockEmployeeData, username).value;
      FindById(MockEmployeeData, SessionOf(e).employeeId) == Some(e)
  {
    MockIdsDistinct();
    IdFindsSignedIn(MockEmployeeData, username, Lookup(MockEmployeeData, username).value);
  }
}

=== FILE: evaluation_form.dfy ===
/** The interviewer's evaluation form
    (src/modules/interviewer/EvaluationForm.tsx): the applicant's full name,
    the six criterion scores with their total, percentage and qualification
    tier, the validator that reports the first failing check, the insert
    payload with its null and omit rules, and the submit sequence, which
    marks the applicant reviewed only after the evaluation is stored. The
    two database calls enter as their outcomes. */
module EvaluationForm {
  import opened Wrappers
  import opened Strings

  /** The part of an applicant row the form shows by name. */
  datatype Applicant = Applicant(firstName: string, middleName: Option<string>, lastName: string)

  /** `getFullName`: the first name, the middle name when it is non-empty,
      and the last name, joined by single spaces. */
  function FullName(a: Applicant): (r: string)
    ensures a.middleName.Some? && a.middleName.value != "" ==>
      r == a.firstName + " " + a.middleName.value + " " + a.lastName
    ensures a.middleName.None? || a.middleName.value == "" ==> r == a.firstName + " " + a.lastName
  {
    var middle := if a.middleName.Some? && a.middleName.value != "" then [a.middleName.value] else [];
    var parts := [a.firstName] + middle + [a.lastName];
    assert middle == [] ==> parts[1..] == [a.lastName];
    assert middle != [] ==> parts[1..] == [a.middleName.value, a.lastName] && parts[1..][1..] == [a.lastName];
    assert Join(parts, " ") == a.firstName + " " + Join(parts[1..], " ");
    Join(parts, " ")
  }

  /** The six rated criteria, in the order the form lists and checks them. */
  datatype Criterion = CommunicationSkills | Confidence | Comprehension | Personality | JobKnowledge | OverallImpression

  const Criteria: seq<Criterion> := [CommunicationSkills, Confidence, Comprehension, Personality, JobKnowledge, OverallImpression]

  /** The position of a criterion in `Criteria`. */
  function Index(c: Criterion): (k: nat)
    ensures k < |Criteria| && Criteria[k] == c
  {
    match c
    case CommunicationSkills => 0
    case Confidence => 1
    case Comprehension => 2
    case Personality => 3
    case JobKnowledge => 4
    case OverallImpression => 5
  }

  /** The form's `EvaluationData`; an unrated score is 0. */
  datatype Evaluation = Evaluation(
    interviewerName: string,
    communicationSkillsScore: nat, confidenceScore: nat, comprehensionScore: nat,
    personalityScore: nat, jobKnowledgeScore: nat, overallImpressionScore: nat,
    communicationSkillsRemarks: string, confidenceRemarks: string, comprehensionRemarks: string,
    personalityRemarks: string, jobKnowledgeRemarks: string, overallImpressionRemarks: string,
    interviewNotes: string,
    recommendation: string)

  const InitialEvaluation: Evaluation := Evaluation("", 0, 0, 0, 0, 0, 0, "", "", "", "", "", "", "", "")

  function Score(e: Evaluation, c: Criterion): nat {
    match c
    case CommunicationSkills => e.communicationSkillsScore
    case Confidence => e.confidenceScore
    case Comprehension => e.comprehensionScore
    case Personality => e.personalityScore
    case JobKnowledge => e.jobKnowledgeScore
    case OverallImpression => e.overallImpressionScore
  }

  function Remarks(e: Evaluation, c: Criterion): string {
    match c
    case CommunicationSkills => e.communicationSkillsRemarks
    case Confidence => e.confidenceRemarks
    case Comprehension => e.comprehensionRemarks
    case Personality => e.personalityRemarks
    case JobKnowledge => e.jobKnowledgeRemarks
    case OverallImpression => e.overallImpressionRemarks
  }

  /** The `scores` array of `calculateTotalScore`. */
  function Scores(e: Evaluation): (r: seq<nat>)
    ensures |r| == |Criteria| && forall k :: 0 <= k < |r| ==> r[k] == Score(e, Criteria[k])
  {
    [e.communicationSkillsScore, e.confidenceScore, e.comprehensionScore,
     e.personalityScore, e.jobKnowledgeScore, e.overallImpressionScore]
  }

  /** `xs.reduce((a, b) => a + b, 0)`. */
  function Sum(xs: seq<nat>): nat {
    if xs == [] then 0 else xs[0] + Sum(xs[1..])
  }

  /** A sum of values in `[lo, hi]` lies between the count times `lo` and
      the count times `hi`. */
  lemma {:induction false} SumBounds(xs: seq<nat>, lo: nat, hi: nat)
    requires forall k :: 0 <= k < |xs| ==> lo <= xs[k] <= hi
    ensures |xs| * lo <= Sum(xs) <= |xs| * hi
  {
    if xs != [] {
      SumBounds(xs[1..], lo, hi);
      assert |xs| * lo == lo + |xs[1..]| * lo;
      assert |xs| * hi == hi + |xs[1..]| * hi;
    }
  }

  /** `calculateTotalScore`: the six criterion scores added up. */
  function TotalScore(e: Evaluation): (r: nat)
    ensures r == Score(e, CommunicationSkills) + Score(e, Confidence) + Score(e, Comprehension)
      + Score(e, Personality) + Score(e, JobKnowledge) + Score(e, OverallImpression)
  {
    var xs := Scores(e);
    assert Sum(xs[5..]) == xs[5] by { assert xs[5..][1..] == []; }
    assert Sum(xs[4..]) == xs[4] + xs[5] by { assert xs[4..][1..] == xs[5..]; }
    assert Sum(xs[3..]) == xs[3] + xs[4] + xs[5] by { assert xs[3..][1..] == xs[4..]; }
    assert Sum(xs[2..]) == xs[2] + xs[3] + xs[4] + xs[5] by { assert xs[2..][1..] == xs[3..]; }
    assert Sum(xs[1..]) == xs[1] + xs[2] + xs[3] + xs[4] + xs[5] by { assert xs[1..][1..] == xs[2..]; }
    Sum(xs)
  }

  /** Every score in `1..5` puts the total in `6..30`. */
  lemma TotalScoreRange(e: Evaluation)
    requires forall c :: 1 <= Score(e, c) <= 5
    ensures 6 <= TotalScore(e) <= 30
  {
    SumBounds(Scores(e), 1, 5);
  }

  /** `calculatePercentage`: `(total / 30 * 100).toFixed(2)`, as the whole
      number of hundredths the text denotes. It is the nearest whole number
      to `total * 1000 / 3`; the fraction is a third or two, never a half,
      so the rounding is never a tie. */
  function PercentageHundredths(total: nat): (h: nat)
    ensures 1000 * total - 1 <= 3 * h <= 1000 * total + 1
  {
    (1000 * total + 1) / 3
  }

  datatype Qualification = Qualified | ConditionallyQualified | NotQualified

  /** `getQualificationStatus`: at least 75.00 percent qualifies, at least
      60.00 qualifies conditionally. */
  function QualificationOf(total: nat): Qualification {
    var h := PercentageHundredths(total);
    if h >= 7500 then Qualified else if h >= 6000 then ConditionallyQualified else NotQualified
  }

  /** The tiers read on the total out of 30. */
  lemma QualificationByTotal(total: nat)
    ensures QualificationOf(total) == Qualified <==> total >= 23
    ensures QualificationOf(total) == ConditionallyQualified <==> 18 <= total <= 22
    ensures QualificationOf(total) == NotQualified <==> total < 18
  {
    var h := PercentageHundredths(total);
    if total >= 23 {
      assert 3 * h >= 22999;
    } else if total >= 18 {
      assert 3 * h <= 22001 && 3 * h >= 17999;
    } else {
      assert 3 * h <= 17001;
    }
  }

  /** The tiers in order, lowest first. */
  function Rank(q: Qualification): nat {
    match q
    case NotQualified => 0
    case ConditionallyQualified => 1
    case Qualified => 2
  }

  /** A higher total never gives a lower tier. */
  lemma QualificationMonotone(t1: nat, t2: nat)
    requires t1 <= t2
    ensures Rank(QualificationOf(t1)) <= Rank(QualificationOf(t2))
  {
    QualificationByTotal(t1);
    QualificationByTotal(t2);
  }

  /** Every criterion rated `n`. */
  function Uniform(n: nat): (e: Evaluation)
    ensures forall c :: Score(e, c) == n
  {
    Evaluation("", n, n, n, n, n, n, "", "", "", "", "", "", "", "")
  }

  /** All fives qualify; all threes make 60.00 percent and qualify
      conditionally; all twos do not qualify. */
  lemma QualificationExamples()
    ensures QualificationOf(TotalScore(Uniform(5))) == Qualified
    ensures PercentageHundredths(TotalScore(Uniform(3))) == 6000
    ensures QualificationOf(TotalScore(Uniform(3))) == ConditionallyQualified
    ensures QualificationOf(TotalScore(Uniform(2))) == NotQualified
  {
    QualificationByTotal(30);
    QualificationByTotal(18);
    QualificationByTotal(12);
  }

  /** The messages `validateForm` returns. */
  datatype ValidationMessage = NameRequired | ScoreOutOfRange(criterion: Criterion) | NotesRequired

  function CriterionTitle(c: Criterion): string {
    match c
    case CommunicationSkills => "Communication Skills"
    case Confidence => "Confidence"
    case Comprehension => "Comprehension"
    case Personality => "Personality"
    case JobKnowledge => "Job Knowledge"
    case OverallImpression => "Overall Impression"
  }

  /** The text shown for each message. */
  function MessageText(m: ValidationMessage): string {
    match m
    case NameRequired => "Interviewer name is required"
    case ScoreOutOfRange(c) => CriterionTitle(c) + " score must be 1-5"
    case NotesRequired => "Interview notes are required"
  }

  predicate InRange(score: nat) {
    1 <= score <= 5
  }

  /** The position in `cs` of the first criterion whose score is outside
      `1..5`. */
  function FirstOutOfRange(e: Evaluation, cs: seq<Criterion>): (r: Option<nat>)
    ensures r.None? <==> forall k :: 0 <= k < |cs| ==> InRange(Score(e, cs[k]))
    ensures r.Some? ==> r.value < |cs| && !InRange(Score(e, cs[r.value]))
    ensures r.Some? ==> forall k :: 0 <= k < r.value ==> InRange(Score(e, cs[k]))
  {
    if cs == [] then None
    else if !InRange(Score(e, cs[0])) then Some(0)
    else match FirstOutOfRange(e, cs[1..])
      case None => None
      case Some(k) => Some(k + 1)
  }

  /** `validateForm`: the name, then the six scores in order, then the
      notes; the first failing check gives the message. */
  function ValidateForm(e: Evaluation): (r: Option<ValidationMessage>)
    ensures r.None? <==>
      !Blank(e.interviewerName) && (forall c :: InRange(Score(e, c))) && !Blank(e.interviewNotes)
    ensures r == Some(NameRequired) <==> Blank(e.interviewerName)
    ensures r.Some? && r.value.ScoreOutOfRange? ==>
      !Blank(e.interviewerName) && !InRange(Score(e, r.value.criterion))
      && forall c :: Index(c) < Index(r.value.criterion) ==> InRange(Score(e, c))
    ensures r == Some(NotesRequired) ==>
      !Blank(e.interviewerName) && (forall c :: InRange(Score(e, c))) && Blank(e.interviewNotes)
  {
    if Blank(e.interviewerName) then Some(NameRequired)
    else match FirstOutOfRange(e, Criteria)
      case Some(k) => Some(ScoreOutOfRange(Criteria[k]))
      case None =>
        AllCriteriaInRange(e);
        if Blank(e.interviewNotes) then Some(NotesRequired) else None
  }

  /** A property of every listed criterion is a property of every
      criterion. */
  lemma AllCriteriaInRange(e: Evaluation)
    requires forall k :: 0 <= k < |Criteria| ==> InRange(Score(e, Criteria[k]))
    ensures forall c :: InRange(Score(e, c))
  {
    forall c
      ensures InRange(Score(e, c))
    {
      assert Criteria[Index(c)] == c;
    }
  }

  /** The keys `handleInputChange` writes. */
  datatype EvalField = InterviewerName | ScoreOf(c: Criterion) | RemarksOf(c: Criterion) | InterviewNotes | Recommendation

  /** A value typed into the form: text, or a star rating. */
  datatype InputValue = Text(text: string) | Number(number: nat)

  /** A field takes a number exactly when it is a score. */
  predicate Fits(f: EvalField, v: InputValue) {
    v.Number? <==> f.ScoreOf?
  }

  function Get(e: Evaluation, f: EvalField): (v: InputValue)
    ensures Fits(f, v)
  {
    match f
    case InterviewerName => Text(e.interviewerName)
    case ScoreOf(c) => Number(Score(e, c))
    case RemarksOf(c) => Text(Remarks(e, c))
    case InterviewNotes => Text(e.interviewNotes)
    case Recommendation => Text(e.recommendation)
  }

  function SetScore(e: Evaluation, c: Criterion, n: nat): Evaluation {
    match c
    case CommunicationSkills => e.(communicationSkillsScore := n)
    case Confidence => e.(confidenceScore := n)
    case Comprehension => e.(comprehensionScore := n)
    case Personality => e.(personalityScore := n)
    case JobKnowledge => e.(jobKnowledgeScore := n)
    case OverallImpression => e.(overallImpressionScore := n)
  }

  function SetRemarks(e: Evaluation, c: Criterion, s: string): Evaluation {
    match c
    case CommunicationSkills => e.(communicationSkillsRemarks := s)
    case Confidence => e.(confidenceRemarks := s)
    case Comprehension => e.(comprehensionRemarks := s)
    case Personality => e.(personalityRemarks := s)
    case JobKnowledge => e.(jobKnowledgeRemarks := s)
    case OverallImpression => e.(overallImpressionRemarks := s)
  }

  /** `{ ...prev, [field]: value }`. */
  function Set(e: Evaluation, f: EvalField, v: InputValue): Evaluation
    requires Fits(f, v)
  {
    match f
    case InterviewerName => e.(interviewerName := v.text)
    case ScoreOf(c) => SetScore(e, c, v.number)
    case RemarksOf(c) => SetRemarks(e, c, v.text)
    case InterviewNotes => e.(interviewNotes := v.text)
    case Recommendation => e.(recommendation := v.text)
  }

  /** Setting a field changes that field and no other. */
  lemma SetChangesOneField(e: Evaluation, f: EvalField, v: InputValue, g: EvalField)
    requires Fits(f, v)
    ensures Get(Set(e, f, v), g) == if f == g then v else Get(e, g)
  {
    match f
    case ScoreOf(c) =>
      match c {
        case CommunicationSkills =>
        case Confidence =>
        case Comprehension =>
        case Personality =>
        case JobKnowledge =>
        case OverallImpression =>
      }
    case RemarksOf(c) =>
      match c {
        case CommunicationSkills =>
        case Confidence =>
        case Comprehension =>
        case Personality =>
        case JobKnowledge =>
        case OverallImpression =>
      }
    case _ =>
  }

  /** `value || null` on a string. */
  function OrNull(s: string): Option<string> {
    if s == "" then None else Some(s)
  }

  /** `score > 0 ? score : null`. */
  function ScoreOrNull(n: nat): Option<nat> {
    if n > 0 then Some(n) else None
  }

  /** A remark as the payload carries it: left out when blank, untrimmed
      otherwise. */
  function KeptRemarks(s: string): Option<string> {
    if Blank(s) then None else Some(s)
  }

  /** The row sent to the `evaluations` table. `None` is a null score or
      text, and a remark key left out of the object. */
  datatype Payload = Payload(
    applicantId: Option<string>,
    interviewerName: Option<string>,
    communicationSkillsScore: Option<nat>, confidenceScore: Option<nat>, comprehensionScore: Option<nat>,
    personalityScore: Option<nat>, jobKnowledgeScore: Option<nat>, overallImpressionScore: Option<nat>,
    interviewNotes: Option<string>,
    recommendation: Option<string>,
    communicationSkillsRemarks: Option<string>, confidenceRemarks: Option<string>, comprehensionRemarks: Option<string>,
    personalityRemarks: Option<string>, jobKnowledgeRemarks: Option<string>, overallImpressionRemarks: Option<string>)

  function SentScore(p: Payload, c: Criterion): Option<nat> {
    match c
    case CommunicationSkills => p.communicationSkillsScore
    case Confidence => p.confidenceScore
    case Comprehension => p.comprehensionScore
    case Personality => p.personalityScore
    case JobKnowledge => p.jobKnowledgeScore
    case OverallImpression => p.overallImpressionScore
  }

  function SentRemarks(p: Payload, c: Criterion): Option<string> {
    match c
    case CommunicationSkills => p.communicationSkillsRemarks
    case Confidence => p.confidenceRemarks
    case Comprehension => p.comprehensionRemarks
    case Personality => p.personalityRemarks
    case JobKnowledge => p.jobKnowledgeRemarks
    case OverallImpression => p.overallImpressionRemarks
  }

  /** What the payload for applicant `id` and evaluation `e` holds: empty
      text becomes null, an unrated score becomes null, and a remark is
      sent, untrimmed, exactly when it has non-blank text. */
  predicate PayloadOf(id: Option<string>, e: Evaluation, p: Payload) {
    && p.applicantId == (if id.Some? then OrNull(id.value) else None)
    && p.interviewerName == OrNull(e.interviewerName)
    && (forall c :: SentScore(p, c) == ScoreOrNull(Score(e, c)))
    && p.interviewNotes == OrNull(e.interviewNotes)
    && p.recommendation == OrNull(e.recommendation)
    && (forall c :: SentRemarks(p, c) == KeptRemarks(Remarks(e, c)))
  }

  /** The description fixes the payload. */
  lemma PayloadOfUnique(id: Option<string>, e: Evaluation, p: Payload, q: Payload)
    requires PayloadOf(id, e, p) && PayloadOf(id, e, q)
    ensures p == q
  {
    assert SentScore(p, CommunicationSkills) == SentScore(q, CommunicationSkills) && SentRemarks(p, CommunicationSkills) == SentRemarks(q, CommunicationSkills);
    assert SentScore(p, Confidence) == SentScore(q, Confidence) && SentRemarks(p, Confidence) == SentRemarks(q, Confidence);
    assert SentScore(p, Comprehension) == SentScore(q, Comprehension) && SentRemarks(p, Comprehension) == SentRemarks(q, Comprehension);
    assert SentScore(p, Personality) == SentScore(q, Personality) && SentRemarks(p, Personality) == SentRemarks(q, Personality);
    assert SentScore(p, JobKnowledge) == SentScore(q, JobKnowledge) && SentRemarks(p, JobKnowledge) == SentRemarks(q, JobKnowledge);
    assert SentScore(p, OverallImpression) == SentScore(q, OverallImpression) && SentRemarks(p, OverallImpression) == SentRemarks(q, OverallImpression);
  }

  /** The criterion-by-criterion facts give the facts for every
      criterion. */
  lemma SentForAll(e: Evaluation, p: Payload)
    requires p.communicationSkillsScore == ScoreOrNull(e.communicationSkillsScore)
      && p.communicationSkillsRemarks == KeptRemarks(e.communicationSkillsRemarks)
    requires p.confidenceScore == ScoreOrNull(e.confidenceScore)
      && p.confidenceRemarks == KeptRemarks(e.confidenceRemarks)
    requires p.comprehensionScore == ScoreOrNull(e.comprehensionScore)
      && p.comprehensionRemarks == KeptRemarks(e.comprehensionRemarks)
    requires p.personalityScore == ScoreOrNull(e.personalityScore)
      && p.personalityRemarks == KeptRemarks(e.personalityRemarks)
    requires p.jobKnowledgeScore == ScoreOrNull(e.jobKnowledgeScore)
      && p.jobKnowledgeRemarks == KeptRemarks(e.jobKnowledgeRemarks)
    requires p.overallImpressionScore == ScoreOrNull(e.overallImpressionScore)
      && p.overallImpressionRemarks == KeptRemarks(e.overallImpressionRemarks)
    ensures forall c :: SentScore(p, c) == ScoreOrNull(Score(e, c))
    ensures forall c :: SentRemarks(p, c) == KeptRemarks(Remarks(e, c))
  {
    forall c
      ensures SentScore(p, c) == ScoreOrNull(Score(e, c))
      ensures SentRemarks(p, c) == KeptRemarks(Remarks(e, c))
    {
      match c
      case CommunicationSkills =>
      case Confidence =>
      case Comprehension =>
      case Personality =>
      case JobKnowledge =>
      case OverallImpression =>
    }
  }

  /** The `insertData` object of `handleSubmit`: the fixed keys, and a
      remark key for each remark that has text. */
  function InsertData(id: Option<string>, e: Evaluation): (p: Payload)
    ensures PayloadOf(id, e, p)
  {
    var p := Payload(
      if id.Some? then OrNull(id.value) else None,
      OrNull(e.interviewerName),
      ScoreOrNull(e.communicationSkillsScore),
      ScoreOrNull(e.confidenceScore),
      ScoreOrNull(e.comprehensionScore),
      ScoreOrNull(e.personalityScore),
      ScoreOrNull(e.jobKnowledgeScore),
      ScoreOrNull(e.overallImpressionScore),
      OrNull(e.interviewNotes),
      OrNull(e.recommendation),
      KeptRemarks(e.communicationSkillsRemarks),
      KeptRemarks(e.confidenceRemarks),
      KeptRemarks(e.comprehensionRemarks),
      KeptRemarks(e.personalityRemarks),
      KeptRemarks(e.jobKnowledgeRemarks),
      KeptRemarks(e.overallImpressionRemarks));
    SentForAll(e, p);
    p
  }

  /** A failed database call: whether it is an `Error` instance, and its
      message. */
  datatype DbError = DbError(isError: bool, message: string)

  /** `err instanceof Error ? err.message : 'Failed to submit evaluation'`. */
  function ErrorText(err: DbError): string {
    if err.isError then err.message else "Failed to submit evaluation"
  }

  /** What the form shows as `error`. */
  datatype PageError = Invalid(message: ValidationMessage) | Failed(text: string)

  /** The form's state for the applicant `id` of the route. */
  class EvaluationPage {
    const id: Option<string>
    var evaluation: Evaluation
    var submitting: bool
    var error: Option<PageError>
    var showSuccess: bool

    constructor (id: Option<string>)
      ensures this.id == id && evaluation == InitialEvaluation
      ensures !submitting && error.None? && !showSuccess
    {
      this.id := id;
      evaluation := InitialEvaluation;
      submitting := false;
      error := None;
      showSuccess := false;
    }

    /** `handleInputChange(field, value)`. */
    method HandleInputChange(f: EvalField, v: InputValue)
      requires Fits(f, v)
      modifies this
      ensures evaluation == Set(old(evaluation), f, v)
      ensures submitting == old(submitting) && error == old(error) && showSuccess == old(showSuccess)
    {
      evaluation := Set(evaluation, f, v);
    }

    /** `handleSubmit`: validate; insert the evaluation; only once that
        succeeds, set the applicant's status to `Reviewed`. `insertError`
        and `updateError` are the two calls' outcomes; `inserted` is the row
        sent, and `reviewed` whether the status update was sent. */
    method HandleSubmit(insertError: Option<DbError>, updateError: Option<DbError>)
      returns (inserted: Option<Payload>, reviewed: bool)
      modifies this
      ensures evaluation == old(evaluation)
      ensures ValidateForm(evaluation).Some? ==>
        inserted.None? && !reviewed && error == Some(Invalid(ValidateForm(evaluation).value))
        && submitting == old(submitting) && showSuccess == old(showSuccess)
      ensures ValidateForm(evaluation).None? ==>
        inserted.Some? && PayloadOf(id, evaluation, inserted.value) && !submitting
      ensures reviewed <==> ValidateForm(evaluation).None? && insertError.None?
      ensures ValidateForm(evaluation).None? && insertError.Some? ==>
        error == Some(Failed(ErrorText(insertError.value))) && showSuccess == old(showSuccess)
      ensures reviewed && updateError.Some? ==>
        error == Some(Failed(ErrorText(updateError.value))) && showSuccess == old(showSuccess)
      ensures reviewed && updateError.None? ==> error.None? && showSuccess
    {
      inserted := None;
      reviewed := false;
      var validationError := ValidateForm(evaluation);
      if validationError.Some? {
        error := Some(Invalid(validationError.value));
        return;
      }
      submitting := true;
      error := None;
      var insertData := InsertData(id, evaluation);
      inserted := Some(insertData);
      if insertError.Some? {
        error := Some(Failed(ErrorText(insertError.value)));
      } else {
        reviewed := true;
        if updateError.Some? {
          error := Some(Failed(ErrorText(updateError.value)));
        } else {
          showSuccess := true;
        }
      }
      submitting := false;
    }
  }
}

=== FILE: express_applicants.dfy ===
/** The Express `/api/applicants` routes (backend/src/routes/applicants.ts).
    Each handler runs behind its `requireRole` gate, so a request reaches
    the handler only with `req.user` set; the handlers' own `!req.user`
    branches are therefore never taken. The database is given as the
    table's rows (in the order the query's `ORDER BY` yields them) and the
    failures its calls report. */
module ExpressApplicants {
  import opened Wrappers
  import opened Strings
  import opened Api
  import opened Jwt
  import opened ExpressMiddleware

  /** The roles `GET /` and `GET /:id` admit. */
  const ReadRoles: seq<string> := ["ADMIN", "PM", "RSP", "LND", "INTERVIEWER", "RATER", "APPLICANT"]
  /** The roles `PUT /:id` admits. */
  const WriteRoles: seq<string> := ["ADMIN", "PM", "RSP", "LND"]

  const NotFound: string := "Applicant not found"
  const OwnProfileOnly: string := "You can only view your own profile"

  /** `parseInt(req.query.skip) || 0`: a missing or unparsable value, and
      zero, give 0. */
  function SkipParam(q: Option<string>): (n: int)
    ensures q.None? ==> n == 0
    ensures q.Some? && ParseInt(q.value).None? ==> n == 0
    ensures q.Some? && ParseInt(q.value).Some? ==> n == ParseInt(q.value).value
  {
    if q.Some? && ParseInt(q.value).Some? then ParseInt(q.value).value else 0
  }

  /** `Math.min(parseInt(req.query.limit) || 10, 100)`: zero is falsy and
      falls back to 10 like a missing value. */
  function LimitParam(q: Option<string>): (n: int)
    ensures n <= 100
    ensures q.None? ==> n == 10
    ensures q.Some? && (ParseInt(q.value).None? || ParseInt(q.value).value == 0) ==> n == 10
    ensures q.Some? && ParseInt(q.value).Some? && ParseInt(q.value).value != 0 ==>
      n == if ParseInt(q.value).value < 100 then ParseInt(q.value).value else 100
  {
    var asked := if q.Some? && ParseInt(q.value).Some? && ParseInt(q.value).value != 0 then ParseInt(q.value).value else 10;
    if asked < 100 then asked else 100
  }

  /** The window a decimal `skip`/`limit` pair selects: `skip` as written,
      `limit` capped at 100 with 0 read as the default 10. */
  lemma PagingOfDecimals(skip: nat, limit: nat)
    ensures SkipParam(Some(DecimalString(skip))) == skip
    ensures LimitParam(Some(DecimalString(limit))) == if limit == 0 then 10 else if limit < 100 then limit else 100
  {
    ParseIntDecimalString(skip);
    ParseIntDecimalString(limit);
  }

  /** The row filter a role's query gets: an APPLICANT's own email;
      nothing for the other roles. */
  function RowFilters(user: TokenPayload): (r: seq<ApplicantFilter>)
    ensures user.role == "APPLICANT" ==> r == [EmailIs(user.email)]
    ensures user.role != "APPLICANT" ==> r == []
  {
    if user.role == "APPLICANT" then [EmailIs(user.email)] else []
  }

  /** The rows `GET /` answers with: the rows the role may see, then the
      window `.range(skip, skip + limit - 1)`. */
  function Listing(table: seq<ApplicantRow>, user: TokenPayload, skip: int, limit: int): (r: seq<ApplicantRow>)
    ensures |r| <= Max(0, limit) && |r| <= |table|
    ensures forall i :: 0 <= i < |r| ==> r[i] in table
    ensures user.role == "APPLICANT" ==> forall i :: 0 <= i < |r| ==> r[i].email == user.email
    ensures user.role == "APPLICANT" ==> r == Range(Seqs.Filter(table, HasEmail(user.email)), skip, skip + limit - 1)
    ensures user.role != "APPLICANT" ==> r == Range(table, skip, skip + limit - 1)
  {
    if user.role == "APPLICANT" then
      SelectByEmail(table, user.email);
      Range(SelectApplicants(table, [EmailIs(user.email)]), skip, skip + limit - 1)
    else
      FilterAllApplicants(table);
      Range(SelectApplicants(table, []), skip, skip + limit - 1)
  }

  /** The listing is the window over what the role's filters select. */
  lemma ListingSelects(table: seq<ApplicantRow>, user: TokenPayload, skip: int, limit: int)
    ensures Listing(table, user, skip, limit) == Range(SelectApplicants(table, RowFilters(user)), skip, skip + limit - 1)
  {
  }

  /** With no filter every row is selected. */
  lemma FilterAllApplicants(table: seq<ApplicantRow>)
    ensures SelectApplicants(table, []) == table
  {
    Seqs.FilterAll(table, (row: ApplicantRow) => ApplicantMatchesAll(row, []));
  }

  /** `GET /`: `failure` is the error the query reports, if any. */
  method ListApplicants(authHeader: Option<string>, decode: string -> Option<TokenPayload>,
                        skipQuery: Option<string>, limitQuery: Option<string>,
                        table: seq<ApplicantRow>, failure: Option<string>)
    returns (r: Reply<seq<ApplicantRow>>)
    ensures RoleGate(ReadRoles, authHeader, decode).Deny? ==>
      r == Reply(RoleGate(ReadRoles, authHeader, decode).status, Error(RoleGate(ReadRoles, authHeader, decode).error))
    ensures RoleGate(ReadRoles, authHeader, decode).Pass? && failure.Some? ==> r == Reply(500, Error(failure.value))
    ensures RoleGate(ReadRoles, authHeader, decode).Pass? && failure.None? ==>
      r == Reply(200, Data(Listing(table, RoleGate(ReadRoles, authHeader, decode).user, SkipParam(skipQuery), LimitParam(limitQuery))))
  {
    var gate := RoleGate(ReadRoles, authHeader, decode);
    if gate.Deny? {
      return Reply(gate.status, Error(gate.error));
    }
    var user := gate.user;
    var skip := SkipParam(skipQuery);
    var limit := LimitParam(limitQuery);
    var filters: seq<ApplicantFilter> := [];
    if user.role == "APPLICANT" {
      filters := filters + [EmailIs(user.email)];
    }
    if failure.Some? {
      return Reply(500, Error(failure.value));
    }
    assert filters == RowFilters(user);
    var rows := Range(SelectApplicants(table, filters), skip, skip + limit - 1);
    ListingSelects(table, user, skip, limit);
    r := Reply(200, Data(rows));
  }

  /** Every answer to `GET /` that carries rows carries at most 100, and an
      APPLICANT's carries only rows with the token's email. */
  lemma ListingBounds(table: seq<ApplicantRow>, user: TokenPayload, skipQuery: Option<string>, limitQuery: Option<string>)
    ensures |Listing(table, user, SkipParam(skipQuery), LimitParam(limitQuery))| <= 100
    ensures user.role == "APPLICANT" ==>
      forall row :: row in Listing(table, user, SkipParam(skipQuery), LimitParam(limitQuery)) ==> row.email == user.email
  {
  }

  /** `.single()`: the row when exactly one matches, otherwise an error. */
  function Single(rows: seq<ApplicantRow>): (r: Option<ApplicantRow>)
    ensures r.Some? <==> |rows| == 1
    ensures r.Some? ==> r.value == rows[0]
  {
    if |rows| == 1 then Some(rows[0]) else None
  }

  /** `GET /:id`. */
  method GetApplicant(authHeader: Option<string>, decode: string -> Option<TokenPayload>, id: string,
                      table: seq<ApplicantRow>, failure: Option<string>)
    returns (r: Reply<ApplicantRow>)
    ensures RoleGate(ReadRoles, authHeader, decode).Deny? ==>
      r == Reply(RoleGate(ReadRoles, authHeader, decode).status, Error(RoleGate(ReadRoles, authHeader, decode).error))
    ensures RoleGate(ReadRoles, authHeader, decode).Pass? && (failure.Some? || Single(SelectApplicants(table, [IdIs(id)])).None?) ==>
      r == Reply(404, Error(NotFound))
    ensures RoleGate(ReadRoles, authHeader, decode).Pass? && failure.None? && Single(SelectApplicants(table, [IdIs(id)])).Some? ==>
      var user := RoleGate(ReadRoles, authHeader, decode).user;
      var row := Single(SelectApplicants(table, [IdIs(id)])).value;
      r == if user.role == "APPLICANT" && row.email != user.email then Reply(403, Error(OwnProfileOnly)) else Reply(200, Data(row))
    ensures r.status == 200 ==> r.body.Data? && r.body.value.id == id && r.body.value in table
  {
    var gate := RoleGate(ReadRoles, authHeader, decode);
    if gate.Deny? {
      return Reply(gate.status, Error(gate.error));
    }
    var user := gate.user;
    var data := Single(SelectApplicants(table, [IdIs(id)]));
    if failure.Some? || data.None? {
      return Reply(404, Error(NotFound));
    }
    var row := data.value;
    assert ApplicantMatchesAll(row, [IdIs(id)]) && ApplicantMatches(row, [IdIs(id)][0]);
    if user.role == "APPLICANT" && row.email != user.email {
      return Reply(403, Error(OwnProfileOnly));
    }
    r := Reply(200, Data(row));
  }

  /** With distinct ids, `.single()` finds a stored row by its id, so
      `GET /:id` and `PUT /:id` answer 404 only for ids not in the table
      (or on a failing query). */
  lemma StoredApplicantIsFound(table: seq<ApplicantRow>, k: int)
    requires IdsDistinct(table) && 0 <= k < |table|
    ensures Single(SelectApplicants(table, [IdIs(table[k].id)])) == Some(table[k])
  {
    SelectById(table, k);
  }

  /** `PUT /:id`: `lookupFailure` is the error of the existence check,
      `outcome` the result of the update. `sent` is the update the handler
      issues, if it gets that far. */
  method UpdateApplicant(authHeader: Option<string>, decode: string -> Option<TokenPayload>, id: string,
                         body: Fields, table: seq<ApplicantRow>, lookupFailure: Option<string>,
                         outcome: Result<ApplicantRow, string>)
    returns (r: Reply<ApplicantRow>, sent: Option<Fields>)
    ensures sent.Some? <==>
      RoleGate(WriteRoles, authHeader, decode).Pass? && lookupFailure.None? && Single(SelectApplicants(table, [IdIs(id)])).Some?
    ensures sent.Some? ==> sent.value == body
    ensures RoleGate(WriteRoles, authHeader, decode).Deny? ==>
      r == Reply(RoleGate(WriteRoles, authHeader, decode).status, Error(RoleGate(WriteRoles, authHeader, decode).error))
    ensures RoleGate(WriteRoles, authHeader, decode).Pass? && sent.None? ==> r == Reply(404, Error(NotFound))
    ensures sent.Some? ==>
      r == match outcome { case Ok(row) => Reply(200, Data(row)) case Err(e) => Reply(500, Error(e)) }
  {
    sent := None;
    var gate := RoleGate(WriteRoles, authHeader, decode);
    if gate.Deny? {
      return Reply(gate.status, Error(gate.error)), None;
    }
    var existing := Single(SelectApplicants(table, [IdIs(id)]));
    if lookupFailure.Some? || existing.None? {
      return Reply(404, Error(NotFound)), None;
    }
    sent := Some(body);
    match outcome {
      case Ok(row) => r := Reply(200, Data(row));
      case Err(e) => r := Reply(500, Error(e));
    }
  }
}

=== FILE: express_auth.dfy ===
/** The Express `/api/auth` routes (backend/src/routes/auth.ts) and how
    backend/src/index.ts mounts them. Login is a placeholder that never
    issues a token; `/me` reports the authenticated user. */
module ExpressAuth {
  import opened Wrappers
  import opened Api
  import opened Jwt
  import opened ExpressMiddleware

  const CredentialsRequired: string := "Email and password required"
  const NotImplemented: string := "Authentication not yet implemented. Configure Supabase Auth."
  const LoggedOut: string := "Logged out successfully"
  const NotAuthenticated: string := "Not authenticated"

  /** `POST /login` with the body's `email` and `password`. */
  function Login(email: Option<string>, password: Option<string>): (r: Reply<TokenPayload>)
    ensures r.status == 400 <==> !Truthy(email) || !Truthy(password)
    ensures r.status == 400 ==> r.body == Error(CredentialsRequired)
    ensures r.status != 400 ==> r == Reply(501, Error(NotImplemented))
    ensures !r.body.Data?
  {
    if !Truthy(email) || !Truthy(password) then Reply(400, Error(CredentialsRequired))
    else Reply(501, Error(NotImplemented))
  }

  /** `POST /logout`: no state is kept server-side, so it always succeeds. */
  function Logout(): (r: Reply<TokenPayload>)
    ensures r.status == 200 && r.body == Message(LoggedOut)
  {
    Reply(200, Message(LoggedOut))
  }

  /** `GET /me` given `req.user`: 401 without one, otherwise exactly its
      `userId`, `email` and `role`. */
  function Me(user: Option<TokenPayload>): (r: Reply<TokenPayload>)
    ensures user.None? <==> r == Reply(401, Error(NotAuthenticated))
    ensures user.Some? ==> r.status == 200 && r.body.Data?
    ensures user.Some? && r.body.Data? ==>
      r.body.value.userId == user.value.userId && r.body.value.email == user.value.email && r.body.value.role == user.value.role
  {
    match user
    case None => Reply(401, Error(NotAuthenticated))
    case Some(u) => Reply(200, Data(TokenPayload(u.userId, u.email, u.role)))
  }

  /** `GET /api/auth/me` as backend/src/index.ts mounts it: the auth router
      is mounted with no middleware, so nothing sets `req.user`. */
  function MeAsMounted(authHeader: Option<string>, decode: string -> Option<TokenPayload>): (r: Reply<TokenPayload>)
    ensures r == Reply(401, Error(NotAuthenticated))
  {
    Me(None)
  }

  /** As mounted, even a valid Bearer token is refused. */
  lemma MeAsMountedRefusesValidToken(token: string, decode: string -> Option<TokenPayload>)
    requires decode(token).Some?
    ensures AuthGate(Some(BearerPrefix + token), decode).Pass?
    ensures MeAsMounted(Some(BearerPrefix + token), decode).status == 401
  {
    ExtractTokenRoundTrip(token);
  }

  /** `GET /api/auth/me` behind `authMiddleware`, as the handler expects. */
  function MeBehindAuth(authHeader: Option<string>, decode: string -> Option<TokenPayload>): (r: Reply<TokenPayload>)
    ensures AuthGate(authHeader, decode).Deny? ==> r == Reply(401, Error(Unauthorized))
    ensures AuthGate(authHeader, decode).Pass? ==> r == Me(Some(AuthGate(authHeader, decode).user))
  {
    match AuthGate(authHeader, decode)
    case Deny(status, error) => Reply(status, Error(error))
    case Pass(u) => Me(Some(u))
  }

  /** Behind the middleware, a valid Bearer token gets its own claims back. */
  lemma MeBehindAuthAnswersValidToken(token: string, decode: string -> Option<TokenPayload>)
    requires decode(token).Some?
    ensures MeBehindAuth(Some(BearerPrefix + token), decode) == Reply(200, Data(decode(token).value))
  {
    ExtractTokenRoundTrip(token);
  }
}

=== FILE: express_evaluations.dfy ===
/** The Express `/api/evaluations` routes (backend/src/routes/evaluations.ts):
    the list, which limits raters and interviewers to their own
    evaluations, and the create, which validates the body and stamps the
    caller as evaluator. As for the applicant routes, the gate sets
    `req.user`, so the handlers' `!req.user` branches are never taken. */
module ExpressEvaluations {
  import opened Wrappers
  import opened Api
  import opened Jwt
  import opened ExpressMiddleware

  /** The roles `GET /` admits. */
  const ListRoles: seq<string> := ["ADMIN", "PM", "RSP", "LND", "RATER", "INTERVIEWER"]
  /** The roles `POST /` admits: ADMIN is not among them. */
  const CreateRoles: seq<string> := ["RATER", "INTERVIEWER"]

  const MissingFields: string := "applicant_id and score are required"
  const ScoreOutOfRange: string := "Score must be between 0 and 100"

  /** The roles whose list is restricted to their own evaluations. */
  predicate SeesOwnOnly(role: string) {
    role == "RATER" || role == "INTERVIEWER"
  }

  /** The filters `GET /` adds: the `applicant_id` query when truthy, then
      the caller as evaluator for raters and interviewers. */
  function ListFilters(user: TokenPayload, applicantId: Option<string>): (r: seq<EvaluationFilter>)
    ensures ApplicantIs(applicantId.GetOr("")) in r <==> Truthy(applicantId)
    ensures EvaluatorIs(user.userId) in r <==> SeesOwnOnly(user.role)
    ensures |r| <= 2
  {
    (if Truthy(applicantId) then [ApplicantIs(applicantId.value)] else [])
    + (if SeesOwnOnly(user.role) then [EvaluatorIs(user.userId)] else [])
  }

  /** Whether a row is one the caller may see under the query. */
  predicate Admitted(row: EvaluationRow, user: TokenPayload, applicantId: Option<string>) {
    (!SeesOwnOnly(user.role) || row.evaluatorId == user.userId)
    && (!Truthy(applicantId) || row.applicantId == applicantId.value)
  }

  /** A row passes the query's filters exactly when it is admitted. */
  lemma ListFiltersMatch(row: EvaluationRow, user: TokenPayload, applicantId: Option<string>)
    ensures EvaluationMatchesAll(row, ListFilters(user, applicantId)) <==> Admitted(row, user, applicantId)
  {
    var f := ListFilters(user, applicantId);
    if Truthy(applicantId) {
      assert f[0] == ApplicantIs(applicantId.value);
    }
    if SeesOwnOnly(user.role) {
      assert f[|f| - 1] == EvaluatorIs(user.userId);
    }
  }

  /** The rows `GET /` answers with: the admitted rows, in table order. */
  function Visible(table: seq<EvaluationRow>, user: TokenPayload, applicantId: Option<string>): (r: seq<EvaluationRow>)
    ensures forall i :: 0 <= i < |r| ==> r[i] in table && Admitted(r[i], user, applicantId)
    ensures forall i :: 0 <= i < |table| && Admitted(table[i], user, applicantId) ==> table[i] in r
    ensures Seqs.IsSubseq(r, table)
    ensures forall row :: multiset(r)[row] == if Admitted(row, user, applicantId) then multiset(table)[row] else 0
  {
    var f := ListFilters(user, applicantId);
    assert forall row :: EvaluationMatchesAll(row, f) <==> Admitted(row, user, applicantId) by {
      forall row
        ensures EvaluationMatchesAll(row, f) <==> Admitted(row, user, applicantId)
      {
        ListFiltersMatch(row, user, applicantId);
      }
    }
    SelectEvaluationsMultiset(table, f);
    SelectEvaluations(table, f)
  }

  /** `GET /`: `failure` is the error the query reports, if any. */
  method ListEvaluations(authHeader: Option<string>, decode: string -> Option<TokenPayload>,
                         applicantId: Option<string>, table: seq<EvaluationRow>, failure: Option<string>)
    returns (r: Reply<seq<EvaluationRow>>)
    ensures RoleGate(ListRoles, authHeader, decode).Deny? ==>
      r == Reply(RoleGate(ListRoles, authHeader, decode).status, Error(RoleGate(ListRoles, authHeader, decode).error))
    ensures RoleGate(ListRoles, authHeader, decode).Pass? && failure.Some? ==> r == Reply(500, Error(failure.value))
    ensures RoleGate(ListRoles, authHeader, decode).Pass? && failure.None? ==>
      r == Reply(200, Data(Visible(table, RoleGate(ListRoles, authHeader, decode).user, applicantId)))
  {
    var gate := RoleGate(ListRoles, authHeader, decode);
    if gate.Deny? {
      return Reply(gate.status, Error(gate.error));
    }
    var user := gate.user;
    var filters: seq<EvaluationFilter> := [];
    if Truthy(applicantId) {
      filters := filters + [ApplicantIs(applicantId.value)];
    }
    if user.role == "RATER" || user.role == "INTERVIEWER" {
      filters := filters + [EvaluatorIs(user.userId)];
    }
    if failure.Some? {
      return Reply(500, Error(failure.value));
    }
    assert filters == ListFilters(user, applicantId);
    var rows := SelectEvaluations(table, filters);
    assert rows == Visible(table, user, applicantId);
    r := Reply(200, Data(rows));
  }

  /** The `score` field of the body: absent, JSON `null`, or a number. */
  datatype ScoreInput = Undefined | Null | Number(value: real)

  /** `score < 0 || score > 100`; `null` compares as 0 and passes. */
  predicate OutOfRange(score: ScoreInput) {
    score.Number? && (score.value < 0.0 || score.value > 100.0)
  }

  /** The score as stored. */
  function StoredScore(score: ScoreInput): (s: Score)
    requires !score.Undefined?
    ensures s.NullScore? <==> score.Null?
    ensures s.Points? ==> s.value == score.value
  {
    if score.Null? then NullScore else Points(score.value)
  }

  /** `comments || null`: an empty comment is stored as null. */
  function StoredComments(comments: Option<string>): (r: Option<string>)
    ensures r.Some? <==> Truthy(comments)
    ensures r.Some? ==> r == comments
  {
    if Truthy(comments) then comments else None
  }

  /** `POST /`: `outcome` is the insert's result. `inserted` is the row the
      handler inserts, if it gets that far. */
  method CreateEvaluation(authHeader: Option<string>, decode: string -> Option<TokenPayload>,
                          applicantId: Option<string>, score: ScoreInput, comments: Option<string>,
                          outcome: Result<EvaluationRow, string>)
    returns (r: Reply<EvaluationRow>, inserted: Option<NewEvaluation>)
    ensures inserted.Some? <==>
      RoleGate(CreateRoles, authHeader, decode).Pass? && Truthy(applicantId) && !score.Undefined? && !OutOfRange(score)
    ensures inserted.Some? ==> (inserted.value ==
      NewEvaluation(applicantId.value, RoleGate(CreateRoles, authHeader, decode).user.userId, StoredScore(score), StoredComments(comments)))
    ensures RoleGate(CreateRoles, authHeader, decode).Deny? ==>
      r == Reply(RoleGate(CreateRoles, authHeader, decode).status, Error(RoleGate(CreateRoles, authHeader, decode).error))
    ensures RoleGate(CreateRoles, authHeader, decode).Pass? && (!Truthy(applicantId) || score.Undefined?) ==>
      r == Reply(400, Error(MissingFields))
    ensures RoleGate(CreateRoles, authHeader, decode).Pass? && Truthy(applicantId) && !score.Undefined? && OutOfRange(score) ==>
      r == Reply(400, Error(ScoreOutOfRange))
    ensures inserted.Some? ==>
      r == match outcome { case Ok(row) => Reply(201, Data(row)) case Err(e) => Reply(500, Error(e)) }
  {
    var gate := RoleGate(CreateRoles, authHeader, decode);
    if gate.Deny? {
      return Reply(gate.status, Error(gate.error)), None;
    }
    var user := gate.user;
    if !Truthy(applicantId) || score.Undefined? {
      return Reply(400, Error(MissingFields)), None;
    }
    if score.Number? && (score.value < 0.0 || score.value > 100.0) {
      return Reply(400, Error(ScoreOutOfRange)), None;
    }
    var data := NewEvaluation(applicantId.value, user.userId, StoredScore(score), StoredComments(comments));
    inserted := Some(data);
    match outcome {
      case Ok(row) => r := Reply(201, Data(row));
      case Err(e) => r := Reply(500, Error(e));
    }
  }

  /** ADMIN may list evaluations but not create one; raters and
      interviewers may do both. */
  lemma CreateExcludesAdmin(authHeader: Option<string>, decode: string -> Option<TokenPayload>)
    requires Authenticate(authHeader, decode).Ok?
    ensures Authenticate(authHeader, decode).value.role == "ADMIN" ==>
      RoleGate(ListRoles, authHeader, decode).Pass? && RoleGate(CreateRoles, authHeader, decode) == Deny(403, InsufficientPermissions)
    ensures RoleGate(CreateRoles, authHeader, decode).Pass? ==> RoleGate(ListRoles, authHeader, decode).Pass?
  {
  }

  /** The range check includes both bounds and lets `null` through. */
  lemma ScoreBoundsInclusive()
    ensures !OutOfRange(Number(0.0)) && !OutOfRange(Number(100.0)) && !OutOfRange(Null)
    ensures OutOfRange(Number(-0.5)) && OutOfRange(Number(100.5))
  {
  }
}

=== FILE: express_middleware.dfy ===
/** The Express authentication middleware (backend/src/middleware/auth.ts).
    `AuthGate` and `RoleGate` are the decisions `authMiddleware` and
    `requireRole(...)` take; `Exchange` is the request/response pair the
    middleware writes to, and its methods are proved to act out those
    decisions. */
module ExpressMiddleware {
  import opened Wrappers
  import opened Jwt

  const Unauthorized: string := "Unauthorized"
  const InsufficientPermissions: string := "Insufficient permissions"

  /** What a gate does with a request: pass it on with the decoded user, or
      answer it with a status and an `{ error }` body. */
  datatype Gate = Pass(user: TokenPayload) | Deny(status: int, error: string)

  /** The `try` block both middlewares share: extract the Bearer token, then
      verify it. */
  function Authenticate(authHeader: Option<string>, decode: string -> Option<TokenPayload>): (r: Result<TokenPayload, string>)
    ensures r.Ok? <==> ExtractToken(authHeader).Ok? && decode(ExtractToken(authHeader).value).Some?
    ensures r.Ok? ==> r.value == decode(ExtractToken(authHeader).value).value
  {
    match ExtractToken(authHeader)
    case Err(e) => Err(e)
    case Ok(token) => VerifyToken(token, decode)
  }

  /** `authMiddleware`: any failure is a 401. */
  function AuthGate(authHeader: Option<string>, decode: string -> Option<TokenPayload>): (r: Gate)
    ensures r.Pass? <==> Authenticate(authHeader, decode).Ok?
    ensures r.Pass? ==> r.user == Authenticate(authHeader, decode).value
    ensures r.Deny? ==> r == Deny(401, Unauthorized)
  {
    match Authenticate(authHeader, decode)
    case Ok(u) => Pass(u)
    case Err(_) => Deny(401, Unauthorized)
  }

  /** `requireRole(...allowed)`: 401 when the token is missing or bad, then
      403 when its role is not one of `allowed`. */
  function RoleGate(allowed: seq<string>, authHeader: Option<string>, decode: string -> Option<TokenPayload>): (r: Gate)
    ensures r.Pass? <==> Authenticate(authHeader, decode).Ok? && Authenticate(authHeader, decode).value.role in allowed
    ensures r.Pass? ==> r.user == Authenticate(authHeader, decode).value
    ensures Authenticate(authHeader, decode).Err? ==> r == Deny(401, Unauthorized)
    ensures Authenticate(authHeader, decode).Ok? && Authenticate(authHeader, decode).value.role !in allowed ==>
      r == Deny(403, InsufficientPermissions)
  {
    match Authenticate(authHeader, decode)
    case Err(_) => Deny(401, Unauthorized)
    case Ok(u) => if u.role in allowed then Pass(u) else Deny(403, InsufficientPermissions)
  }

  /** The 401 comes first: a request `authMiddleware` refuses is refused by
      every `requireRole` with the same answer, whatever the allow-list, and
      a request `requireRole` lets through carries the user
      `authMiddleware` would have set. */
  lemma RoleGateRefinesAuthGate(allowed: seq<string>, authHeader: Option<string>, decode: string -> Option<TokenPayload>)
    ensures AuthGate(authHeader, decode).Deny? ==> RoleGate(allowed, authHeader, decode) == AuthGate(authHeader, decode)
    ensures RoleGate(allowed, authHeader, decode).Pass? ==> AuthGate(authHeader, decode) == RoleGate(allowed, authHeader, decode)
    ensures RoleGate(allowed, authHeader, decode).Deny? && AuthGate(authHeader, decode).Pass? ==>
      RoleGate(allowed, authHeader, decode).status == 403
  {
  }

  /** Membership is exact: `ADMIN` passes only where it is listed. */
  lemma NoAdminSuperset(allowed: seq<string>, authHeader: Option<string>, decode: string -> Option<TokenPayload>)
    requires "ADMIN" !in allowed
    requires Authenticate(authHeader, decode).Ok? && Authenticate(authHeader, decode).value.role == "ADMIN"
    ensures RoleGate(allowed, authHeader, decode) == Deny(403, InsufficientPermissions)
  {
  }

  /** A well-formed header carrying a token the library accepts passes
      every gate that lists the token's role. */
  lemma ValidBearerPasses(allowed: seq<string>, token: string, decode: string -> Option<TokenPayload>)
    requires decode(token).Some? && decode(token).value.role in allowed
    ensures RoleGate(allowed, Some(BearerPrefix + token), decode) == Pass(decode(token).value)
    ensures AuthGate(Some(BearerPrefix + token), decode) == Pass(decode(token).value)
  {
    ExtractTokenRoundTrip(token);
  }

  /** One request and its response as the middleware sees them: the
      `Authorization` header, `req.user`, the status and `{ error }` body
      written, and whether `next()` was called. */
  class Exchange {
    const authorization: Option<string>
    var user: Option<TokenPayload>
    var status: int
    var error: Option<string>
    var nextCalled: bool

    /** A request just received: no user, nothing written, status 200. */
    constructor (authorization: Option<string>)
      ensures this.authorization == authorization
      ensures user == None && status == 200 && error == None && !nextCalled
    {
      this.authorization := authorization;
      user := None;
      status := 200;
      error := None;
      nextCalled := false;
    }

    /** Whether the middleware has answered the request itself. */
    predicate Answered()
      reads this
    {
      error.Some?
    }

    /** `authMiddleware(req, res, next)`. */
    method AuthMiddleware(decode: string -> Option<TokenPayload>)
      modifies this
      ensures AuthGate(authorization, decode).Pass? ==>
        user == Some(AuthGate(authorization, decode).user) && nextCalled
        && status == old(status) && error == old(error)
      ensures AuthGate(authorization, decode).Deny? ==>
        status == 401 && error == Some(Unauthorized) && Answered()
        && user == old(user) && nextCalled == old(nextCalled)
    {
      var token := ExtractToken(authorization);
      if token.Err? {
        status, error := 401, Some(Unauthorized);
        return;
      }
      var verified := VerifyToken(token.value, decode);
      if verified.Err? {
        status, error := 401, Some(Unauthorized);
        return;
      }
      user := Some(verified.value);
      nextCalled := true;
    }

    /** `requireRole(...allowed)(req, res, next)`. A refused request keeps
        `req.user` as it was and `next` uncalled. */
    method RequireRole(allowed: seq<string>, decode: string -> Option<TokenPayload>)
      modifies this
      ensures RoleGate(allowed, authorization, decode).Pass? ==>
        user == Some(RoleGate(allowed, authorization, decode).user) && nextCalled
        && status == old(status) && error == old(error)
      ensures RoleGate(allowed, authorization, decode).Deny? ==>
        status == RoleGate(allowed, authorization, decode).status
        && error == Some(RoleGate(allowed, authorization, decode).error)
        && user == old(user) && nextCalled == old(nextCalled)
    {
      var token := ExtractToken(authorization);
      if token.Err? {
        status, error := 401, Some(Unauthorized);
        return;
      }
      var verified := VerifyToken(token.value, decode);
      if verified.Err? {
        status, error := 401, Some(Unauthorized);
        return;
      }
      var u := verified.value;
      if u.role !in allowed {
        status, error := 403, Some(InsufficientPermissions);
        return;
      }
      user := Some(u);
      nextCalled := true;
    }
  }
}

=== FILE: fastapi_applicants.dfy ===
/** The FastAPI `/api/applicants` routes (backend/app/routes/applicants.py).
    A handler returns its value (`Ok`) or raises (`Err`); the authentication
    dependency runs before FastAPI validates the query, so its 401 or 403
    comes first. The database is the table's rows in the order it returns
    them and the failures its calls raise. */
module FastApiApplicants {
  import opened Wrappers
  import opened Api
  import opened FastApiDeps

  /** The roles `update_applicant` admits. */
  const WriteRoles: seq<string> := ["ADMIN", "PM", "RSP", "LND"]

  const NotFound: string := "Applicant not found"
  const OwnProfileOnly: string := "You can only view your own profile"
  /** `str(e)` of the `IndexError` that `response.data[0]` raises on an
      empty result. */
  const IndexOutOfRange: string := "list index out of range"

  /** The fields `ApplicantUpdate` declares; other keys of the body are
      dropped. */
  const UpdateFields: set<string> :=
    {"name", "address", "contact_number", "email", "position", "item_number", "office", "is_pwd", "status"}

  /** An integer query parameter: absent, an integer, or text that is not
      one. */
  datatype Param = Absent | Given(n: int) | Malformed

  /** `skip: int = Query(0, ge=0)`. */
  function Skip(p: Param): (r: Option<int>)
    ensures r.Some? ==> r.value >= 0
    ensures r.Some? <==> p.Absent? || (p.Given? && p.n >= 0)
  {
    match p
    case Absent => Some(0)
    case Given(n) => if n >= 0 then Some(n) else None
    case Malformed => None
  }

  /** `limit: int = Query(10, ge=1, le=100)`. */
  function Limit(p: Param): (r: Option<int>)
    ensures r.Some? ==> 1 <= r.value <= 100
    ensures r.Some? <==> p.Absent? || (p.Given? && 1 <= p.n <= 100)
    ensures p.Absent? ==> r == Some(10)
  {
    match p
    case Absent => Some(10)
    case Given(n) => if 1 <= n <= 100 then Some(n) else None
    case Malformed => None
  }

  /** The parameters FastAPI's validation names, in declaration order. */
  function InvalidParams(skip: Param, limit: Param): (r: seq<string>)
    ensures r == [] <==> Skip(skip).Some? && Limit(limit).Some?
  {
    (if Skip(skip).None? then ["skip"] else []) + (if Limit(limit).None? then ["limit"] else [])
  }

  /** The filter `list_applicants` adds for the caller's role. */
  function RoleFilters(user: TokenData): (r: seq<ApplicantFilter>)
    ensures user.role == "APPLICANT" ==> r == [EmailIs(user.email)]
    ensures user.role != "APPLICANT" ==> r == []
  {
    if user.role == "APPLICANT" then [EmailIs(user.email)] else []
  }

  /** The rows the caller's role may see: an APPLICANT's own; everything
      for the other roles. */
  function RoleRows(table: seq<ApplicantRow>, user: TokenData): (r: seq<ApplicantRow>)
    ensures forall i :: 0 <= i < |r| ==> r[i] in table
    ensures user.role == "APPLICANT" ==>
      (forall i :: 0 <= i < |r| ==> r[i].email == user.email)
      && (forall i :: 0 <= i < |table| && table[i].email == user.email ==> table[i] in r)
    ensures user.role != "APPLICANT" ==> r == table
    ensures Seqs.IsSubseq(r, table)
    ensures user.role == "APPLICANT" ==>
      forall row :: multiset(r)[row] == if row.email == user.email then multiset(table)[row] else 0
  {
    var f := RoleFilters(user);
    var r := SelectApplicants(table, f);
    SelectApplicantsMultiset(table, f);
    assert user.role == "APPLICANT" ==> forall row :: ApplicantMatchesAll(row, f) <==> ApplicantMatches(row, f[0]);
    Seqs.FilterAll(table, (row: ApplicantRow) => ApplicantMatchesAll(row, []));
    r
  }

  /** `list_applicants`. */
  method ListApplicants(token: string, decode: string -> Option<Claims>, skip: Param, limit: Param,
                        table: seq<ApplicantRow>, failure: Option<string>)
    returns (r: Result<seq<ApplicantRow>, HttpError>)
    ensures GetCurrentUser(token, decode).Err? ==> r == Err(Unauthenticated)
    ensures GetCurrentUser(token, decode).Ok? && InvalidParams(skip, limit) != [] ==>
      r == Err(ValidationError(InvalidParams(skip, limit)))
    ensures GetCurrentUser(token, decode).Ok? && InvalidParams(skip, limit) == [] && failure.Some? ==>
      r == Err(HttpError(500, "Failed to fetch applicants: " + failure.value, []))
    ensures GetCurrentUser(token, decode).Ok? && InvalidParams(skip, limit) == [] && failure.None? ==>
      r == Ok(Range(RoleRows(table, GetCurrentUser(token, decode).value), Skip(skip).value, Skip(skip).value + Limit(limit).value - 1))
    ensures r.Ok? ==> |r.value| <= 100
  {
    var current := GetCurrentUser(token, decode);
    if current.Err? {
      return Err(current.error);
    }
    var bad := InvalidParams(skip, limit);
    if bad != [] {
      return Err(ValidationError(bad));
    }
    if failure.Some? {
      return Err(HttpError(500, "Failed to fetch applicants: " + failure.value, []));
    }
    var filters := RoleFilters(current.value);
    r := Ok(Range(SelectApplicants(table, filters), Skip(skip).value, Skip(skip).value + Limit(limit).value - 1));
  }

  /** `get_applicant`: the first row with the id; `failure` is the error the
      query raises, if any. */
  method GetApplicant(token: string, decode: string -> Option<Claims>, id: string,
                      table: seq<ApplicantRow>, failure: Option<string>)
    returns (r: Result<ApplicantRow, HttpError>)
    ensures GetCurrentUser(token, decode).Err? ==> r == Err(Unauthenticated)
    ensures GetCurrentUser(token, decode).Ok? && failure.Some? ==>
      r == Err(HttpError(500, "Failed to fetch applicant: " + failure.value, []))
    ensures GetCurrentUser(token, decode).Ok? && failure.None? && SelectApplicants(table, [IdIs(id)]) == [] ==>
      r == Err(HttpError(404, NotFound, []))
    ensures GetCurrentUser(token, decode).Ok? && failure.None? && SelectApplicants(table, [IdIs(id)]) != [] ==>
      var user := GetCurrentUser(token, decode).value;
      var row := SelectApplicants(table, [IdIs(id)])[0];
      r == if user.role == "APPLICANT" && row.email != user.email then Err(HttpError(403, OwnProfileOnly, [])) else Ok(row)
    ensures r.Ok? ==> r.value.id == id && r.value in table
  {
    var current := GetCurrentUser(token, decode);
    if current.Err? {
      return Err(current.error);
    }
    var user := current.value;
    if failure.Some? {
      return Err(HttpError(500, "Failed to fetch applicant: " + failure.value, []));
    }
    var data := SelectApplicants(table, [IdIs(id)]);
    if data == [] {
      return Err(HttpError(404, NotFound, []));
    }
    var applicant := data[0];
    assert ApplicantMatchesAll(applicant, [IdIs(id)]) && ApplicantMatches(applicant, [IdIs(id)][0]);
    if user.role == "APPLICANT" && applicant.email != user.email {
      return Err(HttpError(403, OwnProfileOnly, []));
    }
    r := Ok(applicant);
  }

  /** `update_data.model_dump(exclude_unset=True)`: the `ApplicantUpdate`
      fields the body sets. */
  function UpdateDict(body: Fields): (r: Fields)
    ensures r.Keys <= UpdateFields && r.Keys <= body.Keys
    ensures forall k :: k in body && k in UpdateFields ==> k in r && r[k] == body[k]
  {
    map k | k in body && k in UpdateFields :: body[k]
  }

  /** `update_applicant`: `lookupFailure` is the error the existence query
      raises, `outcome` the rows the update returns or its error. `sent` is
      the update issued, if the handler gets that far. */
  method UpdateApplicant(token: string, decode: string -> Option<Claims>, id: string, body: Fields,
                         table: seq<ApplicantRow>, lookupFailure: Option<string>,
                         outcome: Result<seq<ApplicantRow>, string>)
    returns (r: Result<ApplicantRow, HttpError>, sent: Option<Fields>)
    ensures RequireRole(WriteRoles, token, decode).Err? ==> r == Err(RequireRole(WriteRoles, token, decode).error) && sent.None?
    ensures sent.Some? <==>
      RequireRole(WriteRoles, token, decode).Ok? && lookupFailure.None? && SelectApplicants(table, [IdIs(id)]) != []
    ensures sent.Some? ==> sent.value == UpdateDict(body)
    ensures RequireRole(WriteRoles, token, decode).Ok? && lookupFailure.Some? ==>
      r == Err(HttpError(500, "Failed to update applicant: " + lookupFailure.value, []))
    ensures RequireRole(WriteRoles, token, decode).Ok? && lookupFailure.None? && SelectApplicants(table, [IdIs(id)]) == [] ==>
      r == Err(HttpError(404, NotFound, []))
    ensures sent.Some? ==> r == match outcome {
      case Err(e) => Err(HttpError(500, "Failed to update applicant: " + e, []))
      case Ok(rows) => if rows == [] then Err(HttpError(500, "Failed to update applicant: " + IndexOutOfRange, [])) else Ok(rows[0])
    }
  {
    sent := None;
    var current := RequireRole(WriteRoles, token, decode);
    if current.Err? {
      return Err(current.error), None;
    }
    if lookupFailure.Some? {
      return Err(HttpError(500, "Failed to update applicant: " + lookupFailure.value, [])), None;
    }
    if SelectApplicants(table, [IdIs(id)]) == [] {
      return Err(HttpError(404, NotFound, [])), None;
    }
    sent := Some(UpdateDict(body));
    match outcome {
      case Err(e) => r := Err(HttpError(500, "Failed to update applicant: " + e, []));
      case Ok(rows) =>
        if rows == [] {
          r := Err(HttpError(500, "Failed to update applicant: " + IndexOutOfRange, []));
        } else {
          r := Ok(rows[0]);
        }
    }
  }

  /** Keys outside `ApplicantUpdate` never reach the database; `status` is
      one of the fields an update may set. */
  lemma UpdateDictDropsUnknownKeys(body: Fields, k: string)
    requires k !in UpdateFields
    ensures k !in UpdateDict(body)
    ensures "status" in body ==> "status" in UpdateDict(body)
  {
  }
}

=== FILE: fastapi_deps.dfy ===
/** The FastAPI back end's authentication dependencies
    (backend/app/utils/dependencies.py), with the claim check of
    `verify_token` (backend/app/core/security.py) they rely on. A
    dependency either returns the caller's `TokenData` or raises an
    `HTTPException`, here `Err(HttpError)`. The JWT library is a
    parameter: `decode` yields the claims of a token whose signature and
    expiry it accepts. */
module FastApiDeps {
  import opened Wrappers

  /** The caller as the routes see it. */
  datatype TokenData = TokenData(userId: string, email: string, role: string)

  /** The claims of a decoded token; a claim the token lacks is `None`. */
  datatype Claims = Claims(userId: Option<string>, email: Option<string>, role: Option<string>)

  /** An `HTTPException` (status, detail, extra headers), or the 422 FastAPI
      raises itself when request parameters fail validation, naming them. */
  datatype HttpError =
    | HttpError(status: int, detail: string, headers: seq<(string, string)>)
    | ValidationError(fields: seq<string>)

  const InvalidCredentials: string := "Invalid authentication credentials"
  const RequiredRolePrefix: string := "User does not have required role. Required: "

  /** The 401 `get_current_user` raises, with its challenge header. */
  const Unauthenticated: HttpError := HttpError(401, InvalidCredentials, [("WWW-Authenticate", "Bearer")])

  /** `verify_token`: the token data when the token decodes and carries all
      three claims. */
  function VerifyToken(token: string, decode: string -> Option<Claims>): (r: Option<TokenData>)
    ensures r.Some? <==>
      decode(token).Some? && decode(token).value.userId.Some? && decode(token).value.email.Some? && decode(token).value.role.Some?
    ensures r.Some? ==>
      Some(r.value.userId) == decode(token).value.userId && Some(r.value.email) == decode(token).value.email
      && Some(r.value.role) == decode(token).value.role
  {
    match decode(token)
    case None => None
    case Some(c) =>
      if c.userId.Some? && c.email.Some? && c.role.Some? then Some(TokenData(c.userId.value, c.email.value, c.role.value))
      else None
  }

  /** `get_current_user`: every failure of `verify_token` becomes the one
      401. */
  function GetCurrentUser(token: string, decode: string -> Option<Claims>): (r: Result<TokenData, HttpError>)
    ensures r.Ok? <==> VerifyToken(token, decode).Some?
    ensures r.Ok? ==> r.value == VerifyToken(token, decode).value
    ensures r.Err? ==> r.error == Unauthenticated
  {
    match VerifyToken(token, decode)
    case Some(u) => Ok(u)
    case None => Err(Unauthenticated)
  }

  /** Python's `repr` of a string without quotes or backslashes in it. */
  function StrRepr(s: string): string {
    "'" + s + "'"
  }

  /** The items of a tuple's `repr`, `', '`-separated. */
  function ReprItems(xs: seq<string>): (r: string)
    ensures |xs| == 0 <==> |r| == 0
    decreases |xs|
  {
    if |xs| == 0 then ""
    else if |xs| == 1 then StrRepr(xs[0])
    else StrRepr(xs[0]) + ", " + ReprItems(xs[1..])
  }

  /** Python's `repr` of a tuple of strings: `('A', 'B')`, with the
      trailing comma of a one-element tuple, `('A',)`. */
  function TupleRepr(xs: seq<string>): (r: string)
    ensures |r| >= 2 && r[0] == '(' && r[|r| - 1] == ')'
    ensures |xs| == 1 <==> |r| >= 3 && r[|r| - 2] == ','
  {
    if |xs| == 1 then "(" + StrRepr(xs[0]) + ",)"
    else
      var items := ReprItems(xs);
      assert |xs| > 1 ==> items[|items| - 1] == '\'' by {
        if |xs| > 1 {
          ReprItemsEndsWithQuote(xs);
        }
      }
      "(" + items + ")"
  }

  lemma {:induction false} ReprItemsEndsWithQuote(xs: seq<string>)
    requires |xs| >= 1
    ensures |ReprItems(xs)| >= 2 && ReprItems(xs)[|ReprItems(xs)| - 1] == '\''
    decreases |xs|
  {
    if |xs| > 1 {
      ReprItemsEndsWithQuote(xs[1..]);
    }
  }

  /** The 403 detail of `require_role(*allowed)`. */
  function Forbidden(allowed: seq<string>): (e: HttpError)
    ensures e.HttpError? && e.status == 403 && e.headers == []
    ensures e.detail == RequiredRolePrefix + TupleRepr(allowed)
  {
    HttpError(403, RequiredRolePrefix + TupleRepr(allowed), [])
  }

  /** `require_role(*allowed)`: the role check runs only on a caller
      `get_current_user` accepted, and returns that caller unchanged. */
  function RequireRole(allowed: seq<string>, token: string, decode: string -> Option<Claims>): (r: Result<TokenData, HttpError>)
    ensures GetCurrentUser(token, decode).Err? ==> r == GetCurrentUser(token, decode)
    ensures r.Ok? <==> GetCurrentUser(token, decode).Ok? && GetCurrentUser(token, decode).value.role in allowed
    ensures r.Ok? ==> r == GetCurrentUser(token, decode)
    ensures GetCurrentUser(token, decode).Ok? && GetCurrentUser(token, decode).value.role !in allowed ==>
      r == Err(Forbidden(allowed))
  {
    match GetCurrentUser(token, decode)
    case Err(e) => Err(e)
    case Ok(u) => if u.role in allowed then Ok(u) else Err(Forbidden(allowed))
  }

  /** A one-role gate keeps Python's trailing comma. */
  lemma ForbiddenDetailOfOneRole()
    ensures Forbidden(["RATER"]).detail == "User does not have required role. Required: ('RATER',)"
  {
  }

  /** A token missing any one claim is refused like a bad signature. */
  lemma MissingClaimIsUnauthenticated(token: string, decode: string -> Option<Claims>, allowed: seq<string>)
    requires decode(token).Some? && (decode(token).value.userId.None? || decode(token).value.email.None? || decode(token).value.role.None?)
    ensures RequireRole(allowed, token, decode) == Err(Unauthenticated)
  {
  }
}

=== FILE: fastapi_evaluations.dfy ===
/** The FastAPI `/api/evaluations` routes (backend/app/routes/evaluations.py).
    Unlike the Express routes, the list's allow-list leaves INTERVIEWER
    out, the create has no range check on the score, and a successful
    create answers with FastAPI's default 200. */
module FastApiEvaluations {
  import opened Wrappers
  import opened Api
  import opened FastApiDeps

  /** The roles `list_evaluations` admits. */
  const ListRoles: seq<string> := ["ADMIN", "PM", "RSP", "LND", "RATER"]
  /** The roles `create_evaluation` admits. */
  const CreateRoles: seq<string> := ["RATER", "INTERVIEWER"]

  /** `str(e)` of the `IndexError` that `response.data[0]` raises on an
      empty result. */
  const IndexOutOfRange: string := "list index out of range"

  /** `current_user.role in ["RATER", "INTERVIEWER"]`. */
  predicate SeesOwnOnly(role: string) {
    role == "RATER" || role == "INTERVIEWER"
  }

  /** Whether a row is one the caller may see under the query. */
  predicate Admitted(row: EvaluationRow, user: TokenData, applicantId: Option<string>) {
    (!SeesOwnOnly(user.role) || row.evaluatorId == user.userId)
    && (!Truthy(applicantId) || row.applicantId == applicantId.value)
  }

  /** The filters `list_evaluations` adds, in order. */
  function ListFilters(user: TokenData, applicantId: Option<string>): (r: seq<EvaluationFilter>)
    ensures forall row :: EvaluationMatchesAll(row, r) <==> Admitted(row, user, applicantId)
  {
    var r := (if Truthy(applicantId) then [ApplicantIs(applicantId.value)] else [])
      + (if SeesOwnOnly(user.role) then [EvaluatorIs(user.userId)] else []);
    assert Truthy(applicantId) ==> r[0] == ApplicantIs(applicantId.value);
    assert SeesOwnOnly(user.role) ==> r[|r| - 1] == EvaluatorIs(user.userId);
    r
  }

  /** `list_evaluations`: `failure` is the error the query raises, if any. */
  method ListEvaluations(token: string, decode: string -> Option<Claims>, applicantId: Option<string>,
                         table: seq<EvaluationRow>, failure: Option<string>)
    returns (r: Result<seq<EvaluationRow>, HttpError>)
    ensures RequireRole(ListRoles, token, decode).Err? ==> r == Err(RequireRole(ListRoles, token, decode).error)
    ensures RequireRole(ListRoles, token, decode).Ok? && failure.Some? ==>
      r == Err(HttpError(500, "Failed to fetch evaluations: " + failure.value, []))
    ensures RequireRole(ListRoles, token, decode).Ok? && failure.None? ==> r.Ok?
    ensures r.Ok? ==>
      var user := RequireRole(ListRoles, token, decode).value;
      (forall i :: 0 <= i < |r.value| ==> r.value[i] in table && Admitted(r.value[i], user, applicantId))
      && (forall i :: 0 <= i < |table| && Admitted(table[i], user, applicantId) ==> table[i] in r.value)
      && Seqs.IsSubseq(r.value, table)
      && (forall row :: multiset(r.value)[row] == if Admitted(row, user, applicantId) then multiset(table)[row] else 0)
  {
    var current := RequireRole(ListRoles, token, decode);
    if current.Err? {
      return Err(current.error);
    }
    var user := current.value;
    var filters: seq<EvaluationFilter> := [];
    if Truthy(applicantId) {
      filters := filters + [ApplicantIs(applicantId.value)];
    }
    if user.role == "RATER" || user.role == "INTERVIEWER" {
      filters := filters + [EvaluatorIs(user.userId)];
    }
    if failure.Some? {
      return Err(HttpError(500, "Failed to fetch evaluations: " + failure.value, []));
    }
    assert filters == ListFilters(user, applicantId);
    SelectEvaluationsMultiset(table, filters);
    r := Ok(SelectEvaluations(table, filters));
  }

  /** The handler's INTERVIEWER case is never reached: the gate refuses
      INTERVIEWER with 403 before it, so only RATER lists its own. */
  lemma InterviewerCannotList(token: string, decode: string -> Option<Claims>)
    requires GetCurrentUser(token, decode).Ok? && GetCurrentUser(token, decode).value.role == "INTERVIEWER"
    ensures RequireRole(ListRoles, token, decode) == Err(Forbidden(ListRoles))
  {
  }

  /** `create_evaluation`'s body after validation: a missing `applicant_id`
      or `score` is a 422; `comments` defaults to `None`. */
  datatype EvaluationCreate = EvaluationCreate(applicantId: Option<string>, score: Option<real>, comments: Option<string>)

  /** The body fields FastAPI reports missing. */
  function MissingFields(body: EvaluationCreate): (r: seq<string>)
    ensures r == [] <==> body.applicantId.Some? && body.score.Some?
  {
    (if body.applicantId.None? then ["applicant_id"] else []) + (if body.score.None? then ["score"] else [])
  }

  /** `create_evaluation`: `outcome` is the rows the insert returns, or its
      error. `inserted` is the row inserted, if the handler gets that far. */
  method CreateEvaluation(token: string, decode: string -> Option<Claims>, body: EvaluationCreate,
                          outcome: Result<seq<EvaluationRow>, string>)
    returns (r: Result<EvaluationRow, HttpError>, inserted: Option<NewEvaluation>)
    ensures RequireRole(CreateRoles, token, decode).Err? ==>
      r == Err(RequireRole(CreateRoles, token, decode).error) && inserted.None?
    ensures RequireRole(CreateRoles, token, decode).Ok? && MissingFields(body) != [] ==>
      r == Err(ValidationError(MissingFields(body))) && inserted.None?
    ensures inserted.Some? <==> RequireRole(CreateRoles, token, decode).Ok? && MissingFields(body) == []
    ensures inserted.Some? ==> (inserted.value ==
      NewEvaluation(body.applicantId.value, RequireRole(CreateRoles, token, decode).value.userId, Points(body.score.value), body.comments))
    ensures inserted.Some? ==> r == match outcome {
      case Err(e) => Err(HttpError(500, "Failed to create evaluation: " + e, []))
      case Ok(rows) => if rows == [] then Err(HttpError(500, "Failed to create evaluation: " + IndexOutOfRange, [])) else Ok(rows[0])
    }
  {
    var current := RequireRole(CreateRoles, token, decode);
    if current.Err? {
      return Err(current.error), None;
    }
    var missing := MissingFields(body);
    if missing != [] {
      return Err(ValidationError(missing)), None;
    }
    var user := current.value;
    var data := NewEvaluation(body.applicantId.value, user.userId, Points(body.score.value), body.comments);
    inserted := Some(data);
    match outcome {
      case Err(e) => r := Err(HttpError(500, "Failed to create evaluation: " + e, []));
      case Ok(rows) =>
        if rows == [] {
          r := Err(HttpError(500, "Failed to create evaluation: " + IndexOutOfRange, []));
        } else {
          r := Ok(rows[0]);
        }
    }
  }
}

=== FILE: files.dfy ===
/** A browser `File` as the frontend uses it: its name, its size in bytes
    and its MIME type; and a picked file as the upload forms keep it, with
    the id the form gave it. */
module Files {
  datatype File = File(name: string, size: nat, mime: string)

  datatype UploadedFile = UploadedFile(file: File, id: string)
}

=== FILE: interviewer_applicants.dfy ===
/** The interviewer's list of applicants for one posting
    (src/modules/interviewer/InterviewerApplicantsList.tsx): the posting
    lookup, the evaluation status given to each applicant, and the action
    offered on each row. The three table reads are parameters, each a
    rows-or-error result. Names are shown with `EvaluationForm.FullName`,
    the same rule as the evaluation form's. */
module InterviewerApplicants {
  import opened Wrappers
  import EvaluationForm

  /** A row of `applicants`. */
  datatype Applicant = Applicant(
    id: string, firstName: string, middleName: Option<string>, lastName: string, email: string,
    position: string, office: string, contactNumber: string, status: string, createdAt: string)

  /** The columns of `evaluations` the list looks at. A score is present
      when not null. */
  datatype EvaluationRow = EvaluationRow(
    applicantId: string, technicalScore: Option<int>, communicationScore: Option<int>,
    overallScore: Option<int>, recommendation: Option<string>)

  datatype JobPosting = JobPosting(title: string, office: string, department: string)

  datatype EvalStatus = Completed | InProgress | NotYetRated

  function StatusText(s: EvalStatus): string {
    match s
    case Completed => "Completed"
    case InProgress => "In Progress"
    case NotYetRated => "Not Yet Rated"
  }

  /** The name shown on a row. */
  function DisplayName(a: Applicant): string {
    EvaluationForm.FullName(EvaluationForm.Applicant(a.firstName, a.middleName, a.lastName))
  }

  /** JavaScript truthiness of a nullable number and a nullable text. */
  predicate TruthyScore(s: Option<int>) {
    s.Some? && s.value != 0
  }

  predicate TruthyText(s: Option<string>) {
    s.Some? && s.value != ""
  }

  /** `isComplete`: the three scores and the recommendation are all set. */
  function StatusOf(e: EvaluationRow): (s: EvalStatus)
    ensures s == Completed <==>
      TruthyScore(e.technicalScore) && TruthyScore(e.communicationScore) &&
      TruthyScore(e.overallScore) && TruthyText(e.recommendation)
    ensures s != NotYetRated
  {
    if TruthyScore(e.technicalScore) && TruthyScore(e.communicationScore) &&
       TruthyScore(e.overallScore) && TruthyText(e.recommendation)
    then Completed else InProgress
  }

  /** The index of the last evaluation of applicant `id`, if any. */
  function LastEvaluation(evals: seq<EvaluationRow>, id: string): (k: Option<nat>)
    ensures k.None? <==> forall j :: 0 <= j < |evals| ==> evals[j].applicantId != id
    ensures k.Some? ==>
      (k.value < |evals| && evals[k.value].applicantId == id &&
       forall j :: k.value < j < |evals| ==> evals[j].applicantId != id)
  {
    if |evals| == 0 then None
    else if evals[|evals| - 1].applicantId == id then Some(|evals| - 1)
    else
      var init := evals[..|evals| - 1];
      assert forall j :: 0 <= j < |init| ==> init[j] == evals[j];
      LastEvaluation(init, id)
  }

  /** The status an applicant should get: that of their last evaluation,
      or `Not Yet Rated` when they have none. */
  function EvaluationStatus(id: string, evals: seq<EvaluationRow>): (s: EvalStatus)
    ensures s == NotYetRated <==> forall j :: 0 <= j < |evals| ==> evals[j].applicantId != id
  {
    var k := LastEvaluation(evals, id);
    if k.None? then NotYetRated else StatusOf(evals[k.value])
  }

  /** The map `evaluationMap` holds after the `forEach` over `evals`. */
  function StatusMap(evals: seq<EvaluationRow>): map<string, EvalStatus> {
    if |evals| == 0 then map[]
    else
      var last := evals[|evals| - 1];
      StatusMap(evals[..|evals| - 1])[last.applicantId := StatusOf(last)]
  }

  /** The map has a key for every evaluated applicant, holding the status
      of that applicant's last evaluation. */
  lemma {:induction false} StatusMapIsLast(evals: seq<EvaluationRow>, id: string)
    ensures id in StatusMap(evals) <==> LastEvaluation(evals, id).Some?
    ensures id in StatusMap(evals) ==> StatusMap(evals)[id] == EvaluationStatus(id, evals)
  {
    if |evals| > 0 {
      var init := evals[..|evals| - 1];
      assert forall j :: 0 <= j < |init| ==> init[j] == evals[j];
      StatusMapIsLast(init, id);
    }
  }

  /** The `forEach` that fills `evaluationMap`: later rows overwrite
      earlier ones. */
  method BuildStatusMap(evals: seq<EvaluationRow>) returns (m: map<string, EvalStatus>)
    ensures m == StatusMap(evals)
    ensures forall id :: id in m <==> exists j :: 0 <= j < |evals| && evals[j].applicantId == id
    ensures forall id :: id in m ==> m[id] == EvaluationStatus(id, evals)
  {
    m := map[];
    var i := 0;
    while i < |evals|
      invariant 0 <= i <= |evals|
      invariant m == StatusMap(evals[..i])
    {
      assert evals[..i + 1][..i] == evals[..i];
      m := m[evals[i].applicantId := StatusOf(evals[i])];
      i := i + 1;
    }
    assert evals[..|evals|] == evals;
    forall id
      ensures id in m <==> exists j :: 0 <= j < |evals| && evals[j].applicantId == id
      ensures id in m ==> m[id] == EvaluationStatus(id, evals)
    {
      StatusMapIsLast(evals, id);
    }
  }

  /** An applicant with the status shown for them. */
  datatype ListedApplicant = ListedApplicant(applicant: Applicant, evaluationStatus: EvalStatus)

  /** The `map` that adds `evaluation_status`, with a missing key read as
      `Not Yet Rated`. */
  function WithStatus(rows: seq<Applicant>, m: map<string, EvalStatus>): (r: seq<ListedApplicant>)
    ensures |r| == |rows| && forall i :: 0 <= i < |r| ==> r[i].applicant == rows[i]
  {
    seq(|rows|, i requires 0 <= i < |rows| =>
      ListedApplicant(rows[i], if rows[i].id in m then m[rows[i].id] else NotYetRated))
  }

  /** Merging with the built map gives every applicant, in order, the
      status of their last evaluation. */
  lemma MergeGivesLastStatus(rows: seq<Applicant>, evals: seq<EvaluationRow>)
    ensures forall i :: 0 <= i < |rows| ==>
      WithStatus(rows, StatusMap(evals))[i].evaluationStatus == EvaluationStatus(rows[i].id, evals)
  {
    forall i | 0 <= i < |rows|
      ensures WithStatus(rows, StatusMap(evals))[i].evaluationStatus == EvaluationStatus(rows[i].id, evals)
    {
      StatusMapIsLast(evals, rows[i].id);
    }
  }

  /** The action cell of a row. */
  datatype RowAction = Evaluated | Evaluate(path: string)

  /** A completed evaluation shows the disabled `Evaluated` button; any
      other status links to the evaluation form. */
  function ActionOf(a: ListedApplicant): (act: RowAction)
    ensures act == Evaluated <==> a.evaluationStatus == Completed
    ensures act.Evaluate? ==> act.path == "/interviewer/evaluate/" + a.applicant.id
  {
    if a.evaluationStatus == Completed then Evaluated else Evaluate("/interviewer/evaluate/" + a.applicant.id)
  }

  /** A read error with its code and message. */
  datatype DbError = DbError(code: string, message: string)

  /** The single-row lookup's code for "no row". */
  const NoRowCode := "PGRST116"

  /** `err?.message || 'Failed to load applicants'`. */
  function ErrorText(e: DbError): (t: string)
    ensures t != ""
    ensures e.message != "" ==> t == e.message
  {
    if e.message != "" then e.message else "Failed to load applicants"
  }

  /** The posting lookup stops the load unless it found a row or found
      none. */
  predicate JobBlocks(job: Result<Option<JobPosting>, DbError>) {
    job.Err? && job.error.code != NoRowCode
  }

  /** The component's state. */
  class ApplicantsListPage {
    var applicants: seq<ListedApplicant>
    var jobDetails: Option<JobPosting>
    var loading: bool
    var error: Option<string>

    constructor ()
      ensures applicants == [] && jobDetails.None? && loading && error.None?
    {
      applicants := [];
      jobDetails := None;
      loading := true;
      error := None;
    }

    /** `fetchApplicantsAndJob`, given what the three reads return: the
        posting (none when no row matched), the applicants of the posting,
        and all evaluations. */
    method FetchApplicantsAndJob(
      job: Result<Option<JobPosting>, DbError>,
      rows: Result<seq<Applicant>, DbError>,
      evals: Result<seq<EvaluationRow>, DbError>)
      modifies this
      ensures !loading
      ensures JobBlocks(job) ==>
        error == Some(ErrorText(job.error)) && jobDetails == old(jobDetails) && applicants == old(applicants)
      ensures !JobBlocks(job) ==> jobDetails == (if job.Ok? then job.value else None)
      ensures !JobBlocks(job) && rows.Err? ==> error == Some(ErrorText(rows.error)) && applicants == old(applicants)
      ensures !JobBlocks(job) && rows.Ok? && evals.Err? ==>
        error == Some(ErrorText(evals.error)) && applicants == old(applicants)
      ensures !JobBlocks(job) && rows.Ok? && evals.Ok? ==>
        error.None? && |applicants| == |rows.value| &&
        forall i :: 0 <= i < |applicants| ==>
          applicants[i].applicant == rows.value[i] &&
          applicants[i].evaluationStatus == EvaluationStatus(rows.value[i].id, evals.value)
    {
      loading := true;
      error := None;
      if job.Err? && job.error.code != NoRowCode {
        error := Some(ErrorText(job.error));
        loading := false;
        return;
      }
      jobDetails := if job.Ok? then job.value else None;
      if rows.Err? {
        error := Some(ErrorText(rows.error));
        loading := false;
        return;
      }
      if evals.Err? {
        error := Some(ErrorText(evals.error));
        loading := false;
        return;
      }
      var m := BuildStatusMap(evals.value);
      applicants := WithStatus(rows.value, m);
      MergeGivesLastStatus(rows.value, evals.value);
      loading := false;
    }
  }
}

=== FILE: interviewer_login.dfy ===
/** The interviewer sign-in form (src/modules/interviewer/InterviewerLogin.tsx):
    the development accounts tried first, then the hosted sign-in and the
    interviewer role check. The service replies are parameters; a call to
    `onLogin` is returned as the email and name passed, with the path
    navigated to. */
module InterviewerLogin {
  import opened Wrappers
  import opened Seqs
  import opened SignIn

  datatype MockInterviewer = MockInterviewer(password: string, name: string)

  /** `MOCK_INTERVIEWERS`, its own keys in insertion order. */
  const MockInterviewers: seq<(string, MockInterviewer)> := [
    ("interviewer@cictrix.com", MockInterviewer("Interviewer@123", "John Smith")),
    ("interviewer1@cictrix.com", MockInterviewer("Interview@123", "Maria Garcia")),
    ("interviewer2@cictrix.com", MockInterviewer("Interview@123", "Carlos Santos"))]

  const DashboardPath := "/interviewer/dashboard"

  datatype LoginMessage = EnterCredentials | InvalidCredentials | NoInterviewerAccess | LoginFailed

  function MessageText(m: LoginMessage): string {
    match m
    case EnterCredentials => "Please enter your email and password."
    case InvalidCredentials => "Invalid email or password."
    case NoInterviewerAccess => "You do not have interviewer access. Please contact HR."
    case LoginFailed => "Login failed. Please try again."
  }

  /** The development account the typed email and password open, if any. */
  function MockHit(email: string, password: string): (r: Option<string>)
    ensures r.Some? <==> Lookup(MockInterviewers, email).Some? && Lookup(MockInterviewers, email).value.password == password
    ensures r.Some? ==> r.value == Lookup(MockInterviewers, email).value.name
  {
    var m := Lookup(MockInterviewers, email);
    if m.Some? && m.value.password == password then Some(m.value.name) else None
  }

  /** `roleData.name || 'Interviewer'`. */
  function DisplayName(name: Option<string>): (r: string)
    ensures r != ""
    ensures !Falsy(name) ==> r == name.value
  {
    if Falsy(name) then "Interviewer" else name.value
  }

  /** A call of `onLogin(email, name)`. */
  datatype SignedIn = SignedIn(email: string, name: string)

  /** Every development account opens with its own password only. */
  lemma MockAccounts(email: string, password: string)
    ensures MockHit("interviewer@cictrix.com", "Interviewer@123") == Some("John Smith")
    ensures MockHit("interviewer1@cictrix.com", "Interview@123") == Some("Maria Garcia")
    ensures MockHit("interviewer2@cictrix.com", "Interview@123") == Some("Carlos Santos")
    ensures MockHit(email, password).Some? ==> password == "Interviewer@123" || password == "Interview@123"
  {
  }

  /** The form's state. */
  class LoginForm {
    var email: string
    var password: string
    var loading: bool
    var error: string

    constructor ()
      ensures email == "" && password == "" && !loading && error == ""
    {
      email := "";
      password := "";
      loading := false;
      error := "";
    }

    /** `handleLogin`. `auth` and `role` are the replies the service would
        give, and `signOutThrows` whether its sign-out would throw;
        `backendCalled` says whether sign-in was asked of it, and
        `signedOut` whether the session was then ended again. */
    method HandleLogin(auth: AuthReply, role: RoleReply, signOutThrows: bool)
      returns (login: Option<SignedIn>, navigateTo: Option<string>, backendCalled: bool, signedOut: bool)
      modifies this
      ensures email == old(email) && password == old(password)
      ensures navigateTo.Some? <==> login.Some?
      ensures navigateTo.Some? ==> navigateTo.value == DashboardPath
      ensures login.Some? ==> error == ""
      ensures signedOut ==> backendCalled
      ensures email == "" || password == "" ==>
        error == MessageText(EnterCredentials) && login.None? && !backendCalled && loading == old(loading)
      ensures email != "" && password != "" ==> !loading
      ensures email != "" && password != "" && MockHit(email, password).Some? ==>
        login == Some(SignedIn(email, MockHit(email, password).value)) && !backendCalled
      ensures email != "" && password != "" && MockHit(email, password).None? ==> backendCalled
      ensures backendCalled && auth == AuthRejected ==>
        error == MessageText(InvalidCredentials) && login.None? && !signedOut
      ensures backendCalled && auth == AuthThrew ==> error == MessageText(LoginFailed) && login.None?
      ensures backendCalled && auth.AuthSignedIn? && role == RoleMissing ==>
        login.None? && signedOut &&
        error == MessageText(if signOutThrows then LoginFailed else NoInterviewerAccess)
      ensures backendCalled && auth.AuthSignedIn? && role == RoleThrew ==>
        error == MessageText(LoginFailed) && login.None? && !signedOut
      ensures backendCalled && auth.AuthSignedIn? && role.RoleRow? ==>
        login == Some(SignedIn(ResolvedEmail(auth.user, email), DisplayName(role.column)))
    {
      error := "";
      login, navigateTo, backendCalled, signedOut := None, None, false, false;
      if email == "" || password == "" {
        error := MessageText(EnterCredentials);
        return;
      }
      loading := true;
      var mock := MockHit(email, password);
      if mock.Some? {
        login, navigateTo := Some(SignedIn(email, mock.value)), Some(DashboardPath);
        loading := false;
        return;
      }
      backendCalled := true;
      match auth {
        case AuthRejected =>
          error := MessageText(InvalidCredentials);
        case AuthThrew =>
          error := MessageText(LoginFailed);
        case AuthSignedIn(user) =>
          match role {
            case RoleMissing =>
              error := MessageText(NoInterviewerAccess);
              signedOut := true;
              if signOutThrows {
                error := MessageText(LoginFailed);
              }
            case RoleThrew =>
              error := MessageText(LoginFailed);
            case RoleRow(name) =>
              login, navigateTo := Some(SignedIn(ResolvedEmail(user, email), DisplayName(name))), Some(DashboardPath);
          }
      }
      loading := false;
    }
  }
}

=== FILE: jwt.dfy ===
/** The Express back end's token helpers (backend/src/utils/jwt.ts): the
    Bearer header parser, the signing request `createToken` hands to the
    JWT library, and the error `verifyToken` maps every library failure to.
    The library itself (signature, expiry check) is a parameter: `decode`
    yields the payload of a token it accepts. */
module Jwt {
  import opened Wrappers
  import opened Strings

  /** The claims of an Express token. `role` is a plain string: `createToken`
      casts whatever it is given. */
  datatype TokenPayload = TokenPayload(userId: string, email: string, role: string)

  const BearerPrefix: string := "Bearer "
  const HeaderError: string := "Missing or invalid authorization header"
  const TokenError: string := "Invalid token"

  /** `config.JWT_EXPIRATION` when `JWT_EXPIRATION_HOURS` is unset. */
  const DefaultExpiration: string := "24"

  predicate StartsWith(s: string, prefix: string) {
    |prefix| <= |s| && s[..|prefix|] == prefix
  }

  /** `extractToken`: the header must be present and start with exactly
      `"Bearer "`; the token is what follows. */
  function ExtractToken(authHeader: Option<string>): (r: Result<string, string>)
    ensures r.Ok? <==> authHeader.Some? && StartsWith(authHeader.value, BearerPrefix)
    ensures r.Ok? ==> authHeader.value == BearerPrefix + r.value
    ensures r.Err? ==> r.error == HeaderError
  {
    if authHeader.None? || authHeader.value == [] || !StartsWith(authHeader.value, BearerPrefix) then
      Err(HeaderError)
    else
      var t := authHeader.value[7..];
      assert authHeader.value == BearerPrefix + t;
      Ok(t)
  }

  /** Prefixing a token with `"Bearer "` and extracting it gives it back. */
  lemma ExtractTokenRoundTrip(t: string)
    ensures ExtractToken(Some(BearerPrefix + t)) == Ok(t)
  {
    assert (BearerPrefix + t)[..7] == BearerPrefix;
  }

  /** The prefix test is case-sensitive and needs the space: a lower-case
      scheme, or a scheme glued to the token, is refused. */
  lemma ExtractTokenIsStrict(t: string)
    ensures ExtractToken(Some("bearer " + t)).Err?
    ensures |t| > 0 && t[0] != ' ' ==> ExtractToken(Some("Bearer" + t)).Err?
    ensures ExtractToken(None) == Err(HeaderError)
  {
    assert ("bearer " + t)[0] == 'b';
    if |t| > 0 && t[0] != ' ' {
      assert ("Bearer" + t)[6] == t[0];
    }
  }

  /** What `createToken` passes to `jwt.sign`: the payload, and `expiresIn`
      in seconds, `None` standing for the `NaN` an unparsable setting gives. */
  datatype SignRequest = SignRequest(payload: TokenPayload, expiresIn: Option<int>)

  /** `parseInt(expiration) * 3600`. */
  function ExpiresIn(expiration: string): (r: Option<int>)
    ensures r.Some? <==> ParseInt(expiration).Some?
    ensures r.Some? ==> r.value == ParseInt(expiration).value * 3600
  {
    match ParseInt(expiration)
    case Some(hours) => Some(hours * 3600)
    case None => None
  }

  /** `createToken(userId, email, role)` with the expiration setting
      `expiration`. */
  function CreateToken(userId: string, email: string, role: string, expiration: string): (r: SignRequest)
    ensures r.payload.userId == userId && r.payload.email == email && r.payload.role == role
    ensures r.expiresIn == ExpiresIn(expiration)
  {
    SignRequest(TokenPayload(userId, email, role), ExpiresIn(expiration))
  }

  /** A setting written as a decimal number of hours expires after that
      many hours. */
  lemma ExpiresInHours(hours: nat)
    ensures ExpiresIn(DecimalString(hours)) == Some(hours * 3600)
  {
    ParseIntDecimalString(hours);
  }

  /** The default setting gives a day. */
  lemma DefaultExpiresInADay()
    ensures ExpiresIn(DefaultExpiration) == Some(86400)
  {
    assert DecimalString(24) == DefaultExpiration by {
      assert DecimalString(2) == "2";
    }
    ExpiresInHours(24);
  }

  /** `verifyToken`: the decoded payload, or the one error `Invalid token`
      whatever the library's reason. */
  function VerifyToken(token: string, decode: string -> Option<TokenPayload>): (r: Result<TokenPayload, string>)
    ensures r.Ok? <==> decode(token).Some?
    ensures r.Ok? ==> r.value == decode(token).value
    ensures r.Err? ==> r.error == TokenError
  {
    match decode(token)
    case Some(p) => Ok(p)
    case None => Err(TokenError)
  }

  /** A token the library signed for a payload verifies to that payload,
      provided `decode` undoes `sign`. */
  lemma SignedTokenVerifies(p: TokenPayload, sign: TokenPayload -> string, decode: string -> Option<TokenPayload>)
    requires decode(sign(p)) == Some(p)
    ensures VerifyToken(sign(p), decode) == Ok(p)
    ensures ExtractToken(Some(BearerPrefix + sign(p))) == Ok(sign(p))
  {
    ExtractTokenRoundTrip(sign(p));
  }
}

=== FILE: lnd_dashboard.dfy ===
/** The learning-and-development dashboard
    (src/modules/admin/LNDDashboard.tsx): the two training counts shown on
    the cards, the search over the training list, and the dialog that adds
    or edits a training. The table write is a parameter (whether it
    failed); the list refresh that follows a write is not modelled. */
module LndDashboard {
  import opened Wrappers
  import opened Strings
  import opened Seqs

  datatype TrainingStatus = Scheduled | Completed | Cancelled

  /** A row of `trainings`; `date` is a `YYYY-MM-DD` text. */
  datatype Training = Training(
    id: int, title: string, date: string, speaker: string, venue: string,
    status: TrainingStatus, createdAt: string)

  datatype TrainingStats = TrainingStats(upcoming: nat, completed: nat)

  /** On or after `today` in text order, and not cancelled. */
  function UpcomingTest(today: string): Training -> bool {
    (t: Training) => !LexLess(t.date, today) && t.status != Cancelled
  }

  function CompletedTest(): Training -> bool {
    (t: Training) => t.status == Completed
  }

  function CancelledTest(): Training -> bool {
    (t: Training) => t.status == Cancelled
  }

  /** `calculateStats`, with `today` the date part of the current time. */
  function CalculateStats(trainings: seq<Training>, today: string): (s: TrainingStats)
    ensures s.upcoming == |Filter(trainings, UpcomingTest(today))| <= |trainings|
    ensures s.completed == |Filter(trainings, CompletedTest())| <= |trainings|
  {
    TrainingStats(Count(trainings, UpcomingTest(today)), Count(trainings, CompletedTest()))
  }

  /** As the days pass the upcoming count never grows. */
  lemma UpcomingShrinksOverTime(trainings: seq<Training>, earlier: string, later: string)
    requires !LexLess(later, earlier)
    ensures CalculateStats(trainings, later).upcoming <= CalculateStats(trainings, earlier).upcoming
  {
    forall i | 0 <= i < |trainings| && UpcomingTest(later)(trainings[i])
      ensures UpcomingTest(earlier)(trainings[i])
    {
      var d := trainings[i].date;
      if LexLess(d, earlier) {
        if earlier == later {
        } else {
          LexLessTotal(earlier, later);
          LexLessTransitive(d, earlier, later);
        }
      }
    }
    CountMono(trainings, UpcomingTest(later), UpcomingTest(earlier));
  }

  /** Upcoming trainings are never cancelled ones, and completed ones are
      never cancelled: each pair of counts fits in the list. */
  lemma CountsFit(trainings: seq<Training>, today: string)
    ensures CalculateStats(trainings, today).upcoming + Count(trainings, CancelledTest()) <= |trainings|
    ensures CalculateStats(trainings, today).completed + Count(trainings, CancelledTest()) <= |trainings|
  {
    CountDisjoint(trainings, UpcomingTest(today), CancelledTest());
    CountDisjoint(trainings, CompletedTest(), CancelledTest());
  }

  /** The lowercased title or speaker contains `query`. */
  function MatchesQuery(t: Training, query: string): bool {
    Includes(ToLower(t.title), query) || Includes(ToLower(t.speaker), query)
  }

  function QueryTest(query: string): Training -> bool {
    (t: Training) => MatchesQuery(t, query)
  }

  /** `filteredTrainings`: the trainings, in order, whose title or speaker
      contains the search text, ignoring case. */
  function FilteredTrainings(trainings: seq<Training>, searchTerm: string): (r: seq<Training>)
    ensures forall i :: 0 <= i < |r| ==> r[i] in trainings && MatchesQuery(r[i], ToLower(searchTerm))
    ensures forall i :: 0 <= i < |trainings| && MatchesQuery(trainings[i], ToLower(searchTerm)) ==> trainings[i] in r
    ensures IsSubseq(r, trainings)
    ensures forall t :: multiset(r)[t] == if MatchesQuery(t, ToLower(searchTerm)) then multiset(trainings)[t] else 0
  {
    FilterMultiset(trainings, QueryTest(ToLower(searchTerm)));
    Filter(trainings, QueryTest(ToLower(searchTerm)))
  }

  /** An empty search lists every training. */
  lemma EmptySearchKeepsAll(trainings: seq<Training>)
    ensures FilteredTrainings(trainings, "") == trainings
  {
    forall i | 0 <= i < |trainings|
      ensures QueryTest("")(trainings[i])
    {
      IncludesEmpty(ToLower(trainings[i].title));
    }
    FilterAll(trainings, QueryTest(""));
  }

  /** The case of the search text does not matter. */
  lemma SearchIgnoresCase(trainings: seq<Training>, searchTerm: string)
    ensures FilteredTrainings(trainings, ToLower(searchTerm)) == FilteredTrainings(trainings, searchTerm)
  {
    ToLowerIdempotent(searchTerm);
  }

  /** The dialog's fields. */
  datatype TrainingDraft = TrainingDraft(
    title: string, date: string, speaker: string, venue: string, status: TrainingStatus)

  const EmptyTraining := TrainingDraft("", "", "", "", Scheduled)

  /** A row with the dialog's columns written over it. */
  function ApplyDraft(t: Training, d: TrainingDraft): (r: Training)
    ensures r.id == t.id && r.createdAt == t.createdAt
    ensures r.title == d.title && r.date == d.date && r.speaker == d.speaker && r.venue == d.venue
    ensures r.status == d.status
  {
    t.(title := d.title, date := d.date, speaker := d.speaker, venue := d.venue, status := d.status)
  }

  /** The dialog filled from a row, as `handleEditTraining` fills it;
      saving it unchanged writes the row back as it was. */
  function DraftOf(t: Training): (d: TrainingDraft)
    ensures ApplyDraft(t, d) == t
  {
    TrainingDraft(t.title, t.date, t.speaker, t.venue, t.status)
  }

  predicate DraftComplete(d: TrainingDraft) {
    d.title != "" && d.date != "" && d.speaker != "" && d.venue != ""
  }

  /** The write a save sends: an update of the edited row, or an insert. */
  datatype TrainingWrite = UpdateTraining(id: int, draft: TrainingDraft) | InsertTraining(draft: TrainingDraft)

  datatype TrainingAlert = FillAllFields | SaveFailed

  function AlertText(a: TrainingAlert): string {
    match a
    case FillAllFields => "Please fill in all fields"
    case SaveFailed => "Failed to save training"
  }

  /** The component's state. */
  class TrainingsPage {
    var trainings: seq<Training>
    var showTrainingDialog: bool
    var editingTraining: Option<Training>
    var newTraining: TrainingDraft

    constructor ()
      ensures trainings == [] && !showTrainingDialog && editingTraining.None? && newTraining == EmptyTraining
    {
      trainings := [];
      showTrainingDialog := false;
      editingTraining := None;
      newTraining := EmptyTraining;
    }

    /** `handleAddTraining`. `saveFails` is the write's outcome; `write` is
        what was sent and `alert` the alert raised. */
    method HandleAddTraining(saveFails: bool) returns (write: Option<TrainingWrite>, alert: Option<TrainingAlert>)
      modifies this
      ensures !DraftComplete(old(newTraining)) ==>
        write.None? && alert == Some(FillAllFields) &&
        newTraining == old(newTraining) && editingTraining == old(editingTraining) &&
        showTrainingDialog == old(showTrainingDialog)
      ensures DraftComplete(old(newTraining)) && old(editingTraining).Some? ==>
        write == Some(UpdateTraining(old(editingTraining).value.id, old(newTraining)))
      ensures DraftComplete(old(newTraining)) && old(editingTraining).None? ==>
        write == Some(InsertTraining(old(newTraining)))
      ensures DraftComplete(old(newTraining)) && saveFails ==>
        alert == Some(SaveFailed) && newTraining == old(newTraining) &&
        editingTraining == old(editingTraining) && showTrainingDialog == old(showTrainingDialog)
      ensures DraftComplete(old(newTraining)) && !saveFails ==>
        alert.None? && !showTrainingDialog && editingTraining.None? && newTraining == EmptyTraining
      ensures trainings == old(trainings)
    {
      if newTraining.title == "" || newTraining.date == "" || newTraining.speaker == "" || newTraining.venue == "" {
        return None, Some(FillAllFields);
      }
      if editingTraining.Some? {
        write := Some(UpdateTraining(editingTraining.value.id, newTraining));
      } else {
        write := Some(InsertTraining(newTraining));
      }
      if saveFails {
        alert := Some(SaveFailed);
      } else {
        alert := None;
        showTrainingDialog := false;
        editingTraining := None;
        newTraining := EmptyTraining;
      }
    }

    /** `handleEditTraining(training)`: the dialog opens on the row. */
    method HandleEditTraining(training: Training)
      modifies this
      ensures editingTraining == Some(training) && showTrainingDialog
      ensures newTraining == DraftOf(training)
      ensures trainings == old(trainings)
    {
      editingTraining := Some(training);
      newTraining := TrainingDraft(training.title, training.date, training.speaker, training.venue, training.status);
      showTrainingDialog := true;
    }
  }
}

=== FILE: mock_database.dfy ===
/** The localStorage-backed mock database (src/lib/mockDatabase.ts): two
    append-only record lists, lookups over them, and a storage upload that
    only echoes its input. The stored JSON is modelled by the lists
    themselves; `crypto.randomUUID()` and the clock are parameters. */
module MockDatabase {
  import opened Wrappers
  import opened Seqs
  import opened Files

  /** The fields an applicant insert carries. */
  datatype ApplicantInsert = ApplicantInsert(
    name: string, address: string, contactNumber: string, email: string,
    position: string, itemNumber: string, office: string, isPwd: Option<bool>)

  /** A stored applicant: the insert's fields, a generated id and the two
      timestamps. */
  datatype MockApplicant = MockApplicant(data: ApplicantInsert, id: string, createdAt: string, updatedAt: string)

  /** The fields an attachment insert carries. */
  datatype AttachmentInsert = AttachmentInsert(
    applicantId: string, fileName: string, filePath: string, fileType: string, fileSize: int)

  datatype MockAttachment = MockAttachment(data: AttachmentInsert, id: string, createdAt: string)

  /** What `uploadFile` reports. */
  datatype UploadedFile = UploadedFile(bucket: string, path: string, name: string, size: nat, mime: string, uploadedAt: string)

  const NotFound: string := "Not found"

  predicate ApplicantIdsDistinct(xs: seq<MockApplicant>) {
    forall i, j :: 0 <= i < j < |xs| ==> xs[i].id != xs[j].id
  }

  /** Appending a record whose id is fresh keeps the ids distinct. */
  lemma AppendFreshApplicant(xs: seq<MockApplicant>, r: MockApplicant)
    requires ApplicantIdsDistinct(xs)
    requires forall i :: 0 <= i < |xs| ==> xs[i].id != r.id
    ensures ApplicantIdsDistinct(xs + [r])
  {
  }

  /** The index of the first applicant with the id, as `find` scans. */
  function FirstWithId(xs: seq<MockApplicant>, id: string): (k: nat)
    ensures k <= |xs|
    ensures k < |xs| ==> xs[k].id == id
    ensures forall i :: 0 <= i < k ==> xs[i].id != id
  {
    if |xs| == 0 then 0
    else if xs[0].id == id then 0
    else 1 + FirstWithId(xs[1..], id)
  }

  /** With distinct ids, the record found is the only one with the id. */
  lemma FirstWithIdUnique(xs: seq<MockApplicant>, id: string, j: int)
    requires ApplicantIdsDistinct(xs) && 0 <= j < |xs| && xs[j].id == id
    ensures FirstWithId(xs, id) == j
  {
  }

  class Store {
    var applicants: seq<MockApplicant>
    var attachments: seq<MockAttachment>

    /** An empty store: nothing saved under either key yet. */
    constructor ()
      ensures applicants == [] && attachments == []
    {
      applicants := [];
      attachments := [];
    }

    /** `insertApplicant(data)` with the generated `id`; `created` and
        `updated` are the two separate readings of the clock: one record
        is appended and returned with no error. */
    method InsertApplicant(data: ApplicantInsert, id: string, created: string, updated: string)
      returns (stored: MockApplicant, error: Option<string>)
      modifies this
      ensures stored == MockApplicant(data, id, created, updated) && error == None
      ensures applicants == old(applicants) + [stored]
      ensures attachments == old(attachments)
    {
      var list := applicants;
      stored := MockApplicant(data, id, created, updated);
      list := list + [stored];
      applicants := list;
      error := None;
    }

    /** `getApplicant(id)`: the first record with the id, or the error
        `Not found`. */
    method GetApplicant(id: string) returns (data: Option<MockApplicant>, error: Option<string>)
      ensures data.Some? <==> exists i :: 0 <= i < |applicants| && applicants[i].id == id
      ensures data.Some? ==> data.value == applicants[FirstWithId(applicants, id)]
      ensures error.Some? <==> data.None?
      ensures error.Some? ==> error.value == NotFound
    {
      var k := FirstWithId(applicants, id);
      if k < |applicants| {
        data, error := Some(applicants[k]), None;
      } else {
        data, error := None, Some(NotFound);
      }
    }

    /** `getApplicants()`: every record, in insertion order. */
    method GetApplicants() returns (data: seq<MockApplicant>, error: Option<string>)
      ensures data == applicants && error == None
    {
      data, error := applicants, None;
    }

    /** `insertAttachment(data)`. */
    method InsertAttachment(data: AttachmentInsert, id: string, now: string)
      returns (stored: MockAttachment, error: Option<string>)
      modifies this
      ensures stored == MockAttachment(data, id, now) && error == None
      ensures attachments == old(attachments) + [stored]
      ensures applicants == old(applicants)
    {
      var list := attachments;
      stored := MockAttachment(data, id, now);
      list := list + [stored];
      attachments := list;
      error := None;
    }

    /** `getAttachmentsByApplicant(applicantId)`: exactly the attachments of
        that applicant, in stored order. */
    method GetAttachmentsByApplicant(applicantId: string) returns (data: seq<MockAttachment>, error: Option<string>)
      ensures error == None
      ensures IsSubseq(data, attachments)
      ensures forall i :: 0 <= i < |data| ==> data[i].data.applicantId == applicantId && data[i] in attachments
      ensures forall i :: 0 <= i < |attachments| && attachments[i].data.applicantId == applicantId ==> attachments[i] in data
      ensures forall a :: multiset(data)[a] == if a.data.applicantId == applicantId then multiset(attachments)[a] else 0
    {
      FilterMultiset(attachments, (a: MockAttachment) => a.data.applicantId == applicantId);
      data := Filter(attachments, (a: MockAttachment) => a.data.applicantId == applicantId);
      error := None;
    }

    /** `uploadFile(bucket, path, file)` at time `now`: nothing is stored. */
    method UploadFile(bucket: string, path: string, file: File, now: string)
      returns (data: UploadedFile, error: Option<string>)
      ensures data.bucket == bucket && data.path == path && data.uploadedAt == now
      ensures data.name == file.name && data.size == file.size && data.mime == file.mime
      ensures error == None
    {
      data := UploadedFile.UploadedFile(bucket, path, file.name, file.size, file.mime, now);
      error := None;
    }
  }

  /** An applicant inserted with a fresh id is the one `getApplicant` finds
      by that id afterwards. */
  lemma InsertedApplicantIsFound(before: seq<MockApplicant>, r: MockApplicant)
    requires ApplicantIdsDistinct(before)
    requires forall i :: 0 <= i < |before| ==> before[i].id != r.id
    ensures FirstWithId(before + [r], r.id) == |before|
    ensures ApplicantIdsDistinct(before + [r])
  {
    AppendFreshApplicant(before, r);
    FirstWithIdUnique(before + [r], r.id, |before|);
  }
}

=== FILE: navigation.dfy ===
/** Role-based navigation (src/utils/navigation.ts): the fixed table of menu
    items with the roles that may see each, the per-role menu, path access,
    the landing path of each role and the sidebar grouping. */
module Navigation {
  import opened Wrappers
  import opened Seqs
  import opened AuthContext

  /** A menu entry (`label`, `path`, `roles`); its icon and description are
      display only. */
  datatype NavItem = NavItem(name: string, path: string, roles: seq<UserRole>)

  const NavigationItems: seq<NavItem> := [
    NavItem("Dashboard", "/dashboard", [Admin, RSP, PM, LND, RATER, INTERVIEWER]),
    NavItem("Applicants", "/applicants", [Admin, RSP, INTERVIEWER]),
    NavItem("Recruitment", "/recruitment", [Admin, RSP]),
    NavItem("Project Planning", "/planning", [Admin, PM]),
    NavItem("Resource Allocation", "/resources", [Admin, PM]),
    NavItem("Training Programs", "/training", [Admin, LND]),
    NavItem("Employee Development", "/development", [Admin, LND]),
    NavItem("Evaluations", "/evaluations", [Admin, RATER, INTERVIEWER]),
    NavItem("Interview Schedule", "/interviews", [Admin, INTERVIEWER, RSP]),
    NavItem("User Management", "/admin/users", [Admin]),
    NavItem("Reports", "/reports", [Admin]),
    NavItem("Settings", "/settings", [Admin])
  ]

  /** `getNavigationForRole` over a table of items: nothing without a role,
      the whole table for Admin, otherwise the items listing the role, in
      table order. */
  function MenuFor(items: seq<NavItem>, role: Option<UserRole>): (r: seq<NavItem>)
    ensures role.None? ==> r == []
    ensures role == Some(Admin) ==> r == items
    ensures IsSubseq(r, items)
    ensures forall i :: 0 <= i < |r| ==> r[i] in items
    ensures role.Some? && role.value != Admin ==> forall i :: 0 <= i < |items| ==>
      (items[i] in r <==> role.value in items[i].roles)
  {
    match role
    case None => []
    case Some(Admin) =>
      SubseqRefl(items);
      items
    case Some(ro) =>
      Filter(items, (item: NavItem) => ro in item.roles)
  }

  /** `getNavigationForRole`. */
  function NavigationForRole(role: Option<UserRole>): seq<NavItem> {
    MenuFor(NavigationItems, role)
  }

  /** Every item lists Admin. */
  lemma AdminListedEverywhere()
    ensures forall i :: 0 <= i < |NavigationItems| ==> Admin in NavigationItems[i].roles
  {
  }

  /** No two items share a path. */
  lemma PathsAndLabelsDistinct()
    ensures PathsDistinct(NavigationItems)
  {
  }

  /** The Admin shortcut gives what plain filtering by Admin would give. */
  lemma AdminShortcutAgreesWithFilter()
    ensures NavigationForRole(Some(Admin)) == Filter(NavigationItems, (item: NavItem) => Admin in item.roles)
  {
    AdminListedEverywhere();
    FilterAll(NavigationItems, (item: NavItem) => Admin in item.roles);
  }

  /** APPLICANT is listed nowhere, so its menu is empty. */
  lemma ApplicantSeesNothing()
    ensures NavigationForRole(Some(APPLICANT)) == []
  {
    FilterNone(NavigationItems, (item: NavItem) => APPLICANT in item.roles);
  }

  /** `navigationItems.find(item => item.path === path)`. */
  function FindByPath(items: seq<NavItem>, path: string): (r: Option<NavItem>)
    ensures r.None? <==> forall i :: 0 <= i < |items| ==> items[i].path != path
    ensures r.Some? ==> exists i :: 0 <= i < |items| && items[i] == r.value && items[i].path == path
                          && forall j :: 0 <= j < i ==> items[j].path != path
  {
    if |items| == 0 then None
    else if items[0].path == path then
      assert items[0] == items[0];
      Some(items[0])
    else
      var r := FindByPath(items[1..], path);
      assert forall i :: 1 <= i < |items| ==> items[i] == items[1..][i - 1];
      r
  }

  /** No two items of `items` share a path. */
  predicate PathsDistinct(items: seq<NavItem>) {
    forall i, j :: 0 <= i < j < |items| ==> items[i].path != items[j].path
  }

  lemma FindByPathAt(items: seq<NavItem>, path: string, k: int)
    requires PathsDistinct(items) && 0 <= k < |items| && items[k].path == path
    ensures FindByPath(items, path) == Some(items[k])
  {
  }

  /** `canAccessPath` over a table of items. */
  function CanAccessIn(items: seq<NavItem>, path: string, role: Option<UserRole>): bool {
    match role
    case None => false
    case Some(Admin) => true
    case Some(ro) =>
      match FindByPath(items, path)
      case None => false
      case Some(item) => ro in item.roles
  }

  /** A null role is refused and Admin may open any path, listed or not. In
      a table with distinct paths any other role may open a path exactly
      when the item with that path lists the role; an unlisted path is
      refused. */
  lemma {:induction false} CanAccessInSpec(items: seq<NavItem>, path: string, role: Option<UserRole>)
    requires PathsDistinct(items)
    ensures role.None? ==> !CanAccessIn(items, path, role)
    ensures role == Some(Admin) ==> CanAccessIn(items, path, role)
    ensures role.Some? && role.value != Admin ==>
      (CanAccessIn(items, path, role) <==>
        exists i :: 0 <= i < |items| && items[i].path == path && role.value in items[i].roles)
  {
    if role.Some? && role.value != Admin {
      if i :| 0 <= i < |items| && items[i].path == path && role.value in items[i].roles {
        FindByPathAt(items, path, i);
      }
    }
  }

  /** In a table with distinct paths, a role other than Admin may open a
      path exactly when its menu has an item with that path. */
  lemma CanAccessInMatchesMenu(items: seq<NavItem>, path: string, role: UserRole)
    requires PathsDistinct(items) && role != Admin
    ensures CanAccessIn(items, path, Some(role)) <==>
      exists i :: 0 <= i < |MenuFor(items, Some(role))| && MenuFor(items, Some(role))[i].path == path
  {
    CanAccessInSpec(items, path, Some(role));
    var menu := MenuFor(items, Some(role));
    if CanAccessIn(items, path, Some(role)) {
      var i :| 0 <= i < |items| && items[i].path == path && role in items[i].roles;
      assert items[i] in menu;
      var k :| 0 <= k < |menu| && menu[k] == items[i];
      assert menu[k].path == path;
    }
    if k :| 0 <= k < |menu| && menu[k].path == path {
      assert menu[k] in items;
      var i :| 0 <= i < |items| && items[i] == menu[k];
      assert items[i] in menu;
      assert items[i].path == path && role in items[i].roles;
    }
  }

  /** `canAccessPath`. */
  function CanAccessPath(path: string, role: Option<UserRole>): bool {
    CanAccessIn(NavigationItems, path, role)
  }

  /** `canAccessPath` on the application's table: see `CanAccessInSpec`. */
  lemma CanAccessPathSpec(path: string, role: Option<UserRole>)
    ensures role.None? ==> !CanAccessPath(path, role)
    ensures role == Some(Admin) ==> CanAccessPath(path, role)
    ensures role.Some? && role.value != Admin ==>
      (CanAccessPath(path, role) <==>
        exists i :: 0 <= i < |NavigationItems| && NavigationItems[i].path == path && role.value in NavigationItems[i].roles)
  {
    PathsAndLabelsDistinct();
    CanAccessInSpec(NavigationItems, path, role);
  }

  /** `getDefaultPathForRole`; the source's `default` branch is unreachable
      for the closed role set. */
  function DefaultPathForRole(role: UserRole): string {
    match role
    case Admin => "/admin/dashboard"
    case RSP => "/recruitment"
    case PM => "/planning"
    case LND => "/training"
    case RATER => "/evaluations"
    case INTERVIEWER => "/evaluations"
    case APPLICANT => "/applicant/dashboard"
  }

  /** Every staff role lands on a path it may open. */
  lemma DefaultPathAccessible(role: UserRole)
    requires role != APPLICANT
    ensures CanAccessPath(DefaultPathForRole(role), Some(role))
  {
    match role
    case Admin =>
    case RSP => AccessibleThroughItem("/recruitment", RSP, 2);
    case PM => AccessibleThroughItem("/planning", PM, 3);
    case LND => AccessibleThroughItem("/training", LND, 5);
    case RATER => AccessibleThroughItem("/evaluations", RATER, 7);
    case INTERVIEWER => AccessibleThroughItem("/evaluations", INTERVIEWER, 7);
  }

  lemma AccessibleThroughItem(path: string, role: UserRole, k: int)
    requires 0 <= k < |NavigationItems| && NavigationItems[k].path == path && role in NavigationItems[k].roles
    ensures CanAccessPath(path, Some(role))
  {
    PathsAndLabelsDistinct();
    FindByPathAt(NavigationItems, path, k);
  }

  /** The applicant's landing path is outside the table, so
      `canAccessPath` refuses it to the applicant. */
  lemma ApplicantLandingNotInTable()
    ensures !CanAccessPath(DefaultPathForRole(APPLICANT), Some(APPLICANT))
  {
    assert forall i :: 0 <= i < |NavigationItems| ==> |NavigationItems[i].path| < 20;
  }

  /** The sidebar sections of `getGroupedNavigation`. */
  datatype Section = Main | Recruiting | Planning | Learning | Evaluation | Administration

  /** The section whose label list contains `label`, if any. */
  function SectionOf(name: string): Option<Section> {
    if name in ["Dashboard"] then Some(Main)
    else if name in ["Applicants", "Recruitment", "Interview Schedule"] then Some(Recruiting)
    else if name in ["Project Planning", "Resource Allocation"] then Some(Planning)
    else if name in ["Training Programs", "Employee Development"] then Some(Learning)
    else if name in ["Evaluations"] then Some(Evaluation)
    else if name in ["User Management", "Reports", "Settings"] then Some(Administration)
    else None
  }

  datatype GroupedNavigation = GroupedNavigation(
    main: seq<NavItem>, recruitment: seq<NavItem>, planning: seq<NavItem>,
    learning: seq<NavItem>, evaluation: seq<NavItem>, admin: seq<NavItem>)
  {
    function Section(s: Section): seq<NavItem> {
      match s
      case Main => main
      case Recruiting => recruitment
      case Planning => planning
      case Learning => learning
      case Evaluation => evaluation
      case Administration => admin
    }
  }

  /** The items of one section, in menu order. */
  function SectionItems(items: seq<NavItem>, s: Section): (r: seq<NavItem>)
    ensures IsSubseq(r, items)
    ensures forall i :: 0 <= i < |r| ==> SectionOf(r[i].name) == Some(s)
    ensures forall i :: 0 <= i < |items| ==> (items[i] in r <==> SectionOf(items[i].name) == Some(s))
  {
    Filter(items, (item: NavItem) => SectionOf(item.name) == Some(s))
  }

  /** The six sections of a menu. */
  function GroupedFrom(items: seq<NavItem>): GroupedNavigation {
    GroupedNavigation(
      SectionItems(items, Main), SectionItems(items, Recruiting), SectionItems(items, Planning),
      SectionItems(items, Learning), SectionItems(items, Evaluation), SectionItems(items, Administration))
  }

  /** `getGroupedNavigation`. */
  function GroupedNavigationFor(role: Option<UserRole>): GroupedNavigation {
    GroupedFrom(NavigationForRole(role))
  }

  lemma GroupedSection(items: seq<NavItem>, s: Section)
    ensures GroupedFrom(items).Section(s) == SectionItems(items, s)
  {
  }

  /** When every item has a section, the six sections are order-preserving
      pieces of the menu that are pairwise disjoint and together hold every
      item. */
  lemma {:induction false} SectionsPartition(items: seq<NavItem>)
    requires forall i :: 0 <= i < |items| ==> SectionOf(items[i].name).Some?
    ensures forall s: Section :: IsSubseq(SectionItems(items, s), items)
    ensures forall s: Section, t: Section, x ::
      x in SectionItems(items, s) && x in SectionItems(items, t) ==> s == t
    ensures forall i :: 0 <= i < |items| ==> items[i] in SectionItems(items, SectionOf(items[i].name).value)
  {
    forall s: Section, t: Section, x | x in SectionItems(items, s) && x in SectionItems(items, t)
      ensures s == t
    {
      var i :| 0 <= i < |SectionItems(items, s)| && SectionItems(items, s)[i] == x;
      var j :| 0 <= j < |SectionItems(items, t)| && SectionItems(items, t)[j] == x;
    }
  }

  /** Every table item belongs to a section. */
  lemma EveryItemHasASection()
    ensures forall i :: 0 <= i < |NavigationItems| ==> SectionOf(NavigationItems[i].name).Some?
  {
  }

  /** Every item of every role's menu belongs to a section. */
  lemma MenuItemsHaveSections(role: Option<UserRole>)
    ensures forall i :: 0 <= i < |NavigationForRole(role)| ==> SectionOf(NavigationForRole(role)[i].name).Some?
  {
    var menu := NavigationForRole(role);
    EveryItemHasASection();
    forall i | 0 <= i < |menu|
      ensures SectionOf(menu[i].name).Some?
    {
      var k :| 0 <= k < |NavigationItems| && NavigationItems[k] == menu[i];
    }
  }

  /** For every role, `getGroupedNavigation` splits the role's menu into six
      disjoint, order-preserving sections that together hold all of it. */
  lemma GroupsPartitionMenu(role: Option<UserRole>)
    ensures var g := GroupedNavigationFor(role); var menu := NavigationForRole(role);
      (forall s: Section :: IsSubseq(g.Section(s), menu))
      && (forall s: Section, t: Section, x :: x in g.Section(s) && x in g.Section(t) ==> s == t)
      && (forall i :: 0 <= i < |menu| ==> SectionOf(menu[i].name).Some?)
      && (forall i, s: Section :: 0 <= i < |menu| && SectionOf(menu[i].name) == Some(s) ==> menu[i] in g.Section(s))
  {
    var menu := NavigationForRole(role);
    MenuItemsHaveSections(role);
    SectionsPartition(menu);
    forall s: Section {
      GroupedSection(menu, s);
    }
  }
}

=== FILE: pm_dashboard.dfy ===
/** The performance-management dashboard
    (src/modules/admin/PMDashboard.tsx): the active-cycle card, the
    pending-review card, and the dialog that adds or edits an evaluation
    cycle. The table write is a parameter (whether it failed); the list
    refresh that follows a write is not modelled. */
module PmDashboard {
  import opened Wrappers

  datatype CycleStatus = Active | Completed | Planned

  /** A row of `performance_cycles`. */
  datatype EvaluationCycle = EvaluationCycle(
    id: int, title: string, startDate: string, endDate: string, status: CycleStatus, createdAt: string)

  datatype PerformanceStats = PerformanceStats(activeCycle: string, pendingReviews: nat)

  /** The card's placeholder count. */
  const PendingReviews: nat := 12

  /** `cycles.find(c => c.status === 'Active')`, as an index. */
  function FirstActive(cycles: seq<EvaluationCycle>): (k: Option<nat>)
    ensures k.None? <==> forall j :: 0 <= j < |cycles| ==> cycles[j].status != Active
    ensures k.Some? ==>
      (k.value < |cycles| && cycles[k.value].status == Active &&
       forall j :: 0 <= j < k.value ==> cycles[j].status != Active)
  {
    if |cycles| == 0 then None
    else if cycles[0].status == Active then Some(0)
    else
      var rest := FirstActive(cycles[1..]);
      assert forall j :: 1 <= j < |cycles| ==> cycles[j] == cycles[1..][j - 1];
      if rest.None? then None else Some(rest.value + 1)
  }

  /** `activeCycle?.title || 'None'`: the title of the first active cycle,
      with a missing cycle or an empty title shown as `None`. */
  function ActiveCycle(cycles: seq<EvaluationCycle>): (r: string)
    ensures r != ""
    ensures (forall j :: 0 <= j < |cycles| ==> cycles[j].status != Active) ==> r == "None"
    ensures forall k ::
      (0 <= k < |cycles| && cycles[k].status == Active && (forall j :: 0 <= j < k ==> cycles[j].status != Active)) ==>
      (r == if cycles[k].title == "" then "None" else cycles[k].title)
  {
    var k := FirstActive(cycles);
    if k.None? || cycles[k.value].title == "" then "None" else cycles[k.value].title
  }

  /** `calculateStats`. */
  function CalculateStats(cycles: seq<EvaluationCycle>): (s: PerformanceStats)
    ensures s.pendingReviews == 12
    ensures s.activeCycle == ActiveCycle(cycles)
  {
    PerformanceStats(ActiveCycle(cycles), PendingReviews)
  }

  /** Cycles listed after an active one do not change the card. */
  lemma LaterCyclesIgnored(cycles: seq<EvaluationCycle>, more: seq<EvaluationCycle>, k: nat)
    requires k < |cycles| && cycles[k].status == Active
    ensures ActiveCycle(cycles + more) == ActiveCycle(cycles)
  {
    var f := FirstActive(cycles);
    var all := cycles + more;
    assert forall j :: 0 <= j < |cycles| ==> all[j] == cycles[j];
    assert f.Some?;
    assert all[f.value].status == Active && forall j :: 0 <= j < f.value ==> all[j].status != Active;
  }

  /** The dialog's fields. */
  datatype CycleDraft = CycleDraft(title: string, startDate: string, endDate: string, status: CycleStatus)

  const EmptyCycle := CycleDraft("", "", "", Planned)

  /** A row with the dialog's columns written over it. */
  function ApplyDraft(c: EvaluationCycle, d: CycleDraft): (r: EvaluationCycle)
    ensures r.id == c.id && r.createdAt == c.createdAt
    ensures r.title == d.title && r.startDate == d.startDate && r.endDate == d.endDate && r.status == d.status
  {
    c.(title := d.title, startDate := d.startDate, endDate := d.endDate, status := d.status)
  }

  /** The dialog filled from a row, as `handleEditCycle` fills it; saving
      it unchanged writes the row back as it was. */
  function DraftOf(c: EvaluationCycle): (d: CycleDraft)
    ensures ApplyDraft(c, d) == c
  {
    CycleDraft(c.title, c.startDate, c.endDate, c.status)
  }

  predicate DraftComplete(d: CycleDraft) {
    d.title != "" && d.startDate != "" && d.endDate != ""
  }

  /** The write a save sends: an update of the edited row, or an insert. */
  datatype CycleWrite = UpdateCycle(id: int, draft: CycleDraft) | InsertCycle(draft: CycleDraft)

  datatype CycleAlert = FillAllFields | SaveFailed

  function AlertText(a: CycleAlert): string {
    match a
    case FillAllFields => "Please fill in all fields"
    case SaveFailed => "Failed to save evaluation cycle"
  }

  /** The component's state. */
  class CyclesPage {
    var cycles: seq<EvaluationCycle>
    var showCycleDialog: bool
    var editingCycle: Option<EvaluationCycle>
    var newCycle: CycleDraft

    constructor ()
      ensures cycles == [] && !showCycleDialog && editingCycle.None? && newCycle == EmptyCycle
    {
      cycles := [];
      showCycleDialog := false;
      editingCycle := None;
      newCycle := EmptyCycle;
    }

    /** `handleAddCycle`. `saveFails` is the write's outcome; `write` is
        what was sent and `alert` the alert raised. */
    method HandleAddCycle(saveFails: bool) returns (write: Option<CycleWrite>, alert: Option<CycleAlert>)
      modifies this
      ensures !DraftComplete(old(newCycle)) ==>
        write.None? && alert == Some(FillAllFields) &&
        newCycle == old(newCycle) && editingCycle == old(editingCycle) && showCycleDialog == old(showCycleDialog)
      ensures DraftComplete(old(newCycle)) && old(editingCycle).Some? ==>
        write == Some(UpdateCycle(old(editingCycle).value.id, old(newCycle)))
      ensures DraftComplete(old(newCycle)) && old(editingCycle).None? ==>
        write == Some(InsertCycle(old(newCycle)))
      ensures DraftComplete(old(newCycle)) && saveFails ==>
        alert == Some(SaveFailed) && newCycle == old(newCycle) &&
        editingCycle == old(editingCycle) && showCycleDialog == old(showCycleDialog)
      ensures DraftComplete(old(newCycle)) && !saveFails ==>
        alert.None? && !showCycleDialog && editingCycle.None? && newCycle == EmptyCycle
      ensures cycles == old(cycles)
    {
      if newCycle.title == "" || newCycle.startDate == "" || newCycle.endDate == "" {
        return None, Some(FillAllFields);
      }
      if editingCycle.Some? {
        write := Some(UpdateCycle(editingCycle.value.id, newCycle));
      } else {
        write := Some(InsertCycle(newCycle));
      }
      if saveFails {
        alert := Some(SaveFailed);
      } else {
        alert := None;
        showCycleDialog := false;
        editingCycle := None;
        newCycle := EmptyCycle;
      }
    }

    /** `handleEditCycle(cycle)`: the dialog opens on the row. */
    method HandleEditCycle(cycle: EvaluationCycle)
      modifies this
      ensures editingCycle == Some(cycle) && showCycleDialog
      ensures newCycle == DraftOf(cycle)
      ensures cycles == old(cycles)
    {
      editingCycle := Some(cycle);
      newCycle := CycleDraft(cycle.title, cycle.startDate, cycle.endDate, cycle.status);
      showCycleDialog := true;
    }
  }
}

=== FILE: positions.dfy ===
/** The shared position and department tables (src/constants/positions.ts):
    the positions, the departments, which department each position belongs
    to, the salary grades, and the select options built from each list. */
module Positions {
  import opened Strings

  /** An entry of a select box; `caption` is its `label`. */
  datatype SelectOption = SelectOption(value: string, caption: string)

  const Positions: seq<string> := [
    "Administrative Officer", "Human Resource Specialist", "IT Specialist", "Accountant",
    "Budget Officer", "Legal Officer", "Project Coordinator", "Data Analyst"]

  const Departments: seq<string> := [
    "Human Resources", "Finance", "Information Technology", "Operations",
    "Sales & Marketing", "Customer Support", "Legal", "Product Management"]

  const PositionToDepartment: map<string, string> := map[
    "Administrative Officer" := "Operations",
    "Human Resource Specialist" := "Human Resources",
    "IT Specialist" := "Information Technology",
    "Accountant" := "Finance",
    "Budget Officer" := "Finance",
    "Legal Officer" := "Legal",
    "Project Coordinator" := "Operations",
    "Data Analyst" := "Product Management"]

  const SalaryGrades: seq<string> := ["SG-1", "SG-2", "SG-3", "SG-4", "SG-5", "SG-6", "SG-7", "SG-8", "SG-9", "SG-10"]

  /** `xs.map(x => ({ value: x, label: x }))`. */
  function Options(xs: seq<string>): (r: seq<SelectOption>)
    ensures |r| == |xs|
    ensures forall k :: 0 <= k < |r| ==> r[k].value == xs[k] && r[k].caption == xs[k]
  {
    seq(|xs|, k requires 0 <= k < |xs| => SelectOption(xs[k], xs[k]))
  }

  const PositionOptions: seq<SelectOption> := Options(Positions)
  const DepartmentOptions: seq<SelectOption> := Options(Departments)
  const SalaryGradeOptions: seq<SelectOption> := Options(SalaryGrades)

  /** No value occurs twice. */
  predicate Distinct(xs: seq<string>) {
    forall i, j :: 0 <= i < j < |xs| ==> xs[i] != xs[j]
  }

  /** The mapped positions are exactly the listed positions. */
  lemma MapCoversPositions()
    ensures forall p :: p in PositionToDepartment <==> p in Positions
  {
  }

  /** Every position maps to a listed department. */
  lemma MapIntoDepartments()
    ensures forall p :: p in PositionToDepartment ==> PositionToDepartment[p] in Departments
  {
  }

  /** Neither list repeats an entry. */
  lemma ListsDistinct()
    ensures Distinct(Positions) && Distinct(Departments)
  {
  }

  /** The grades are `SG-1` to `SG-10` in order. */
  lemma SalaryGradesInOrder()
    ensures |SalaryGrades| == 10
    ensures forall k :: 0 <= k < 10 ==> SalaryGrades[k] == "SG-" + DecimalString(k + 1)
  {
    assert DecimalString(10) == "10" by {
      assert DecimalString(1) == "1";
    }
  }
}

=== FILE: protected_route.dfy ===
/** The route guard (src/components/ProtectedRoute.tsx): what a protected
    route shows for a given authentication state. */
module ProtectedRoute {
  import opened Wrappers
  import opened AuthContext

  /** What the guard renders. */
  datatype Outcome =
    | Spinner                    // the loading view
    | Redirect(to: string)       // `<Navigate to=... replace />`
    | AccessDenied               // the "Access Denied" page
    | Children                   // the protected content

  /** The guard's decision. `allowedRoles` is `None` when the prop is
      absent; `requireAuth` and `redirectTo` take the source's defaults. */
  function Guard(loading: bool, user: Option<AuthUser>, profile: Option<UserProfile>,
                 allowedRoles: Option<seq<UserRole>>,
                 requireAuth: bool := true, redirectTo: string := "/login"): (r: Outcome)
    ensures loading ==> r == Spinner
    ensures !loading && requireAuth && user.None? ==> r == Redirect(redirectTo)
    ensures r == Children <==>
      !loading && (!requireAuth || user.Some?)
      && (allowedRoles.None? || |allowedRoles.value| == 0 || HasRole(profile, allowedRoles.value))
    ensures r == Redirect("/unauthorized") && redirectTo != "/unauthorized" ==>
      profile.None? && allowedRoles.Some? && |allowedRoles.value| > 0
    ensures r == AccessDenied <==>
      !loading && (!requireAuth || user.Some?) && allowedRoles.Some? && |allowedRoles.value| > 0
      && profile.Some? && profile.value.role !in allowedRoles.value
  {
    if loading then Spinner
    else if requireAuth && user.None? then Redirect(redirectTo)
    else if allowedRoles.Some? && |allowedRoles.value| > 0 then
      if profile.None? then Redirect("/unauthorized")
      else if profile.value.role !in allowedRoles.value then AccessDenied
      else Children
    else Children
  }

  /** Admin has no implicit access: a route for other roles denies it. */
  lemma AdminGetsNoSuperset(user: AuthUser, profile: UserProfile, allowed: seq<UserRole>)
    requires profile.role == Admin && Admin !in allowed && |allowed| > 0
    ensures Guard(false, Some(user), Some(profile), Some(allowed)) == AccessDenied
  {
  }

  /** An authenticated user passes a route without role list whatever the
      profile, and a signed-out visitor is sent to '/login'. */
  lemma DefaultsOfTheGuard(user: AuthUser, profile: Option<UserProfile>)
    ensures Guard(false, Some(user), profile, None) == Children
    ensures Guard(false, Some(user), profile, Some([])) == Children
    ensures Guard(false, None, profile, None) == Redirect("/login")
  {
  }
}

=== FILE: rater_management.dfy ===
/** The rater administration page
    (src/modules/admin/RaterManagementPage.tsx): creating a rater from the
    dialog, editing one in place, and switching a rater on or off. The
    table writes are parameters (the error code of an insert, whether an
    update failed); the list refresh that follows a write is not
    modelled. */
module RaterManagement {
  import opened Wrappers

  /** A row of `raters`. */
  datatype Rater = Rater(
    id: int, name: string, email: string, department: string, isActive: bool, createdAt: string)

  const Departments: seq<string> := ["HR", "Finance", "IT", "Operations", "Marketing", "Sales", "Legal", "Admin"]

  /** The create dialog's fields, which are also the inserted row. */
  datatype RaterForm = RaterForm(name: string, email: string, department: string, isActive: bool)

  const EmptyForm := RaterForm("", "", "", true)

  predicate FormComplete(f: RaterForm) {
    f.name != "" && f.email != "" && f.department != ""
  }

  /** The unique-violation code of the database. */
  const DuplicateKeyCode := "23505"

  datatype RaterAlert = FillRequiredFields | AlreadyExists | CreateFailed | UpdateFailed | StatusFailed

  function AlertText(a: RaterAlert): string {
    match a
    case FillRequiredFields => "Please fill in all required fields"
    case AlreadyExists => "A rater with this email already exists"
    case CreateFailed => "Failed to create rater"
    case UpdateFailed => "Failed to update rater"
    case StatusFailed => "Failed to update rater status"
  }

  /** The columns `handleUpdateRater` sends. */
  datatype RaterUpdate = RaterUpdate(name: string, department: string, isActive: bool)

  /** The update built from the rater being edited. */
  function UpdateOf(r: Rater): (u: RaterUpdate)
    ensures u.name == r.name && u.department == r.department && u.isActive == r.isActive
  {
    RaterUpdate(r.name, r.department, r.isActive)
  }

  /** A row after an update: the sent columns change and nothing else. */
  function ApplyUpdate(row: Rater, u: RaterUpdate): (r: Rater)
    ensures r.id == row.id && r.email == row.email && r.createdAt == row.createdAt
    ensures r.name == u.name && r.department == u.department && r.isActive == u.isActive
  {
    row.(name := u.name, department := u.department, isActive := u.isActive)
  }

  /** Saving an edit never changes a row's email, whatever was edited. */
  lemma UpdateKeepsEmail(row: Rater, edited: Rater)
    ensures ApplyUpdate(row, UpdateOf(edited)).email == row.email
    ensures edited.email == row.email ==> ApplyUpdate(row, UpdateOf(edited)) == edited.(id := row.id, createdAt := row.createdAt)
  {
  }

  /** The column `toggleRaterStatus` sends for the row `id`. */
  datatype StatusWrite = StatusWrite(id: int, isActive: bool)

  /** `toggleRaterStatus(rater)`: the opposite of the shown status. */
  function ToggleWrite(r: Rater): (w: StatusWrite)
    ensures w.id == r.id && w.isActive == !r.isActive
  {
    StatusWrite(r.id, !r.isActive)
  }

  function ApplyStatus(row: Rater, w: StatusWrite): (r: Rater)
    ensures r == row.(isActive := w.isActive)
  {
    row.(isActive := w.isActive)
  }

  /** Toggling twice gives the row back, and a toggle changes only the
      status. */
  lemma ToggleTwiceRestores(r: Rater)
    ensures ApplyStatus(r, ToggleWrite(r)).isActive != r.isActive
    ensures ApplyStatus(ApplyStatus(r, ToggleWrite(r)), ToggleWrite(ApplyStatus(r, ToggleWrite(r)))) == r
  {
  }

  /** The component's state. */
  class RatersPage {
    var raters: seq<Rater>
    var showDialog: bool
    var editingRater: Option<Rater>
    var formData: RaterForm

    constructor ()
      ensures raters == [] && !showDialog && editingRater.None? && formData == EmptyForm
    {
      raters := [];
      showDialog := false;
      editingRater := None;
      formData := EmptyForm;
    }

    /** The dialog is shown while adding or while a rater is edited. */
    predicate DialogOpen()
      reads this
    {
      showDialog || editingRater.Some?
    }

    /** `handleCreateRater`. `insertError` is the insert's error code, if
        it failed; `inserted` is the row sent. */
    method HandleCreateRater(insertError: Option<string>) returns (inserted: Option<RaterForm>, alert: Option<RaterAlert>)
      modifies this
      ensures !FormComplete(old(formData)) ==> inserted.None? && alert == Some(FillRequiredFields)
      ensures FormComplete(old(formData)) ==> inserted == Some(old(formData))
      ensures FormComplete(old(formData)) && insertError == Some(DuplicateKeyCode) ==> alert == Some(AlreadyExists)
      ensures FormComplete(old(formData)) && insertError.Some? && insertError.value != DuplicateKeyCode ==>
        alert == Some(CreateFailed)
      ensures !(FormComplete(old(formData)) && insertError.None?) ==>
        formData == old(formData) && showDialog == old(showDialog)
      ensures FormComplete(old(formData)) && insertError.None? ==>
        alert.None? && !showDialog && formData == EmptyForm
      ensures raters == old(raters) && editingRater == old(editingRater)
    {
      if formData.name == "" || formData.email == "" || formData.department == "" {
        return None, Some(FillRequiredFields);
      }
      inserted := Some(formData);
      if insertError.Some? {
        if insertError.value == DuplicateKeyCode {
          alert := Some(AlreadyExists);
        } else {
          alert := Some(CreateFailed);
        }
        return;
      }
      alert := None;
      showDialog := false;
      formData := EmptyForm;
    }

    /** `handleUpdateRater`. `updateFails` is the update's outcome; `sent`
        is the id matched and the columns sent. */
    method HandleUpdateRater(updateFails: bool) returns (sent: Option<(int, RaterUpdate)>, alert: Option<RaterAlert>)
      modifies this
      ensures old(editingRater).None? ==> sent.None? && alert.None? && editingRater.None?
      ensures old(editingRater).Some? ==> sent == Some((old(editingRater).value.id, UpdateOf(old(editingRater).value)))
      ensures old(editingRater).Some? && updateFails ==> alert == Some(UpdateFailed) && editingRater == old(editingRater)
      ensures old(editingRater).Some? && !updateFails ==> alert.None? && editingRater.None?
      ensures raters == old(raters) && formData == old(formData) && showDialog == old(showDialog)
    {
      if editingRater.None? {
        return None, None;
      }
      var r := editingRater.value;
      sent := Some((r.id, RaterUpdate(r.name, r.department, r.isActive)));
      if updateFails {
        alert := Some(UpdateFailed);
      } else {
        alert := None;
        editingRater := None;
      }
    }

    /** `toggleRaterStatus(rater)`. `updateFails` is the update's outcome;
        `sent` is the write for the rater's row. */
    method ToggleRaterStatus(rater: Rater, updateFails: bool) returns (sent: StatusWrite, alert: Option<RaterAlert>)
      modifies this
      ensures sent == ToggleWrite(rater)
      ensures alert == if updateFails then Some(StatusFailed) else None
      ensures raters == old(raters) && formData == old(formData) && showDialog == old(showDialog)
      ensures editingRater == old(editingRater)
    {
      sent := StatusWrite(rater.id, !rater.isActive);
      if updateFails {
        alert := Some(StatusFailed);
      } else {
        alert := None;
      }
    }

    /** The name box: it edits the rater being edited, else the form. */
    method ChangeName(value: string)
      modifies this
      ensures old(editingRater).Some? ==>
        editingRater == Some(old(editingRater).value.(name := value)) && formData == old(formData)
      ensures old(editingRater).None? ==> editingRater.None? && formData == old(formData).(name := value)
      ensures raters == old(raters) && showDialog == old(showDialog)
    {
      if editingRater.Some? {
        editingRater := Some(editingRater.value.(name := value));
      } else {
        formData := formData.(name := value);
      }
    }

    /** The email box: ignored while a rater is edited. */
    method ChangeEmail(value: string)
      modifies this
      ensures old(editingRater).Some? ==> editingRater == old(editingRater) && formData == old(formData)
      ensures old(editingRater).None? ==> editingRater.None? && formData == old(formData).(email := value)
      ensures raters == old(raters) && showDialog == old(showDialog)
    {
      if editingRater.None? {
        formData := formData.(email := value);
      }
    }

    /** The department select: it edits the rater being edited, else the
        form. */
    method ChangeDepartment(value: string)
      modifies this
      ensures old(editingRater).Some? ==>
        editingRater == Some(old(editingRater).value.(department := value)) && formData == old(formData)
      ensures old(editingRater).None? ==> editingRater.None? && formData == old(formData).(department := value)
      ensures raters == old(raters) && showDialog == old(showDialog)
    {
      if editingRater.Some? {
        editingRater := Some(editingRater.value.(department := value));
      } else {
        formData := formData.(department := value);
      }
    }

    /** The status checkbox, shown only while a rater is edited. */
    method ChangeActive(checked: bool)
      requires editingRater.Some?
      modifies this
      ensures editingRater == Some(old(editingRater).value.(isActive := checked))
      ensures formData == old(formData) && raters == old(raters) && showDialog == old(showDialog)
    {
      editingRater := Some(editingRater.value.(isActive := checked));
    }
  }
}

=== FILE: role_dashboard.dfy ===
/** The role landing page and the role-specific dashboard selection
    (src/components/RoleDashboard.tsx). */
module RoleDashboard {
  import opened Wrappers
  import opened AuthContext
  import opened Navigation

  /** What `RoleDashboard` renders: the spinner while loading, nothing
      otherwise. */
  datatype Landing = Landing(spinner: bool, redirect: Option<string>)

  /** `RoleDashboard`: its effect navigates (with replace) to the role's
      default path once loading is over and a role is known. */
  function RoleLanding(loading: bool, role: Option<UserRole>): (r: Landing)
    ensures r.spinner <==> loading
    ensures r.redirect.Some? <==> !loading && role.Some?
    ensures r.redirect.Some? ==> r.redirect.value == DefaultPathForRole(role.value)
  {
    Landing(loading, if !loading && role.Some? then Some(DefaultPathForRole(role.value)) else None)
  }

  /** A staff member is always sent somewhere they may open. */
  lemma LandingIsAccessible(role: UserRole)
    requires role != APPLICANT
    ensures var r := RoleLanding(false, Some(role));
      r.redirect.Some? && CanAccessPath(r.redirect.value, Some(role))
  {
    DefaultPathAccessible(role);
  }

  /** The dashboards `ConditionalDashboard` chooses from. */
  datatype Dashboard = AdminDashboard | RecruitmentDashboard | PlanningDashboard | LearningDashboard | GenericDashboard

  /** `ConditionalDashboard`: the first of `isAdmin()`, `hasRole('RSP')`,
      `hasRole('PM')`, `hasRole('LND')` that holds picks the dashboard. */
  function ConditionalDashboard(profile: Option<UserProfile>): Dashboard {
    if IsAdmin(profile) then AdminDashboard
    else if HasRole(profile, [RSP]) then RecruitmentDashboard
    else if HasRole(profile, [PM]) then PlanningDashboard
    else if HasRole(profile, [LND]) then LearningDashboard
    else GenericDashboard
  }

  /** The dashboard depends on the derived role alone: Admin, RSP, PM and LND
      each get their own, every other role and a missing profile the
      generic one. */
  lemma ConditionalDashboardByRole(profile: Option<UserProfile>)
    ensures ConditionalDashboard(profile) ==
      match RoleOf(profile)
      case Some(Admin) => AdminDashboard
      case Some(RSP) => RecruitmentDashboard
      case Some(PM) => PlanningDashboard
      case Some(LND) => LearningDashboard
      case _ => GenericDashboard
  {
  }
}

=== FILE: rsp_dashboard.dfy ===
/** The recruitment dashboard (src/modules/admin/RSPDashboard.tsx): the
    applicant table's search, status and office filters, the sorted list of
    distinct offices offered by the office filter, the job carousel's page
    buttons, and the create and update handlers for job postings. The
    database calls enter as their outcomes. */
module RspDashboard {
  import opened Wrappers
  import opened Strings
  import opened Seqs

  /** The applicant columns the dashboard selects. */
  datatype Applicant = Applicant(
    name: string, email: string, contactNumber: string, position: string, office: string, status: string)

  /** The search test for an already lower-cased `term`: the lower-cased
      name, email, position or office, or the contact number as stored,
      contains it. */
  predicate MatchesSearch(a: Applicant, term: string) {
    Includes(ToLower(a.name), term) || Includes(ToLower(a.email), term)
    || Includes(ToLower(a.position), term) || Includes(ToLower(a.office), term)
    || Includes(a.contactNumber, term)
  }

  /** A filter value that is empty or `all` filters nothing. */
  predicate Active(filter: string) {
    filter != "" && filter != "all"
  }

  /** What a row must satisfy to be listed: all three filters at once. */
  predicate Keeps(a: Applicant, searchTerm: string, statusFilter: string, officeFilter: string) {
    && (searchTerm != "" ==> MatchesSearch(a, ToLower(searchTerm)))
    && (Active(statusFilter) ==> ToLower(a.status) == statusFilter)
    && (Active(officeFilter) ==> a.office == officeFilter)
  }

  function SearchTest(term: string): Applicant -> bool {
    (a: Applicant) => MatchesSearch(a, term)
  }

  function StatusTest(filter: string): Applicant -> bool {
    (a: Applicant) => ToLower(a.status) == filter
  }

  function OfficeTest(filter: string): Applicant -> bool {
    (a: Applicant) => a.office == filter
  }

  function KeepsTest(searchTerm: string, statusFilter: string, officeFilter: string): Applicant -> bool {
    (a: Applicant) => Keeps(a, searchTerm, statusFilter, officeFilter)
  }

  /** `filtered = filtered.filter(p)` when `enabled`. */
  function Stage<T>(xs: seq<T>, enabled: bool, p: T -> bool): seq<T> {
    if enabled then Filter(xs, p) else xs
  }

  /** `filteredApplicants`: the search, then the status filter, then the
      office filter, each applied only when set. */
  function FilteredApplicants(applicants: seq<Applicant>, searchTerm: string, statusFilter: string, officeFilter: string)
    : (r: seq<Applicant>)
    ensures forall i :: 0 <= i < |r| ==> r[i] in applicants && Keeps(r[i], searchTerm, statusFilter, officeFilter)
  {
    var term := ToLower(searchTerm);
    var bySearch := Stage(applicants, searchTerm != "", SearchTest(term));
    var byStatus := Stage(bySearch, Active(statusFilter), StatusTest(statusFilter));
    Stage(byStatus, Active(officeFilter), OfficeTest(officeFilter))
  }

  /** A step that filters only when enabled filters by "disabled or
      passes". */
  lemma StageIsFilter<T>(xs: seq<T>, enabled: bool, p: T -> bool, q: T -> bool)
    requires forall x :: q(x) == (!enabled || p(x))
    ensures Stage(xs, enabled, p) == Filter(xs, q)
  {
    if enabled {
      var yes := (x: T) => true;
      FilterAll(xs, yes);
      FilterFilter(xs, yes, p, q);
    } else {
      FilterAll(xs, q);
    }
  }

  /** Three steps, each filtering only when enabled, filter by the
      conjunction of the enabled tests. */
  lemma ThreeStages<T>(xs: seq<T>, e1: bool, p1: T -> bool, e2: bool, p2: T -> bool, e3: bool, p3: T -> bool, all: T -> bool)
    requires forall x :: all(x) == ((e1 ==> p1(x)) && (e2 ==> p2(x)) && (e3 ==> p3(x)))
    ensures Stage(Stage(Stage(xs, e1, p1), e2, p2), e3, p3) == Filter(xs, all)
  {
    var q1 := (x: T) => e1 ==> p1(x);
    var q2 := (x: T) => e2 ==> p2(x);
    var q3 := (x: T) => e3 ==> p3(x);
    var q12 := (x: T) => q1(x) && q2(x);
    StageIsFilter(xs, e1, p1, q1);
    StageIsFilter(Filter(xs, q1), e2, p2, q2);
    FilterFilter(xs, q1, q2, q12);
    StageIsFilter(Filter(xs, q12), e3, p3, q3);
    FilterFilter(xs, q12, q3, all);
  }

  /** The listed rows are exactly the rows that pass all three filters, in
      their original order (so they form a subsequence of the rows). */
  lemma FilteredIsConjunction(applicants: seq<Applicant>, searchTerm: string, statusFilter: string, officeFilter: string)
    ensures FilteredApplicants(applicants, searchTerm, statusFilter, officeFilter)
      == Filter(applicants, KeepsTest(searchTerm, statusFilter, officeFilter))
  {
    ThreeStages(applicants, searchTerm != "", SearchTest(ToLower(searchTerm)),
      Active(statusFilter), StatusTest(statusFilter), Active(officeFilter), OfficeTest(officeFilter),
      KeepsTest(searchTerm, statusFilter, officeFilter));
  }

  /** No filter set lists every row. */
  lemma NoFilterListsAll(applicants: seq<Applicant>)
    ensures FilteredApplicants(applicants, "", "all", "all") == applicants
  {
  }

  /** The offices of the rows, in row order. */
  function Offices(applicants: seq<Applicant>): (r: seq<string>)
    ensures |r| == |applicants| && forall i :: 0 <= i < |r| ==> r[i] == applicants[i].office
  {
    seq(|applicants|, i requires 0 <= i < |applicants| => applicants[i].office)
  }

  predicate Distinct(xs: seq<string>) {
    forall i, j :: 0 <= i < j < |xs| ==> xs[i] != xs[j]
  }

  /** `Array.from(new Set(xs))`: each value once, at its first
      occurrence. */
  function Dedup(xs: seq<string>): (r: seq<string>)
    ensures forall y :: y in r <==> y in xs
    ensures Distinct(r)
  {
    if xs == [] then []
    else
      var rest := Dedup(xs[..|xs| - 1]);
      assert xs == xs[..|xs| - 1] + [xs[|xs| - 1]];
      if xs[|xs| - 1] in rest then rest else rest + [xs[|xs| - 1]]
  }

  /** Each entry is no greater than the next. */
  predicate Sorted(s: seq<string>) {
    forall i :: 0 <= i < |s| - 1 ==> !LexLess(s[i + 1], s[i])
  }

  /** Each entry is less than the next. */
  predicate StrictlyIncreasing(s: seq<string>) {
    forall i :: 0 <= i < |s| - 1 ==> LexLess(s[i], s[i + 1])
  }

  /** `x` placed before the first entry it does not exceed. */
  function InsertSorted(x: string, s: seq<string>): (r: seq<string>)
    ensures |r| == |s| + 1 && (r[0] == x || (|s| > 0 && r[0] == s[0]))
    ensures forall y :: y in r <==> y == x || y in s
    ensures Sorted(s) ==> Sorted(r)
    ensures StrictlyIncreasing(s) && x !in s ==> StrictlyIncreasing(r)
  {
    if s == [] then [x]
    else if LexLess(s[0], x) then
      var tail := InsertSorted(x, s[1..]);
      assert !LexLess(x, s[0]) by {
        LexLessAsymmetric(s[0], x);
      }
      assert s == [s[0]] + s[1..];
      [s[0]] + tail
    else
      assert x != s[0] ==> LexLess(x, s[0]) by {
        if x != s[0] {
          LexLessTotal(x, s[0]);
        }
      }
      [x] + s
  }

  /** Inserting adds exactly one copy of `x` and keeps every other entry
      as often as it was. */
  lemma {:induction false} InsertSortedPermutes(x: string, s: seq<string>)
    ensures multiset(InsertSorted(x, s)) == multiset(s) + multiset{x}
  {
    if s != [] && LexLess(s[0], x) {
      InsertSortedPermutes(x, s[1..]);
      assert InsertSorted(x, s) == [s[0]] + InsertSorted(x, s[1..]);
      assert s == [s[0]] + s[1..];
    }
  }

  /** The default `sort` on strings, as an insertion sort. */
  function Sort(xs: seq<string>): (r: seq<string>)
    ensures |r| == |xs|
    ensures forall y :: y in r <==> y in xs
    ensures multiset(r) == multiset(xs)
    ensures Sorted(r)
    ensures Distinct(xs) ==> StrictlyIncreasing(r)
  {
    if xs == [] then []
    else
      assert xs == [xs[0]] + xs[1..];
      assert Distinct(xs) ==> xs[0] !in xs[1..] && Distinct(xs[1..]);
      InsertSortedPermutes(xs[0], Sort(xs[1..]));
      InsertSorted(xs[0], Sort(xs[1..]))
  }

  /** `uniqueOffices`: the offices of the rows, each once, sorted. */
  function UniqueOffices(applicants: seq<Applicant>): (r: seq<string>)
    ensures forall o :: o in r <==> exists i :: 0 <= i < |applicants| && applicants[i].office == o
    ensures StrictlyIncreasing(r)
  {
    var offices := Offices(applicants);
    assert forall o :: o in offices <==> exists i :: 0 <= i < |applicants| && applicants[i].office == o;
    Sort(Dedup(offices))
  }

  /** A strictly increasing list repeats nothing: every entry is less than
      every later one. */
  lemma {:induction false} IncreasingIsDistinct(s: seq<string>)
    requires StrictlyIncreasing(s)
    ensures forall i, j :: 0 <= i < j < |s| ==> LexLess(s[i], s[j])
    ensures Distinct(s)
  {
    if |s| > 1 {
      IncreasingIsDistinct(s[1..]);
      forall j | 1 < j < |s|
        ensures LexLess(s[0], s[j])
      {
        assert LexLess(s[1], s[j]) by {
          assert s[1] == s[1..][0] && s[j] == s[1..][j - 1];
        }
        LexLessTransitive(s[0], s[1], s[j]);
      }
      assert forall i, j :: 0 <= i < j < |s| ==> LexLess(s[i], s[j]) by {
        forall i, j | 0 <= i < j < |s|
          ensures LexLess(s[i], s[j])
        {
          if i > 0 {
            assert s[i] == s[1..][i - 1] && s[j] == s[1..][j - 1];
          }
        }
      }
      forall i, j | 0 <= i < j < |s|
        ensures s[i] != s[j]
      {
        if s[i] == s[j] {
          LexLessIrreflexive(s[i]);
        }
      }
    }
  }

  /** A job posting as stored. */
  datatype Job = Job(
    id: int, title: string, itemNumber: string, salaryGrade: string,
    department: string, description: string, status: string, createdAt: string)

  /** The create form's `newJob`. */
  datatype JobDraft = JobDraft(
    title: string, itemNumber: string, salaryGrade: string,
    department: string, description: string, status: string)

  const EmptyDraft: JobDraft := JobDraft("", "", "", "", "", "Open")

  /** A draft may be created once title, item number and department are
      filled in. */
  predicate DraftComplete(d: JobDraft) {
    d.title != "" && d.itemNumber != "" && d.department != ""
  }

  /** The columns `handleUpdateJob` sends. */
  datatype JobUpdate = JobUpdate(title: string, salaryGrade: string, department: string, description: string, status: string)

  function UpdateOf(j: Job): (u: JobUpdate) {
    JobUpdate(j.title, j.salaryGrade, j.department, j.description, j.status)
  }

  /** What the update does to the stored row it matches. */
  function ApplyUpdate(row: Job, u: JobUpdate): Job {
    row.(title := u.title, salaryGrade := u.salaryGrade, department := u.department,
         description := u.description, status := u.status)
  }

  /** Saving an edited job stores every edited column except the item
      number, which keeps its stored value, as do the id and the creation
      time. */
  lemma UpdateKeepsItemNumber(row: Job, edited: Job)
    ensures ApplyUpdate(row, UpdateOf(edited)).itemNumber == row.itemNumber
    ensures ApplyUpdate(row, UpdateOf(edited))
      == edited.(id := row.id, itemNumber := row.itemNumber, createdAt := row.createdAt)
  {
  }

  /** The alerts the job handlers raise. */
  datatype JobAlert = FillRequiredFields | CreateFailed | UpdateFailed

  function JobAlertText(a: JobAlert): string {
    match a
    case FillRequiredFields => "Please fill in all required fields"
    case CreateFailed => "Failed to create job"
    case UpdateFailed => "Failed to update job"
  }

  function Max(a: int, b: int): int {
    if a >= b then a else b
  }

  function Min(a: int, b: int): int {
    if a <= b then a else b
  }

  /** The dashboard's job state. Nothing in the component sets
      `editingJob` to a job; the update handler is modelled as written. */
  class Dashboard {
    var jobs: seq<Job>
    var showJobDialog: bool
    var editingJob: Option<Job>
    var currentJobPage: int
    var newJob: JobDraft

    constructor ()
      ensures jobs == [] && !showJobDialog && editingJob.None? && currentJobPage == 0 && newJob == EmptyDraft
    {
      jobs := [];
      showJobDialog := false;
      editingJob := None;
      currentJobPage := 0;
      newJob := EmptyDraft;
    }

    /** The previous-page button, shown only while there are jobs. */
    method PreviousJob()
      requires |jobs| > 0
      modifies this
      ensures currentJobPage == Max(0, old(currentJobPage) - 1)
      ensures currentJobPage >= 0
      ensures 0 <= old(currentJobPage) < |jobs| ==> 0 <= currentJobPage < |jobs|
      ensures jobs == old(jobs) && newJob == old(newJob) && editingJob == old(editingJob)
      ensures showJobDialog == old(showJobDialog)
    {
      currentJobPage := Max(0, currentJobPage - 1);
    }

    /** The next-page button, shown only while there are jobs. */
    method NextJob()
      requires |jobs| > 0
      modifies this
      ensures currentJobPage == Min(|jobs| - 1, old(currentJobPage) + 1)
      ensures currentJobPage < |jobs|
      ensures 0 <= old(currentJobPage) < |jobs| ==> 0 <= currentJobPage < |jobs|
      ensures jobs == old(jobs) && newJob == old(newJob) && editingJob == old(editingJob)
      ensures showJobDialog == old(showJobDialog)
    {
      currentJobPage := Min(|jobs| - 1, currentJobPage + 1);
    }

    /** A carousel dot, one per job. */
    method GoToJob(index: int)
      requires 0 <= index < |jobs|
      modifies this
      ensures currentJobPage == index
      ensures jobs == old(jobs) && newJob == old(newJob) && editingJob == old(editingJob)
      ensures showJobDialog == old(showJobDialog)
    {
      currentJobPage := index;
    }

    /** `handleCreateJob`. `insertFails` is the insert's outcome; `inserted`
        is the draft sent, and `alert` the alert raised. */
    method HandleCreateJob(insertFails: bool) returns (inserted: Option<JobDraft>, alert: Option<JobAlert>)
      modifies this
      ensures !DraftComplete(old(newJob)) ==>
        inserted.None? && alert == Some(FillRequiredFields) && newJob == old(newJob) && showJobDialog == old(showJobDialog)
      ensures DraftComplete(old(newJob)) ==> inserted == Some(old(newJob))
      ensures DraftComplete(old(newJob)) && insertFails ==>
        alert == Some(CreateFailed) && newJob == old(newJob) && showJobDialog == old(showJobDialog)
      ensures DraftComplete(old(newJob)) && !insertFails ==>
        alert.None? && newJob == EmptyDraft && !showJobDialog
      ensures jobs == old(jobs) && editingJob == old(editingJob) && currentJobPage == old(currentJobPage)
    {
      if newJob.title == "" || newJob.itemNumber == "" || newJob.department == "" {
        return None, Some(FillRequiredFields);
      }
      inserted := Some(newJob);
      if insertFails {
        alert := Some(CreateFailed);
      } else {
        alert := None;
        showJobDialog := false;
        newJob := EmptyDraft;
      }
    }

    /** `handleUpdateJob`. `updateFails` is the update's outcome; `sent` is
        the id matched and the columns sent. */
    method HandleUpdateJob(updateFails: bool) returns (sent: Option<(int, JobUpdate)>, alert: Option<JobAlert>)
      modifies this
      ensures old(editingJob).None? ==> sent.None? && alert.None? && editingJob.None?
      ensures old(editingJob).Some? ==> sent == Some((old(editingJob).value.id, UpdateOf(old(editingJob).value)))
      ensures old(editingJob).Some? && updateFails ==> alert == Some(UpdateFailed) && editingJob == old(editingJob)
      ensures old(editingJob).Some? && !updateFails ==> alert.None? && editingJob.None?
      ensures jobs == old(jobs) && newJob == old(newJob) && currentJobPage == old(currentJobPage)
      ensures showJobDialog == old(showJobDialog)
    {
      if editingJob.None? {
        return None, None;
      }
      var job := editingJob.value;
      sent := Some((job.id, JobUpdate(job.title, job.salaryGrade, job.department, job.description, job.status)));
      if updateFails {
        alert := Some(UpdateFailed);
      } else {
        alert := None;
        editingJob := None;
      }
    }
  }
}

=== FILE: seqs.dfy ===
/** Order-preserving selection over sequences: JavaScript's `filter`, the
    subsequence relation that states what a filter keeps, and lookup in a
    table of entries kept in insertion order. */
module Seqs {
  import opened Wrappers

  /** `xs.filter(p)`. */
  function Filter<T>(xs: seq<T>, p: T -> bool): (r: seq<T>)
    ensures |r| <= |xs|
    ensures forall i :: 0 <= i < |r| ==> p(r[i]) && r[i] in xs
    ensures forall i :: 0 <= i < |xs| && p(xs[i]) ==> xs[i] in r
    ensures IsSubseq(r, xs)
  {
    if |xs| == 0 then []
    else
      var rest := Filter(xs[1..], p);
      if p(xs[0]) then [xs[0]] + rest else rest
  }

  /** A filter keeps every passing element as often as it occurs and drops
      every other one. */
  lemma {:induction false} FilterMultiset<T>(xs: seq<T>, p: T -> bool)
    ensures forall x :: multiset(Filter(xs, p))[x] == if p(x) then multiset(xs)[x] else 0
  {
    if |xs| > 0 {
      FilterMultiset(xs[1..], p);
      assert xs == [xs[0]] + xs[1..];
    }
  }

  /** `small` is obtained from `big` by deleting elements, keeping order. */
  ghost predicate IsSubseq<T>(small: seq<T>, big: seq<T>) {
    if |small| == 0 then true
    else if |big| == 0 then false
    else if small[0] == big[0] then IsSubseq(small[1..], big[1..])
    else IsSubseq(small, big[1..])
  }

  lemma {:induction false} SubseqRefl<T>(xs: seq<T>)
    ensures IsSubseq(xs, xs)
  {
    if |xs| > 0 {
      SubseqRefl(xs[1..]);
    }
  }

  /** Filtering with a predicate that holds everywhere keeps everything. */
  lemma {:induction false} FilterAll<T>(xs: seq<T>, p: T -> bool)
    requires forall i :: 0 <= i < |xs| ==> p(xs[i])
    ensures Filter(xs, p) == xs
  {
    if |xs| > 0 {
      FilterAll(xs[1..], p);
    }
  }

  /** Filtering with a predicate that holds nowhere keeps nothing. */
  lemma {:induction false} FilterNone<T>(xs: seq<T>, p: T -> bool)
    requires forall i :: 0 <= i < |xs| ==> !p(xs[i])
    ensures Filter(xs, p) == []
  {
    if |xs| > 0 {
      FilterNone(xs[1..], p);
    }
  }

  /** Two filters in a row are one filter by the conjunction. */
  lemma {:induction false} FilterFilter<T>(xs: seq<T>, p: T -> bool, q: T -> bool, pq: T -> bool)
    requires forall x :: pq(x) == (p(x) && q(x))
    ensures Filter(Filter(xs, p), q) == Filter(xs, pq)
  {
    if |xs| > 0 {
      FilterFilter(xs[1..], p, q, pq);
    }
  }

  /** Tests that agree on every element filter alike. */
  lemma {:induction false} FilterCongruent<T>(xs: seq<T>, p: T -> bool, q: T -> bool)
    requires forall i :: 0 <= i < |xs| ==> p(xs[i]) == q(xs[i])
    ensures Filter(xs, p) == Filter(xs, q)
  {
    if |xs| > 0 {
      assert forall i :: 0 <= i < |xs[1..]| ==> xs[1..][i] == xs[i + 1];
      FilterCongruent(xs[1..], p, q);
    }
  }

  /** The number of elements satisfying `p`. */
  function Count<T>(xs: seq<T>, p: T -> bool): (n: nat)
    ensures n <= |xs|
    ensures n == |Filter(xs, p)|
  {
    if |xs| == 0 then 0 else (if p(xs[0]) then 1 else 0) + Count(xs[1..], p)
  }

  /** A weaker test counts at least as many elements. */
  lemma {:induction false} CountMono<T>(xs: seq<T>, p: T -> bool, q: T -> bool)
    requires forall i :: 0 <= i < |xs| && p(xs[i]) ==> q(xs[i])
    ensures Count(xs, p) <= Count(xs, q)
  {
    if |xs| > 0 {
      CountMono(xs[1..], p, q);
    }
  }

  /** Two tests that never hold together count at most every element. */
  lemma {:induction false} CountDisjoint<T>(xs: seq<T>, p: T -> bool, q: T -> bool)
    requires forall i :: 0 <= i < |xs| ==> !(p(xs[i]) && q(xs[i]))
    ensures Count(xs, p) + Count(xs, q) <= |xs|
  {
    if |xs| > 0 {
      CountDisjoint(xs[1..], p, q);
    }
  }

  /** Filtering a concatenation filters each part. */
  lemma {:induction false} FilterSplit<T>(xs: seq<T>, ys: seq<T>, p: T -> bool)
    ensures Filter(xs + ys, p) == Filter(xs, p) + Filter(ys, p)
  {
    if |xs| > 0 {
      assert (xs + ys)[1..] == xs[1..] + ys;
      FilterSplit(xs[1..], ys, p);
    } else {
      assert xs + ys == ys;
    }
  }

  /** The value of the first entry with key `key`: a read of an object's
      own property, the object given as its entries. */
  function Lookup<K(==), V>(entries: seq<(K, V)>, key: K): (r: Option<V>)
    ensures r.None? <==> forall k :: 0 <= k < |entries| ==> entries[k].0 != key
    ensures r.Some? ==> exists k :: 0 <= k < |entries| && entries[k] == (key, r.value)
  {
    if |entries| == 0 then None
    else if entries[0].0 == key then Some(entries[0].1)
    else
      var r := Lookup(entries[1..], key);
      assert forall k :: 1 <= k < |entries| ==> entries[k] == entries[1..][k - 1];
      r
  }
}

=== FILE: sign_in.dfy ===
/** What the hosted sign-in service and the `user_roles` lookup answer, as
    seen by the two staff sign-in forms. */
module SignIn {
  import opened Wrappers

  /** The signed-in user; the service may omit the email. */
  datatype AuthUser = AuthUser(id: string, email: Option<string>)

  /** `signInWithPassword`: an error or no user, a rejected promise, or a
      user. */
  datatype AuthReply = AuthRejected | AuthThrew | AuthSignedIn(user: AuthUser)

  /** The single-row `user_roles` read: an error or no row, a rejected
      promise, or the row's one selected column (nullable). */
  datatype RoleReply = RoleMissing | RoleThrew | RoleRow(column: Option<string>)

  /** `authData.user.email ?? typed`. */
  function ResolvedEmail(user: AuthUser, typed: string): (r: string)
    ensures user.email.Some? ==> r == user.email.value
    ensures user.email.None? ==> r == typed
  {
    if user.email.Some? then user.email.value else typed
  }

  /** `!value`: a nullable text that is null or empty. */
  predicate Falsy(v: Option<string>) {
    v.None? || v.value == ""
  }
}

=== FILE: strings.dfy ===
/** The string operations the source relies on, stated for `seq<char>`:
    JavaScript's whitespace class (`\s`, `trim`), `includes`, ASCII
    lower-casing, lexicographic order (`<`, `sort`), `Array.join`,
    `String(n)`, `padStart` and `parseInt`. */
module Strings {
  import opened Wrappers

  /** JavaScript WhiteSpace and LineTerminator characters: the class `\s`
      and what `String.prototype.trim` removes. */
  predicate IsWhitespace(c: char) {
    c == ' ' || c == '\t' || c == '\n' || c == '\r' || c == '\U{000B}' || c == '\U{000C}'
    || c == '\U{00A0}' || c == '\U{1680}' || ('\U{2000}' <= c <= '\U{200A}')
    || c == '\U{2028}' || c == '\U{2029}' || c == '\U{202F}' || c == '\U{205F}'
    || c == '\U{3000}' || c == '\U{FEFF}'
  }

  /** `!s.trim()`: the string is empty once trimmed. */
  predicate Blank(s: string) {
    forall i :: 0 <= i < |s| ==> IsWhitespace(s[i])
  }

  lemma BlankConcat(a: string, b: string)
    ensures Blank(a + b) <==> Blank(a) && Blank(b)
  {
    if Blank(a + b) {
      assert forall i :: 0 <= i < |a| ==> a[i] == (a + b)[i];
      assert forall i :: 0 <= i < |b| ==> b[i] == (a + b)[|a| + i];
    }
  }

  /** The number of whitespace characters `s` starts with. */
  function LeadingBlank(s: string): (k: nat)
    ensures k <= |s| && Blank(s[..k])
    ensures k < |s| ==> !IsWhitespace(s[k])
  {
    if |s| > 0 && IsWhitespace(s[0]) then 1 + LeadingBlank(s[1..]) else 0
  }

  /** The length of `s` without the whitespace it ends with. */
  function TrailingStart(s: string): (k: nat)
    ensures k <= |s| && Blank(s[k..])
    ensures k > 0 ==> !IsWhitespace(s[k - 1])
  {
    if |s| > 0 && IsWhitespace(s[|s| - 1]) then
      var k := TrailingStart(s[..|s| - 1]);
      assert forall i :: k <= i < |s| - 1 ==> s[i] == s[..|s| - 1][k..][i - k];
      k
    else |s|
  }

  /** `s.trimStart()`. */
  function TrimStart(s: string): (r: string)
    ensures r == [] || !IsWhitespace(r[0])
  {
    s[LeadingBlank(s)..]
  }

  /** `s.trim()`: a contiguous piece of `s`, with only whitespace removed
      around it, that neither starts nor ends with whitespace. */
  function Trim(s: string): (r: string)
    ensures exists i, j :: 0 <= i <= j <= |s| && r == s[i..j] && Blank(s[..i]) && Blank(s[j..])
    ensures r == [] || (!IsWhitespace(r[0]) && !IsWhitespace(r[|r| - 1]))
    ensures r == [] <==> Blank(s)
  {
    var t := TrimStart(s);
    var i := LeadingBlank(s);
    var j := i + TrailingStart(t);
    assert t[TrailingStart(t)..] == s[j..];
    BlankConcat(s[..i], s[i..]);
    s[i..j]
  }

  /** `s.length`: JavaScript counts UTF-16 code units, so a character
      outside the Basic Multilingual Plane counts twice. */
  function Utf16Length(s: string): (n: nat)
    ensures |s| <= n <= 2 * |s|
    ensures n == |s| <==> forall k :: 0 <= k < |s| ==> s[k] as int < 0x1_0000
  {
    if s == [] then 0
    else
      var rest := Utf16Length(s[1..]);
      assert forall k :: 1 <= k < |s| ==> s[k] == s[1..][k - 1];
      (if s[0] as int < 0x1_0000 then 1 else 2) + rest
  }

  /** `sub` occurs in `s` starting at index `i`. */
  predicate OccursAt(s: string, sub: string, i: int) {
    0 <= i <= |s| - |sub| && s[i..i + |sub|] == sub
  }

  /** `s.includes(sub)`. */
  ghost predicate Contains(s: string, sub: string) {
    exists i :: OccursAt(s, sub, i)
  }

  /** `includes` computed by scanning; agrees with `Contains`. */
  function Includes(s: string, sub: string): (b: bool)
    ensures b <==> Contains(s, sub)
  {
    if |sub| <= |s| && s[..|sub|] == sub then
      assert OccursAt(s, sub, 0);
      true
    else if |s| <= |sub| then
      assert !Contains(s, sub) by {
        if i :| OccursAt(s, sub, i) {
        }
      }
      false
    else
      var b := Includes(s[1..], sub);
      assert Contains(s, sub) <==> Contains(s[1..], sub) by {
        if i :| OccursAt(s, sub, i) {
          if i > 0 {
            assert OccursAt(s[1..], sub, i - 1);
          }
        }
        if i :| OccursAt(s[1..], sub, i) {
          assert OccursAt(s, sub, i + 1);
        }
      }
      b
  }

  function LowerChar(c: char): char {
    if 'A' <= c <= 'Z' then (c as int + 32) as char else c
  }

  /** `s.toLowerCase()` on the ASCII letters. */
  function ToLower(s: string): (r: string)
    ensures |r| == |s| && forall i :: 0 <= i < |s| ==> r[i] == LowerChar(s[i])
  {
    seq(|s|, i requires 0 <= i < |s| => LowerChar(s[i]))
  }

  /** Every character of an included string occurs in the including one. */
  lemma IncludedCharsOccur(s: string, sub: string)
    requires Includes(s, sub)
    ensures forall c :: c in sub ==> c in s
  {
    var i :| OccursAt(s, sub, i);
    forall c | c in sub
      ensures c in s
    {
      var k :| 0 <= k < |sub| && sub[k] == c;
      assert s[i..i + |sub|][k] == s[i + k];
    }
  }

  /** A string lacking one of the characters of `sub` does not include
      `sub`. */
  lemma NotIncludesMissingChar(s: string, sub: string, c: char)
    requires c in sub && c !in s
    ensures !Includes(s, sub)
  {
    if Includes(s, sub) {
      IncludedCharsOccur(s, sub);
    }
  }

  /** Lowercasing twice is lowercasing once. */
  lemma ToLowerIdempotent(s: string)
    ensures ToLower(ToLower(s)) == ToLower(s)
  {
    var once := ToLower(s);
    forall i | 0 <= i < |s|
      ensures LowerChar(once[i]) == once[i]
    {
      assert once[i] == LowerChar(s[i]);
    }
  }

  /** Every string includes the empty string. */
  lemma IncludesEmpty(s: string)
    ensures Includes(s, "")
  {
    assert s[..0] == "";
  }

  /** `parts.join(sep)`. */
  function Join(parts: seq<string>, sep: string): string {
    if |parts| == 0 then ""
    else if |parts| == 1 then parts[0]
    else parts[0] + sep + Join(parts[1..], sep)
  }

  /** Strict lexicographic order of JavaScript's `<` on strings and of the
      default `sort`, comparing characters by code point. */
  predicate LexLess(a: string, b: string) {
    if |a| == 0 then |b| > 0
    else if |b| == 0 then false
    else if a[0] < b[0] then true
    else a[0] == b[0] && LexLess(a[1..], b[1..])
  }

  lemma {:induction false} LexLessIrreflexive(a: string)
    ensures !LexLess(a, a)
  {
    if |a| > 0 {
      LexLessIrreflexive(a[1..]);
    }
  }

  lemma {:induction false} LexLessTransitive(a: string, b: string, c: string)
    requires LexLess(a, b) && LexLess(b, c)
    ensures LexLess(a, c)
  {
    if |a| > 0 && a[0] == b[0] && b[0] == c[0] {
      LexLessTransitive(a[1..], b[1..], c[1..]);
    }
  }

  lemma {:induction false} LexLessTotal(a: string, b: string)
    requires a != b
    ensures LexLess(a, b) || LexLess(b, a)
  {
    if |a| > 0 && |b| > 0 && a[0] == b[0] {
      LexLessTotal(a[1..], b[1..]);
    }
  }

  lemma LexLessAsymmetric(a: string, b: string)
    requires LexLess(a, b)
    ensures !LexLess(b, a)
  {
    if LexLess(b, a) {
      LexLessTransitive(a, b, a);
      LexLessIrreflexive(a);
    }
  }

  predicate IsDigit(c: char) {
    '0' <= c <= '9'
  }

  function DigitChar(d: nat): char
    requires d < 10
  {
    ('0' as int + d) as char
  }

  /** `String(n)` for a non-negative integer: its decimal digits, without
      leading zeros. */
  function DecimalString(n: nat): (r: string)
    ensures |r| >= 1 && (forall i :: 0 <= i < |r| ==> IsDigit(r[i]))
    ensures r[0] != '0' || n == 0
    ensures n < 10 <==> |r| == 1
  {
    if n < 10 then [DigitChar(n)] else DecimalString(n / 10) + [DigitChar(n % 10)]
  }

  /** `s.padStart(width, pad)`. */
  function PadStart(s: string, width: nat, pad: char): (r: string)
    ensures |r| == if |s| >= width then |s| else width
    ensures r[|r| - |s|..] == s
    ensures forall i :: 0 <= i < |r| - |s| ==> r[i] == pad
  {
    if |s| >= width then s else seq(width - |s|, _ => pad) + s
  }

  /** The value of a digit in base 10 or 16, or -1 when it is not one. */
  function DigitValue(c: char, base: nat): int {
    if '0' <= c <= '9' && (c as int - '0' as int) < base then c as int - '0' as int
    else if base == 16 && 'a' <= c <= 'f' then c as int - 'a' as int + 10
    else if base == 16 && 'A' <= c <= 'F' then c as int - 'A' as int + 10
    else -1
  }

  /** The length of the longest prefix of `s` made of digits of `base`. */
  function DigitRun(s: string, base: nat): (k: nat)
    ensures k <= |s|
    ensures forall i :: 0 <= i < k ==> DigitValue(s[i], base) >= 0
    ensures k < |s| ==> DigitValue(s[k], base) < 0
  {
    if |s| == 0 || DigitValue(s[0], base) < 0 then 0 else 1 + DigitRun(s[1..], base)
  }

  /** The value of a run of digits, most significant first. */
  function DigitsValue(ds: string, base: nat): int {
    if |ds| == 0 then 0
    else DigitsValue(ds[..|ds| - 1], base) * base + DigitValue(ds[|ds| - 1], base)
  }

  /** The digits after the sign: a `0x`/`0X` prefix selects base 16, then
      the longest run of digits counts; `None` when there is none. */
  function ParseMagnitude(u: string): Option<int> {
    var hex := |u| >= 2 && u[0] == '0' && (u[1] == 'x' || u[1] == 'X');
    var base := if hex then 16 else 10;
    var body := if hex then u[2..] else u;
    var k := DigitRun(body, base);
    if k == 0 then None else Some(DigitsValue(body[..k], base))
  }

  /** `parseInt(s)` without a radix: leading whitespace skipped, an optional
      sign, then the magnitude; `None` stands for `NaN` (no digit at all). */
  function ParseInt(s: string): Option<int> {
    var t := TrimStart(s);
    if |t| > 0 && t[0] == '-' then
      match ParseMagnitude(t[1..])
      case Some(v) => Some(-v)
      case None => None
    else if |t| > 0 && t[0] == '+' then ParseMagnitude(t[1..])
    else ParseMagnitude(t)
  }

  lemma {:induction false} DecimalDigitsValue(n: nat)
    ensures DigitRun(DecimalString(n), 10) == |DecimalString(n)|
    ensures DigitsValue(DecimalString(n), 10) == n
  {
    var r := DecimalString(n);
    if n >= 10 {
      DecimalDigitsValue(n / 10);
      assert r[..|r| - 1] == DecimalString(n / 10);
    }
    DigitRunAll(r);
  }

  lemma {:induction false} DigitRunAll(s: string)
    requires forall i :: 0 <= i < |s| ==> IsDigit(s[i])
    ensures DigitRun(s, 10) == |s|
  {
    if |s| > 0 {
      DigitRunAll(s[1..]);
    }
  }

  /** A non-empty run of decimal digits parses to its value. */
  lemma ParseIntDigits(s: string)
    requires |s| >= 1 && forall i :: 0 <= i < |s| ==> IsDigit(s[i])
    ensures ParseInt(s) == Some(DigitsValue(s, 10))
  {
    assert !IsWhitespace(s[0]) && s[0] != '-' && s[0] != '+';
    assert LeadingBlank(s) == 0;
    assert TrimStart(s) == s;
    ParseMagnitudeDigits(s);
  }

  lemma ParseMagnitudeDigits(s: string)
    requires |s| >= 1 && forall i :: 0 <= i < |s| ==> IsDigit(s[i])
    ensures ParseMagnitude(s) == Some(DigitsValue(s, 10))
  {
    DigitRunAll(s);
    assert s[..|s|] == s;
  }

  /** `parseInt(String(n)) === n` for every non-negative integer. */
  lemma ParseIntDecimalString(n: nat)
    ensures ParseInt(DecimalString(n)) == Some(n)
  {
    DecimalDigitsValue(n);
    ParseIntDigits(DecimalString(n));
  }
}

=== FILE: validation.dfy ===
/** The applicant intake validators (src/utils/validation.ts): the form
    check, which gives every failing field its own message, and the file
    check, which reports the first problem only. The two regular
    expressions are stated as character-class predicates. */
module Validation {
  import opened Wrappers
  import opened Strings
  import opened Seqs
  import opened Files

  /** The fields of the applicant form. */
  datatype Field = Name | Address | ContactNumber | Email | Position | ItemNumber | Office | IsPwd

  datatype ApplicantFormData = ApplicantFormData(
    name: string, address: string, contactNumber: string, email: string,
    position: string, itemNumber: string, office: string, isPwd: bool)

  /** A character of `[\d\s\-\+\(\)]`. */
  predicate ContactChar(c: char) {
    IsDigit(c) || IsWhitespace(c) || c == '-' || c == '+' || c == '(' || c == ')'
  }

  /** `/^[\d\s\-\+\(\)]+$/.test(s)`. */
  predicate ContactPattern(s: string) {
    |s| > 0 && forall k :: 0 <= k < |s| ==> ContactChar(s[k])
  }

  /** `s` splits as `a@b.c` at the `@` at `i` and the `.` at `j`, with `a`,
      `b`, `c` non-empty and no other `@` and no whitespace anywhere. */
  predicate EmailSplit(s: string, i: int, j: int) {
    0 < i && i + 1 < j && j + 1 < |s| && s[i] == '@' && s[j] == '.'
    && forall k :: 0 <= k < |s| ==> !IsWhitespace(s[k]) && (s[k] == '@' ==> k == i)
  }

  /** `/^[^\s@]+@[^\s@]+\.[^\s@]+$/.test(s)`. */
  predicate EmailPattern(s: string) {
    exists i, j :: 0 <= i < j < |s| && EmailSplit(s, i, j)
  }

  lemma EmailPatternExamples()
    ensures EmailPattern("a@b.c")
    ensures !EmailPattern("a@bc")
    ensures !EmailPattern("@b.c")
  {
    assert EmailSplit("a@b.c", 1, 3);
    assert !EmailPattern("a@bc") by {
      forall i, j | 0 <= i < j < 4
        ensures !EmailSplit("a@bc", i, j)
      {
      }
    }
  }

  /** The messages the form check gives, one per distinct text. */
  datatype FormMessage =
    | NameRequired | NameTooShort | AddressRequired | AddressTooShort
    | ContactRequired | ContactInvalid | EmailRequired | EmailInvalid
    | PositionRequired | OfficeRequired

  /** The text shown for each message. */
  function FormText(m: FormMessage): string {
    match m
    case NameRequired => "Name is required"
    case NameTooShort => "Name must be at least 2 characters"
    case AddressRequired => "Address is required"
    case AddressTooShort => "Address must be at least 5 characters"
    case ContactRequired => "Contact number is required"
    case ContactInvalid => "Invalid contact number format"
    case EmailRequired => "Email is required"
    case EmailInvalid => "Invalid email format"
    case PositionRequired => "Position is required"
    case OfficeRequired => "Office is required"
  }

  /** The check of a field with a minimum length: "required" when blank,
      then "too short" when the trimmed text has fewer than `min` UTF-16
      code units. */
  function LengthError(s: string, min: nat, required: FormMessage, tooShort: FormMessage): (r: Option<FormMessage>)
  {
    if Blank(s) then Some(required)
    else if Utf16Length(Trim(s)) < min then Some(tooShort) else None
  }

  /** The check of a field with a format: "required" when blank, then
      "invalid" when the text as typed does not match. */
  function FormatError(s: string, matches: bool, required: FormMessage, invalid: FormMessage): (r: Option<FormMessage>)
  {
    if Blank(s) then Some(required)
    else if !matches then Some(invalid) else None
  }

  /** The check of a field that must only be non-blank. */
  function RequiredError(s: string, required: FormMessage): (r: Option<FormMessage>)
  {
    if Blank(s) then Some(required) else None
  }

  /** The message a field gets, if any: "required" first, then the length
      or format check. The length checks use the trimmed text; the format
      checks the text as typed. */
  function FieldError(data: ApplicantFormData, f: Field): (r: Option<FormMessage>)
    ensures f == ItemNumber || f == IsPwd ==> r.None?
  {
    match f
    case Name => LengthError(data.name, 2, NameRequired, NameTooShort)
    case Address => LengthError(data.address, 5, AddressRequired, AddressTooShort)
    case ContactNumber => FormatError(data.contactNumber, ContactPattern(data.contactNumber), ContactRequired, ContactInvalid)
    case Email => FormatError(data.email, EmailPattern(data.email), EmailRequired, EmailInvalid)
    case Position => RequiredError(data.position, PositionRequired)
    case Office => RequiredError(data.office, OfficeRequired)
    case ItemNumber => None
    case IsPwd => None
  }

  /** The form passes: the conditions the form's fields must meet. */
  predicate FormValid(data: ApplicantFormData) {
    Utf16Length(Trim(data.name)) >= 2 && Utf16Length(Trim(data.address)) >= 5
    && !Blank(data.contactNumber) && ContactPattern(data.contactNumber)
    && !Blank(data.email) && EmailPattern(data.email)
    && !Blank(data.position) && !Blank(data.office)
  }

  /** The `errors` object `validateApplicantForm` fills: a message per
      failing field, the key absent otherwise. Only the six checked fields
      can ever be set. */
  datatype FormErrors = FormErrors(
    name: Option<FormMessage>, address: Option<FormMessage>, contactNumber: Option<FormMessage>,
    email: Option<FormMessage>, position: Option<FormMessage>, office: Option<FormMessage>)

  const NoErrors := FormErrors(None, None, None, None, None, None)

  /** `errors[field]`. */
  function Entry(errors: FormErrors, f: Field): Option<FormMessage> {
    match f
    case Name => errors.name
    case Address => errors.address
    case ContactNumber => errors.contactNumber
    case Email => errors.email
    case Position => errors.position
    case Office => errors.office
    case ItemNumber => None
    case IsPwd => None
  }

  /** `Object.keys(errors).length === 0`. */
  predicate Empty(errors: FormErrors) {
    forall f :: Entry(errors, f).None?
  }

  /** An errors object with no entry is the empty object. */
  lemma EmptyIsNoErrors(errors: FormErrors)
    requires Empty(errors)
    ensures errors == NoErrors
  {
    assert Entry(errors, Name).None? && Entry(errors, Address).None? && Entry(errors, ContactNumber).None?;
    assert Entry(errors, Email).None? && Entry(errors, Position).None? && Entry(errors, Office).None?;
  }

  /** `validateApplicantForm(data)`: each field gets exactly its own
      message, if it fails, and the result is empty exactly when the form is
      valid. */
  method ValidateApplicantForm(data: ApplicantFormData) returns (errors: FormErrors)
    ensures forall f :: Entry(errors, f) == FieldError(data, f)
    ensures Empty(errors) <==> FormValid(data)
  {
    errors := NoErrors;
    var name := LengthError(data.name, 2, NameRequired, NameTooShort);
    if name.Some? {
      errors := errors.(name := name);
    }
    assert errors.name == FieldError(data, Name);
    var address := LengthError(data.address, 5, AddressRequired, AddressTooShort);
    if address.Some? {
      errors := errors.(address := address);
    }
    assert errors.address == FieldError(data, Address);
    var contact := FormatError(data.contactNumber, ContactPattern(data.contactNumber), ContactRequired, ContactInvalid);
    if contact.Some? {
      errors := errors.(contactNumber := contact);
    }
    assert errors.contactNumber == FieldError(data, ContactNumber);
    var email := FormatError(data.email, EmailPattern(data.email), EmailRequired, EmailInvalid);
    if email.Some? {
      errors := errors.(email := email);
    }
    assert errors.email == FieldError(data, Email);
    var position := RequiredError(data.position, PositionRequired);
    if position.Some? {
      errors := errors.(position := position);
    }
    assert errors.position == FieldError(data, Position);
    var office := RequiredError(data.office, OfficeRequired);
    if office.Some? {
      errors := errors.(office := office);
    }
    assert errors.office == FieldError(data, Office);
    EntriesAreFieldErrors(errors, data);
    FormValidIffNoFieldError(data);
  }

  /** Field by field agreement is agreement on every field. */
  lemma EntriesAreFieldErrors(errors: FormErrors, data: ApplicantFormData)
    requires errors.name == FieldError(data, Name) && errors.address == FieldError(data, Address)
    requires errors.contactNumber == FieldError(data, ContactNumber) && errors.email == FieldError(data, Email)
    requires errors.position == FieldError(data, Position) && errors.office == FieldError(data, Office)
    ensures forall f :: Entry(errors, f) == FieldError(data, f)
  {
    EntriesAgree(errors, f => FieldError(data, f));
  }

  /** The same for any per-field answer that, like `FieldError`, leaves the
      two unchecked fields alone. */
  lemma EntriesAgree(errors: FormErrors, g: Field -> Option<FormMessage>)
    requires errors.name == g(Name) && errors.address == g(Address)
    requires errors.contactNumber == g(ContactNumber) && errors.email == g(Email)
    requires errors.position == g(Position) && errors.office == g(Office)
    requires g(ItemNumber).None? && g(IsPwd).None?
    ensures forall f :: Entry(errors, f) == g(f)
  {
    forall f
      ensures Entry(errors, f) == g(f)
    {
      match f
      case Name =>
      case Address =>
      case ContactNumber =>
      case Email =>
      case Position =>
      case Office =>
      case ItemNumber =>
      case IsPwd =>
    }
  }

  lemma FormValidIffNoFieldError(data: ApplicantFormData)
    ensures FormValid(data) <==> forall f :: FieldError(data, f).None?
  {
    if FormValid(data) {
      forall f
        ensures FieldError(data, f).None?
      {
        ValidFieldPasses(data, f);
      }
    }
    if forall f :: FieldError(data, f).None? {
      PassingFieldsValid(data);
    }
  }

  /** Every field of a valid form passes its check. */
  lemma ValidFieldPasses(data: ApplicantFormData, f: Field)
    requires FormValid(data)
    ensures FieldError(data, f).None?
  {
    match f
    case Name => LengthErrorNone(data.name, 2, NameRequired, NameTooShort);
    case Address => LengthErrorNone(data.address, 5, AddressRequired, AddressTooShort);
    case ContactNumber =>
    case Email =>
    case Position =>
    case Office =>
    case ItemNumber =>
    case IsPwd =>
  }

  /** A form whose every field passes is valid. */
  lemma PassingFieldsValid(data: ApplicantFormData)
    requires forall f :: FieldError(data, f).None?
    ensures FormValid(data)
  {
    assert FieldError(data, Name).None? && FieldError(data, Address).None?;
    LengthErrorNone(data.name, 2, NameRequired, NameTooShort);
    LengthErrorNone(data.address, 5, AddressRequired, AddressTooShort);
    assert FieldError(data, ContactNumber).None? && FieldError(data, Email).None?;
    assert FieldError(data, Position).None? && FieldError(data, Office).None?;
  }

  /** A positive minimum length already rules out a blank field. */
  lemma LengthErrorNone(s: string, min: nat, required: FormMessage, tooShort: FormMessage)
    requires min > 0
    ensures LengthError(s, min, required, tooShort).None? <==> Utf16Length(Trim(s)) >= min
  {
    if Blank(s) {
      assert Trim(s) == [];
    }
  }

  /** The document types an application needs. */
  datatype DocType =
    | ApplicationLetter | PdsWithPhoto | EligibilityProof
    | TrainingCertificate | TranscriptOfRecords | DrugTest

  /** The required types in the order they are reported. */
  const RequiredDocs: seq<DocType> := [
    ApplicationLetter, PdsWithPhoto, EligibilityProof,
    TrainingCertificate, TranscriptOfRecords, DrugTest]

  /** The `documentType` value a categorized file carries. */
  function DocKey(d: DocType): string {
    match d
    case ApplicationLetter => "application_letter"
    case PdsWithPhoto => "pds_with_photo"
    case EligibilityProof => "eligibility_proof"
    case TrainingCertificate => "training_certificate"
    case TranscriptOfRecords => "transcript_of_records"
    case DrugTest => "drug_test"
  }

  /** The name a missing document is reported by. */
  function DocName(d: DocType): string {
    match d
    case ApplicationLetter => "Application Letter"
    case PdsWithPhoto => "Personal Data Sheet (PDS)"
    case EligibilityProof => "Proof of Eligibility Rating/License"
    case TrainingCertificate => "Certificate of Relevant Training/Seminars"
    case TranscriptOfRecords => "Transcript of Records"
    case DrugTest => "Drug Test Result"
  }

  /** The required types whose key is not among `uploaded`, in the
      required order. */
  function MissingRequired(uploaded: seq<string>): (r: seq<DocType>)
    ensures IsSubseq(r, RequiredDocs)
    ensures forall i :: 0 <= i < |r| ==> DocKey(r[i]) !in uploaded
    ensures forall d :: d in RequiredDocs && DocKey(d) !in uploaded ==> d in r
  {
    Filter(RequiredDocs, (d: DocType) => DocKey(d) !in uploaded)
  }

  const MaxFileSize: nat := 10 * 1024 * 1024

  const AllowedTypes: seq<string> := [
    "application/pdf", "application/msword",
    "application/vnd.openxmlformats-officedocument.wordprocessingml.document",
    "image/jpeg", "image/png", "image/jpg"]

  /** The problems the file check reports, one per message. */
  datatype FileProblem =
    | MissingDocuments(missing: seq<DocType>)
    | NoFiles
    | TooLarge(fileName: string)
    | UnsupportedFormat(fileName: string)

  /** The text shown for each problem. */
  function FileText(p: FileProblem): string {
    match p
    case MissingDocuments(missing) =>
      "Missing required documents: " + Join(seq(|missing|, i requires 0 <= i < |missing| => DocName(missing[i])), ", ")
    case NoFiles => "At least one file is required"
    case TooLarge(name) => "File \"" + name + "\" exceeds 10MB limit"
    case UnsupportedFormat(name) =>
      "File \"" + name + "\" has unsupported format. Please upload PDF, DOC, DOCX, JPG, or PNG files"
  }

  /** The problem with one file: size first, then type. */
  function FileError(f: File): (r: Option<FileProblem>)
    ensures r.None? <==> f.size <= MaxFileSize && f.mime in AllowedTypes
    ensures r.Some? ==> (r.value.TooLarge? || r.value.UnsupportedFormat?) && r.value.fileName == f.name
    ensures r.Some? ==> (r.value.TooLarge? <==> f.size > MaxFileSize)
  {
    if f.size > MaxFileSize then Some(TooLarge(f.name))
    else if f.mime !in AllowedTypes then Some(UnsupportedFormat(f.name))
    else None
  }

  /** The first file's message, scanning in order. */
  function FirstFileError(files: seq<File>): (r: Option<FileProblem>)
  {
    if |files| == 0 then None
    else if FileError(files[0]).Some? then FileError(files[0])
    else FirstFileError(files[1..])
  }

  /** The scan finds nothing exactly when every file passes, and otherwise
      reports the message of a file that all earlier files pass. */
  lemma {:induction false} FirstFileErrorSpec(files: seq<File>)
    ensures FirstFileError(files).None? <==> forall k :: 0 <= k < |files| ==> FileError(files[k]).None?
    ensures FirstFileError(files).Some? ==>
      exists k :: 0 <= k < |files| && FirstFileError(files) == FileError(files[k])
        && forall m :: 0 <= m < k ==> FileError(files[m]).None?
  {
    if |files| > 0 {
      FirstFileErrorSpec(files[1..]);
      assert forall k :: 1 <= k < |files| ==> files[k] == files[1..][k - 1];
      if FileError(files[0]).None? && FirstFileError(files[1..]).Some? {
        var k :| 0 <= k < |files[1..]| && FirstFileError(files[1..]) == FileError(files[1..][k])
          && forall m :: 0 <= m < k ==> FileError(files[1..][m]).None?;
        assert FirstFileError(files) == FileError(files[k + 1]);
        assert forall m :: 0 <= m < k + 1 ==> FileError(files[m]).None? by {
          forall m | 0 <= m < k + 1
            ensures FileError(files[m]).None?
          {
            if m > 0 {
              assert files[m] == files[1..][m - 1];
            }
          }
        }
      }
    }
  }

  /** What `validateFiles(files, categorized)` returns; `categorized` is
      the document types of the categorized files, when given (an empty
      list counts as given). */
  function FilesVerdict(files: seq<File>, categorized: Option<seq<string>>): Option<FileProblem> {
    if categorized.Some? && |MissingRequired(categorized.value)| > 0 then Some(MissingDocuments(MissingRequired(categorized.value)))
    else if categorized.None? && |files| == 0 then Some(NoFiles)
    else FirstFileError(files)
  }

  /** `validateFiles(files, categorized)`. */
  method ValidateFiles(files: seq<File>, categorized: Option<seq<string>>) returns (r: Option<FileProblem>)
    ensures r == FilesVerdict(files, categorized)
  {
    if categorized.Some? {
      var missing := MissingRequired(categorized.value);
      if |missing| > 0 {
        return Some(MissingDocuments(missing));
      }
    } else if |files| == 0 {
      return Some(NoFiles);
    }
    var i := 0;
    while i < |files|
      invariant 0 <= i <= |files|
      invariant FirstFileError(files[i..]) == FirstFileError(files)
    {
      assert files[i..][1..] == files[i + 1..];
      if files[i].size > MaxFileSize {
        return Some(TooLarge(files[i].name));
      }
      if files[i].mime !in AllowedTypes {
        return Some(UnsupportedFormat(files[i].name));
      }
      i := i + 1;
    }
    return None;
  }

  /** Without categorized files, the files pass exactly when there is at
      least one and each is within 10 MB (inclusive) and of an allowed
      type. */
  lemma FilesVerdictUncategorized(files: seq<File>)
    ensures FilesVerdict(files, None).None? <==>
      |files| > 0 && forall k :: 0 <= k < |files| ==> files[k].size <= MaxFileSize && files[k].mime in AllowedTypes
  {
    FirstFileErrorSpec(files);
  }

  /** An empty categorized list misses every required document. */
  lemma NothingCategorizedMissesAll()
    ensures MissingRequired([]) == RequiredDocs
  {
    Seqs.FilterAll(RequiredDocs, (d: DocType) => DocKey(d) !in []);
  }

  /** With categorized files, any missing required type is reported before
      the files are looked at; with every type present the files are
      checked as without categories. */
  lemma MissingDocumentsFirst(files: seq<File>, categorized: seq<string>)
    ensures |MissingRequired(categorized)| > 0 ==>
      FilesVerdict(files, Some(categorized)) == Some(MissingDocuments(MissingRequired(categorized)))
    ensures (forall d :: d in RequiredDocs ==> DocKey(d) in categorized) ==>
      FilesVerdict(files, Some(categorized)) == FirstFileError(files)
  {
    if forall d :: d in RequiredDocs ==> DocKey(d) in categorized {
      Seqs.FilterNone(RequiredDocs, (d: DocType) => DocKey(d) !in categorized);
    }
  }

  /** The size limit is inclusive: a file of exactly 10 MB of an allowed
      type passes, one byte more does not. */
  lemma SizeLimitInclusive(name: string, mime: string)
    requires mime in AllowedTypes
    ensures FileError(File(name, MaxFileSize, mime)).None?
    ensures FileError(File(name, MaxFileSize + 1, mime)) == Some(TooLarge(name))
  {
  }
}

=== FILE: wrappers.dfy ===
/** Option and Result values for the source's `null`-or-value returns and its
    `{ data, error }` results. */
module Wrappers {

  datatype Option<+T> = None | Some(value: T) {
    function GetOr(default: T): T {
      match this
      case Some(v) => v
      case None => default
    }
  }

  datatype Result<+R, +E> = Ok(value: R) | Err(error: E)
}
